=== FILE: README.md ===
# Asset management backend: a Dafny model of its decision rules

The system is an ASP.NET Core backend for an IT asset register. It keeps assets
(with categories, brands and locations), users and roles, purchase orders and a
second, denormalised asset table. Almost all of it is layered create/read/update/delete
code over Entity Framework. What this project models is the part that makes decisions:

- the asset lifecycle in `AssetService` (register, update, assign, unassign, soft
  delete) over the active-filtered queries of `AssetRepository`;
- the uniqueness and "cannot delete while referenced" guards of the role, category,
  brand, location and user services and repositories, each with its real delete mode
  (soft for assets and purchase orders, hard for the rest);
- the purchase-order rules: creator and PR_ID guards, the six-value status allow-list
  that only the status update enforces, active-only lookups, newest-first listings;
- the denormalised asset records of `AssetManagementService`;
- login and password change in `AuthService`, with password hashing as a parameter;
- the role filter `RoleAuthorizationAttribute` and the global exception handler;
- the data-annotation rules of the asset and user registration requests;
- the department catalogue published by `UsersController`.

Every store is a `map<int, T>` from key to record (`Tables.Table`). Every operation is
a pure function from the stores and the request to the new store and the response
envelope (`Wrappers.Envelope`: `Ok(data, note)` or `Error(message)`). Services that
throw instead return a `Middleware.Completion` (`Returned(value)` or `Raised(exception)`).
The clock is an integer parameter `now`; the password hash is a function parameter
`hash`. Case-insensitive comparisons use ASCII lower-casing (`Text.ToLower`).
The request validators count lengths in UTF-16 code units (`Text.Utf16Length`) and
treat as blank every string made of `char.IsWhiteSpace` characters (`Text.IsBlank`);
the database's `character varying(n)` columns count characters.

Saves can fail, and the database can change what it stores.
- The entity attributes `[MaxLength]` and `[StringLength]` fix the sizes of the
  `character varying(n)` columns of the asset, user and purchase-order tables. A
  text longer than n is refused unless every character past the n-th is a space;
  then PostgreSQL stores its first n characters (`Entities.FitsColumn`,
  `Entities.InColumn`). The response still carries the entity as the service
  wrote it, uncut, because it maps the tracked instance.
- `AppDbContext` declares unique indexes on the asset serial number, the user
  email and employment id, and the PR_ID. They compare the stored, exact text
  over all rows, deleted ones included.
- Foreign keys from assets to categories, brands, locations and creators, and
  from purchase orders to creators, are `Restrict`: deleting a row that any of
  them names is refused. The asset assignee and the order reviser are `SetNull`.
- A refused save throws. The asset, user and category services turn that into
  their catch-all answer. The purchase-order service and its controller let it
  through to the global handler, which answers 500.

The model checks these conditions where a write can break them
(`AssetService.StoreAccepts`, `UserService.StoreAccepts`,
`Entities.PurchaseOrderFitsColumns`, `PurchaseOrderService.PRIdHeld`,
`CatalogRepository.Referred`, `UserRepository.CreatedAnything`) and stores rows as
the columns keep them (`Entities.AssetAsStored`, `Entities.UserAsStored`,
`Entities.PurchaseOrderAsStored`).

Files: `wrappers.dfy`, `text.dfy`, `tables.dfy` (generic queries, first-match lookup,
stable sort), `entities.dfy`, `middleware.dfy`, `authorization.dfy`, `asset_dtos.dfy`,
`asset_repository.dfy`, `asset_service.dfy`, `catalog_repository.dfy` (brands,
locations and categories share one repository model), `category_service.dfy`,
`role_repository.dfy`, `role_service.dfy`, `user_repository.dfy`, `user_dtos.dfy`,
`user_service.dfy`, `auth_service.dfy`, `purchase_order_repository.dfy`,
`purchase_order_service.dfy`, `asset_records.dfy`, `departments.dfy`.

Assumptions the code forces:

- `CategoryRepository.cs` is not part of this model: only its interface exists. The
  category service is modelled over the same repository model as brands and locations.
- `IUserRepository.ExistsAsync(int)` is declared but implemented nowhere. It is taken to
  mean "the key is in the user table" (`UserRepository.ExistsId`).
- `FirstOrDefault` over several matches returns the one with the smallest key, and
  queries without an `OrderBy` list rows in ascending key order.
- `OrderBy(Name)` is ordinal lexicographic order on the names (`Text.LexLe`).
- A new row's key is one more than the largest key in use (`Tables.FreshId`).
- The `Role`, `Category`, `Brand` and `Location` entity classes, and any migration
  creating their tables, are not part of this model. Their name and description columns
  are assumed to take every text the services write, so no column cut or size refusal
  is modelled for them. For categories, brands and locations this only matters beyond
  the request DTOs' limits: `StringLength(100)` on the name and `StringLength(200)` on
  the description (`CategoryDto.cs`, `BrandDto.cs`, `LocationDto.cs`), which validation
  applies before a service runs, so a column of at least those sizes is never reached.
  The role DTOs carry no limit, so for roles it is an assumption about the table alone.

## Model

| member | source | states |
|---|---|---|
| Entities.StatusOfCode | AssetManagement.Domain/Entities/Asset.cs:63-71 | Casting an integer to `AssetStatus` gives one of the six named values exactly for codes 1 to 6, and keeps the code. |
| Entities.StatusCodeRoundTrip | AssetManagement.Domain/Entities/Asset.cs:63-71 | Casting a status's code back gives the same status. |
| Entities.NamedStatusesCoded | AssetManagement.Domain/Entities/Asset.cs:63-71 | There are exactly six named statuses, coded 1 to 6 in declaration order. |
| Entities.NewAsset | AssetManagement.Domain/Entities/Asset.cs:10-60 | A new asset is `Available`, active and unassigned, satisfies the assignment invariant and fits the column sizes. |
| Entities.InColumn | AssetManagement.Domain/Entities/Asset.cs:11-18 | The stored text is a prefix of the written one, at most the column size long, and equal to it exactly when it fits; a longer text keeps exactly the column size. |
| Entities.ColumnDropsOnlySpaces | AssetManagement.Domain/Entities/Asset.cs:11-18 | The column takes a text exactly when everything it cuts is spaces, and a text it takes is its stored prefix followed by spaces only. |
| Entities.OptionInColumn | AssetManagement.Domain/Entities/Asset.cs:18-19 | An optional text stays present or absent, fits its column once stored, and is kept whole when it fits. |
| Entities.AssetAsStored | AssetManagement.Domain/Entities/Asset.cs:10-19 | The stored asset's name, serial and remarks fit their columns, nothing else changes, and the asset is kept whole exactly when it already fits. |
| Entities.UserAsStored | AssetManagement.Domain/Entities/Users.cs:11-35 | The stored user's six bounded texts fit their columns, nothing else changes, and the user is kept whole exactly when it already fits. |
| Entities.PurchaseOrderAsStored | AssetManagement.Domain/Entities/PurchaseOrder.cs:10-42 | The stored order's eight bounded texts fit their columns, nothing else changes, and the order is kept whole exactly when it already fits. |
| Text.Utf16Length | AssetManagement.Application/DTOs/UserRegistrationDto.cs:8-21 | The UTF-16 length lies between the character count and twice it, and equals the character count exactly when every character is in the basic plane. |
| AssetDtos.RegistrationErrors | AssetManagement.Application/DTOs/AssetDto.cs:6-30 | An asset registration has no error exactly when it is valid: name and serial not blank under `char.IsWhiteSpace` and at most 100 UTF-16 code units, three keys between 1 and `int.MaxValue`, remarks at most 500 code units. A blank serial and a bad category each report their message. |
| AssetDtos.UpdateErrors | AssetManagement.Application/DTOs/AssetDto.cs:51-73 | An asset update has no error exactly when it is valid, with the same blank test and UTF-16 lengths as registration. |
| AssetDtos.UpdateStatusUnchecked | AssetManagement.Application/DTOs/AssetDto.cs:72 | Changing the status never changes the update's errors; even an unnamed status code passes. |
| AssetDtos.AssignmentErrors | AssetManagement.Application/DTOs/AssetDto.cs:75-83 | An assignment has no error exactly when the user id is between 1 and `int.MaxValue` and the remarks are at most 500 UTF-16 code units. |
| AssetRepository.GetById | AssetManagement.Infrastructure/Repositories/AssetRepository.cs:17-26 | The lookup by key finds an asset whether it is active or not. |
| AssetRepository.GetBySerialNumber | AssetManagement.Infrastructure/Repositories/AssetRepository.cs:28-37 | The lookup by serial finds a matching asset exactly when one exists, active or not. |
| AssetRepository.ActiveWhere | AssetManagement.Infrastructure/Repositories/AssetRepository.cs:39-97 | A list query returns exactly the active assets that satisfy its predicate, each once. |
| AssetRepository.GetAll | AssetManagement.Infrastructure/Repositories/AssetRepository.cs:39-49 | Lists exactly the active assets. |
| AssetRepository.GetByUserId | AssetManagement.Infrastructure/Repositories/AssetRepository.cs:51-61 | Lists exactly the active assets assigned to the user. |
| AssetRepository.GetByCategoryId | AssetManagement.Infrastructure/Repositories/AssetRepository.cs:63-73 | Lists exactly the active assets of the category. |
| AssetRepository.GetByLocationId | AssetManagement.Infrastructure/Repositories/AssetRepository.cs:75-85 | Lists exactly the active assets at the location. |
| AssetRepository.GetByStatus | AssetManagement.Infrastructure/Repositories/AssetRepository.cs:87-97 | Lists exactly the active assets with the status. |
| AssetRepository.Create | AssetManagement.Infrastructure/Repositories/AssetRepository.cs:99-119 | Adds the asset under a key not in use and changes nothing else. |
| AssetRepository.Update | AssetManagement.Infrastructure/Repositories/AssetRepository.cs:121-125 | Stores every field of the given asset with the update time stamped; other assets are untouched. |
| AssetRepository.Delete | AssetManagement.Infrastructure/Repositories/AssetRepository.cs:150-159 | Reports success exactly when the key exists (even for an inactive asset) and then only clears the active flag and stamps the time. |
| AssetRepository.SerialNumberExists | AssetManagement.Infrastructure/Repositories/AssetRepository.cs:161-171 | True exactly when some active asset, other than the excluded one, has exactly this serial. |
| AssetRepository.DeletedAssetStillFound | AssetManagement.Infrastructure/Repositories/AssetRepository.cs:17-37 | After a soft delete the asset is still found by key and by serial, only inactive. |
| AssetRepository.DeleteTouchesOnlyFlag | AssetManagement.Infrastructure/Repositories/AssetRepository.cs:155-156 | A soft delete changes nothing but one asset's active flag and update time. |
| AssetRepository.DeleteFreesSerial | AssetManagement.Infrastructure/Repositories/AssetRepository.cs:161-171 | After the only active holder of a serial is deleted, the active-serial check no longer sees the serial (the deleted row still holds it for the unique index). |
| AssetRepository.SerialExistsExcludingSelf | AssetManagement.Infrastructure/Repositories/AssetRepository.cs:165-168 | Excluding an asset from the serial check ignores exactly that asset. |
| AssetService.Register | AssetManagement.Application/Services/AssetService.cs:38-97 | Checks serial, then category, brand and location (each existing and active) and answers with the first failure; a save the database refuses (a creator no longer in the user table, a text over its column by more than spaces, a stored serial still held by a deleted asset) gives the catch-all answer; on success stores the asset as its columns keep it and answers with the asset as written: `Available`, active, unassigned, created by the caller, with the request's fields. |
| AssetService.Update | AssetManagement.Application/Services/AssetService.cs:214-262 | "Asset not found" for an unknown key, then the same catalog checks, then the catch-all answer for a row the database refuses; on success stores the row as its columns keep it, overwriting name, keys, remarks and status and keeping serial, creator, assignee and active flag. |
| AssetService.AssignmentRemarks | AssetManagement.Application/Services/AssetService.cs:287-290 | Assignment text is appended after a newline and the `[Assignment]` tag only when present and non-empty; otherwise the remarks are unchanged. |
| AssetService.Assign | AssetManagement.Application/Services/AssetService.cs:264-303 | Fails for an unknown asset, then for a status other than `Available`, then for a missing or inactive user, then with the catch-all answer when the grown remarks overflow their column by more than spaces; on success sets the assignee and `Assigned`, appends the assignment text, and stores the remarks cut to 500 characters. |
| AssetService.Unassign | AssetManagement.Application/Services/AssetService.cs:305-334 | Fails unless the asset is `Assigned`; on success clears the assignee, makes it `Available` and keeps the remarks. |
| AssetService.Delete | AssetManagement.Application/Services/AssetService.cs:336-354 | Succeeds exactly for an existing key and leaves the asset inactive. |
| AssetService.RegisterPreservesConsistency | AssetManagement.Application/Services/AssetService.cs:71-84 | Registration keeps "Assigned exactly when an assignee is set" true for every asset. |
| AssetService.AssignPreservesConsistency | AssetManagement.Application/Services/AssetService.cs:285-286 | Assignment keeps the assignment invariant. |
| AssetService.UnassignPreservesConsistency | AssetManagement.Application/Services/AssetService.cs:320-321 | Unassignment keeps the assignment invariant. |
| AssetService.DeletePreservesConsistency | AssetManagement.Application/Services/AssetService.cs:336-354 | Deletion keeps the assignment invariant. |
| AssetService.UpdateCanBreakConsistency | AssetManagement.Application/Services/AssetService.cs:244-249 | Update can mark an unassigned asset `Assigned`, breaking the invariant. |
| AssetService.AssignThenUnassign | AssetManagement.Application/Services/AssetService.cs:264-334 | Assigning then unassigning a consistent asset read from the table restores it apart from its remarks and update time. |
| AssetService.DeletedAssetAssignable | AssetManagement.Application/Services/AssetService.cs:268-283 | A soft delete does not change whether an asset can be assigned: the active flag is never consulted. |
| AssetService.ValidRegistrationStored | AssetManagement.Application/Services/AssetService.cs:71-84 | A valid registration fits the asset table's columns whole, so with the service's checks passing, the creator in the user table and no row holding the serial it is stored exactly as written. |
| AssetService.DeletedSerialBlocksRegistration | AssetManagement.Application/Services/AssetService.cs:43-95 | A serial of at most 100 characters held only by a soft-deleted asset passes the service's check but ends in "An error occurred while registering the asset" on the unique index. |
| AssetService.AssignCanOverflowRemarks | AssetManagement.Application/Services/AssetService.cs:285-302 | A valid assignment of 487 characters to an asset without remarks grows them to 501 characters, the last not a space, and ends in "An error occurred while assigning the asset". |
| AssetService.AssignCutsTrailingSpaces | AssetManagement.Application/Services/AssetService.cs:285-302 | An assignment that grows the remarks to 501 characters ending in a space succeeds, and the table keeps the first 500. |
| AssetService.RegisterKeepsRowsWithinColumns | AssetManagement.Domain/Entities/Asset.cs:11-18 | Registration keeps every stored asset within its column sizes. |
| AssetService.UpdateKeepsRowsWithinColumns | AssetManagement.Domain/Entities/Asset.cs:11-18 | Update keeps every stored asset within its column sizes. |
| AssetService.AssignmentsKeepRowsWithinColumns | AssetManagement.Domain/Entities/Asset.cs:11-18 | Assign, unassign and delete keep every stored asset within its column sizes. |
| Authorization.RoleClaimTypeIsLowerCase | AssetManagement.API/Authorization/RoleAuthorizationAttribute.cs:31 | A claim is a role claim exactly when its type equals the role claim type ignoring case. |
| Authorization.FirstRole | AssetManagement.API/Authorization/RoleAuthorizationAttribute.cs:31 | The role read is the value of the first role claim, and absent exactly when there is none. |
| Authorization.Authorize | AssetManagement.API/Authorization/RoleAuthorizationAttribute.cs:17-49 | 401 without an authenticated identity; 401 when the first role is missing or empty; 403 when it is not in the allow-list; otherwise the request proceeds. Each case is an if-and-only-if. |
| Authorization.AllowListMonotonic | AssetManagement.API/Authorization/RoleAuthorizationAttribute.cs:44 | Enlarging the allow-list never turns a pass into a denial and changes no other outcome. |
| Authorization.OnlyFirstRoleClaimCounts | AssetManagement.API/Authorization/RoleAuthorizationAttribute.cs:31 | Claims after the first role claim do not change the role read. |
| Authorization.PresetsNested | AssetManagement.API/Authorization/RoleAuthorizationAttribute.cs:53-66 | Whoever passes AdminOnly passes AdminAndIT, and whoever passes that passes AdminManagerIT. |
| Authorization.RoleMatchIsCaseSensitive | AssetManagement.API/Authorization/RoleAuthorizationAttribute.cs:44-48 | A caller whose role is "admin" is forbidden by all three presets. |
| Middleware.HandleException | AssetManagement.API/Middleware/ExceptionHandlingMiddleware.cs:31-59 | The envelope never reports success; argument exceptions and their subtypes give 400 with their own message, key-not-found 404, unauthorized-access 401, all others 500, each with its fixed message. |
| Middleware.OnlyArgumentMessagesEscape | AssetManagement.API/Middleware/ExceptionHandlingMiddleware.cs:41-59 | Outside the 400 case two exceptions with the same status give the same response. |
| Middleware.DefaultMessageOverwritten | AssetManagement.API/Middleware/ExceptionHandlingMiddleware.cs:35-59 | The default message reaches the client only as an argument exception's own message. |
| Middleware.RaisedArgumentIsBadRequest | AssetManagement.API/Middleware/ExceptionHandlingMiddleware.cs:43-46 | A raised argument exception becomes a 400 carrying its message. |
| CatalogRepository.GetById | AssetManagement.Infrastructure/Repositories/BrandRepository.cs:17-20 | Finds the entry with the key, active or not. |
| CatalogRepository.GetByName | AssetManagement.Infrastructure/Repositories/BrandRepository.cs:22-26 | Finds an entry exactly when some name equals the given one ignoring case. |
| CatalogRepository.GetActive | AssetManagement.Infrastructure/Repositories/BrandRepository.cs:33-39 | Lists exactly the active entries, each once, sorted by name. |
| CatalogRepository.Create | AssetManagement.Infrastructure/Repositories/LocationRepository.cs:41-46 | Adds the entry under a key not in use. |
| CatalogRepository.Update | AssetManagement.Infrastructure/Repositories/LocationRepository.cs:48-54 | Stores the entry with the update time stamped; others are untouched. |
| CatalogRepository.AnyActiveReference | AssetManagement.Infrastructure/Repositories/LocationRepository.cs:60-66 | True exactly when some active asset refers to the entry. |
| CatalogRepository.Delete | AssetManagement.Infrastructure/Repositories/BrandRepository.cs:56-71 | Missing for an unknown key; refused with the "Cannot delete ..." message while an active asset refers to the entry; rejected by the database while only deleted assets refer to it; otherwise the row is removed. |
| CatalogRepository.Exists | AssetManagement.Infrastructure/Repositories/BrandRepository.cs:73-83 | True exactly when an entry other than the excluded one has the name ignoring case. |
| CatalogRepository.OwnNameIsFree | AssetManagement.Infrastructure/Repositories/LocationRepository.cs:73-83 | With unique names, an entry's own name is taken but free once the entry is excluded. |
| CatalogRepository.DeleteRemovesOnlyUnused | AssetManagement.Infrastructure/Repositories/LocationRepository.cs:56-71 | A permitted delete removes the entry and no asset, active or deleted, referred to it; the repository refuses for an active reference and the database for a deleted one, both leaving the table unchanged. |
| CategoryService.Create | AssetManagement.Application/Services/CategoryService.cs:73-104 | Refused exactly when the name exists ignoring case; otherwise stores name, description and active flag from the request. |
| CategoryService.Update | AssetManagement.Application/Services/CategoryService.cs:106-138 | "Category not found" for an unknown key; refused when another category has the name; otherwise overwrites only name, description and active flag. |
| CategoryService.Delete | AssetManagement.Application/Services/CategoryService.cs:140-163 | "Category not found"; the refusal message while an active asset uses it; "An error occurred while deleting the category" while only deleted assets do; otherwise removed. |
| CategoryService.CreateKeepsNamesUnique | AssetManagement.Application/Services/CategoryService.cs:77-93 | Creation keeps category names unique ignoring case. |
| CategoryService.UpdateKeepsNamesUnique | AssetManagement.Application/Services/CategoryService.cs:116-127 | Update keeps category names unique ignoring case. |
| CategoryService.RenameInOtherCaseAllowed | AssetManagement.Application/Services/CategoryService.cs:116-121 | A category may be renamed to its own name in another case. |
| RoleRepository.GetById | AssetManagement.Infrastructure/Repositories/RoleRepository.cs:17-22 | Finds the role with the key. |
| RoleRepository.GetByName | AssetManagement.Infrastructure/Repositories/RoleRepository.cs:24-29 | Finds the first role, by key, whose name equals the given one ignoring case. |
| RoleRepository.GetActiveRoles | AssetManagement.Infrastructure/Repositories/RoleRepository.cs:38-43 | Lists exactly the active roles. |
| RoleRepository.Create | AssetManagement.Infrastructure/Repositories/RoleRepository.cs:45-50 | Adds the role under a key not in use. |
| RoleRepository.Update | AssetManagement.Infrastructure/Repositories/RoleRepository.cs:52-58 | Stores the role with the update time stamped. |
| RoleRepository.AnyUserWithRole | AssetManagement.Infrastructure/Repositories/RoleRepository.cs:66 | True exactly when some user, active or not, holds the role. |
| RoleRepository.Delete | AssetManagement.Infrastructure/Repositories/RoleRepository.cs:60-74 | Missing for an unknown key; refused while any user holds the role; otherwise the row is removed. |
| RoleRepository.Exists | AssetManagement.Infrastructure/Repositories/RoleRepository.cs:76-80 | True exactly when some role has the name ignoring case. |
| RoleRepository.DeleteKeepsUsersRoles | AssetManagement.Infrastructure/Repositories/RoleRepository.cs:60-74 | A delete never leaves a user whose role is gone. |
| RoleService.Create | AssetManagement.Application/Services/RoleService.cs:93-124 | Refused exactly on a name clash ignoring case; otherwise stores name, description and active flag. |
| RoleService.Update | AssetManagement.Application/Services/RoleService.cs:126-158 | "Role not found" for an unknown key; refused when the first role with the name is a different one; otherwise overwrites only name, description and active flag. |
| RoleService.Delete | AssetManagement.Application/Services/RoleService.cs:160-183 | "Role not found", or the refusal message while users hold the role; otherwise removed. |
| RoleService.UpdateCheckIsAnotherHolds | AssetManagement.Application/Services/RoleService.cs:136-141 | With unique names, the update is refused exactly when another role has the name. |
| RoleService.CreateKeepsNamesUnique | AssetManagement.Application/Services/RoleService.cs:97-113 | Creation keeps role names unique ignoring case. |
| RoleService.UpdateKeepsNamesUnique | AssetManagement.Application/Services/RoleService.cs:136-147 | Update keeps role names unique ignoring case. |
| UserRepository.GetById | AssetManagement.Infrastructure/Repositories/UserRepository.cs:17-22 | Finds the user with the key. |
| UserRepository.GetByEmail | AssetManagement.Infrastructure/Repositories/UserRepository.cs:24-29 | Finds the first user, by key, whose email equals the given one ignoring case. |
| UserRepository.GetByEmploymentId | AssetManagement.Infrastructure/Repositories/UserRepository.cs:31-36 | Finds a user exactly when one has this employment id exactly. |
| UserRepository.Create | AssetManagement.Infrastructure/Repositories/UserRepository.cs:45-56 | Adds the user under a key not in use. |
| UserRepository.Update | AssetManagement.Infrastructure/Repositories/UserRepository.cs:58-70 | Stores the user with the update time stamped. |
| UserRepository.Delete | AssetManagement.Infrastructure/Repositories/UserRepository.cs:72-80 | Not found exactly for an unknown key; refused by the database exactly when an asset or order, active or deleted, names the user as creator; otherwise removes the row and clears exactly the assignee and reviser references to the user, changing nothing else. |
| UserRepository.DeleteKeepsReferencesResolving | AssetManagement.Infrastructure/Repositories/UserRepository.cs:72-80 | A delete the database accepts leaves every creator, assignee and reviser key naming an existing user. |
| UserRepository.Exists | AssetManagement.Infrastructure/Repositories/UserRepository.cs:82-86 | True exactly when some user has the email ignoring case or the employment id exactly. |
| UserRepository.EmailLookupFindsOwner | AssetManagement.Infrastructure/Repositories/UserRepository.cs:24-29 | With unique emails, the email lookup finds the user who owns the email. |
| UserDtos.IdentityErrors | AssetManagement.Application/DTOs/UserRegistrationDto.cs:7-22 | No identity error exactly when name, email and employment id are not blank under `char.IsWhiteSpace` and within 100, 100 and 20 UTF-16 code units and the mobile number within 15. |
| UserDtos.PasswordErrors | AssetManagement.Application/DTOs/UserRegistrationDto.cs:23-29 | No password error exactly when both are not blank and equal; a mismatch reports its message. |
| UserDtos.PlacementErrors | AssetManagement.Application/DTOs/UserRegistrationDto.cs:31-41 | No placement error exactly when the department is one of the two names, the sub-department is not blank and the role id is between 1 and `int.MaxValue`. |
| UserDtos.RegistrationErrors | AssetManagement.Application/DTOs/UserRegistrationDto.cs:5-42 | A registration has no error exactly when all three groups are valid. |
| UserDtos.SubDepartmentUnchecked | AssetManagement.Application/DTOs/UserRegistrationDto.cs:36-37 | Any non-blank sub-department is accepted with either department. |
| UserService.Register | AssetManagement.Application/Services/UserService.cs:27-82 | Refused on an email (ignoring case) or employment-id clash first; then an unknown role gives the generic failure and an inactive role "Selected role is not active"; a row the table refuses (a text over its column by more than spaces, or a cut email or employment id another row holds exactly) also gives the generic failure; on success stores the row as its columns keep it and answers with the lower-cased email, the password's hash, the role and an active flag. |
| UserService.Delete | AssetManagement.Application/Services/UserService.cs:142-161 | "User not found" for an unknown key; "An error occurred while deleting the user" while an asset or order names the user as creator; otherwise the row is removed, no asset or order refers to the user any more, and nothing else changes: every other field, and every assignee or reviser that is another user, is kept. The tables are unchanged on every error. |
| UserService.RegisterKeepsKeysUnique | AssetManagement.Application/Services/UserService.cs:31-68 | Registration keeps every stored email lower-case, and with that keeps emails (ignoring case) and employment ids unique. |
| UserService.StoredEmailLowerCase | AssetManagement.Application/Services/UserService.cs:56 | The stored email of a registration is lower-case, whether the column cut it or not. |
| UserService.IndexesCatchOnlyCutKeys | AssetManagement.Application/Services/UserService.cs:31-37 | With the service's clash check passed and the row kept whole, the unique indexes never refuse it. |
| UserService.UnknownRoleFails | AssetManagement.Application/Services/UserService.cs:39-81 | An unknown role always ends in failure and stores nothing. |
| UserService.ValidRegistrationFitsUserColumns | AssetManagement.Domain/Entities/Users.cs:11-35 | A valid registration is stored whole exactly when its sub-department, which no validator bounds, has at most 50 characters, and the table takes it exactly when every sub-department character past the 50th is a space. |
| UserService.DeleteFreesKeys | AssetManagement.Application/Services/UserService.cs:142-161 | With unique keys, after a delete the database accepts no user holds the deleted user's email or employment id. |
| UserService.DeleteCanStrandAssignedAsset | AssetManagement.Domain/Entities/Asset.cs:34-53 | Deleting an assignee clears the asset's assignee but not its `Assigned` status, breaking the assignment invariant. |
| AuthService.Login | AssetManagement.Application/Services/AuthService.cs:34-82 | An unknown email or a wrong password gives "Invalid email or password"; an inactive account, checked before the password, gives "Account is deactivated"; success exactly when the user found is active and the hashes match. |
| AuthService.ChangePassword | AssetManagement.Application/Services/AuthService.cs:84-113 | "User not found", then "Current password is incorrect" on a hash mismatch, with no active-flag check; on success the stored hash is the new password's hash. |
| AuthService.LoginSucceedsIff | AssetManagement.Application/Services/AuthService.cs:39-75 | With unique emails, login succeeds exactly when some active user has the email ignoring case and the password's hash. |
| AuthService.RegisterThenLogin | AssetManagement.Application/Services/AuthService.cs:39-75 | With stored emails lower-case, a newly registered user logs in with the registered password and the stored email in any case; the stored email is the lower-cased request email whenever that fits its column. |
| AuthService.ChangePasswordThenLogin | AssetManagement.Application/Services/AuthService.cs:84-113 | After a password change the new password logs in and the old one, unless its hash collides, does not. |
| PurchaseOrderRepository.Listing | AssetManagement.Infrastructure/Repositories/PurchaseOrderRepository.cs:17-93 | A list query returns exactly the active orders matching its predicate, each once, newest first by creation time. |
| PurchaseOrderRepository.NewestFirstEverywhere | AssetManagement.Infrastructure/Repositories/PurchaseOrderRepository.cs:23 | Ordering neighbours newest first orders every pair newest first. |
| PurchaseOrderRepository.GetAll | AssetManagement.Infrastructure/Repositories/PurchaseOrderRepository.cs:17-25 | Lists exactly the active orders, newest first. |
| PurchaseOrderRepository.GetById | AssetManagement.Infrastructure/Repositories/PurchaseOrderRepository.cs:27-33 | Finds an order only while it is active. |
| PurchaseOrderRepository.GetByPRId | AssetManagement.Infrastructure/Repositories/PurchaseOrderRepository.cs:35-41 | Finds an order exactly when an active one carries exactly this PR_ID. |
| PurchaseOrderRepository.GetByStatus | AssetManagement.Infrastructure/Repositories/PurchaseOrderRepository.cs:43-51 | Lists exactly the active orders whose status equals the given one, newest first. |
| PurchaseOrderRepository.GetByRequester | AssetManagement.Infrastructure/Repositories/PurchaseOrderRepository.cs:53-61 | Lists exactly the active orders whose requester name contains the fragment. |
| PurchaseOrderRepository.GetByCategory | AssetManagement.Infrastructure/Repositories/PurchaseOrderRepository.cs:63-71 | Lists exactly the active orders whose category contains the fragment. |
| PurchaseOrderRepository.GetByLocation | AssetManagement.Infrastructure/Repositories/PurchaseOrderRepository.cs:73-81 | Lists exactly the active orders whose location contains the fragment. |
| PurchaseOrderRepository.GetByDateRange | AssetManagement.Infrastructure/Repositories/PurchaseOrderRepository.cs:83-93 | Lists exactly the active orders dated within the range, both ends included. |
| PurchaseOrderRepository.Create | AssetManagement.Infrastructure/Repositories/PurchaseOrderRepository.cs:95-104 | Adds the order under a key not in use with both timestamps set to now. |
| PurchaseOrderRepository.Update | AssetManagement.Infrastructure/Repositories/PurchaseOrderRepository.cs:106-114 | Stores the order with the update time stamped. |
| PurchaseOrderRepository.Delete | AssetManagement.Infrastructure/Repositories/PurchaseOrderRepository.cs:116-127 | Reports success exactly when the key exists, active or not, and then only clears the active flag and stamps the time. |
| PurchaseOrderRepository.Exists | AssetManagement.Infrastructure/Repositories/PurchaseOrderRepository.cs:129-133 | True exactly when the lookup by key finds an active order. |
| PurchaseOrderRepository.PRIdExists | AssetManagement.Infrastructure/Repositories/PurchaseOrderRepository.cs:135-139 | True exactly when the lookup by PR_ID finds an active order. |
| PurchaseOrderRepository.DeleteHidesOrder | AssetManagement.Infrastructure/Repositories/PurchaseOrderRepository.cs:116-139 | After a delete the order is not found, not listed and does not exist; for an active order, the PR_ID check no longer sees its PR_ID. |
| PurchaseOrderRepository.DeleteAgainStillSucceeds | AssetManagement.Infrastructure/Repositories/PurchaseOrderRepository.cs:116-127 | Deleting an already-deleted order succeeds again and gives the same store as one delete. |
| PurchaseOrderService.GetAvailableStatuses | AssetManagement.Application/Services/PurchaseOrderService.cs:15-23 | Six distinct statuses, the default "Pending" among them. |
| PurchaseOrderService.Create | AssetManagement.Application/Services/PurchaseOrderService.cs:83-103 | Throws "User not found" for an unknown creator first, then "PR_ID already exists" when an active order holds it; a stored PR_ID held by any row, or a text over its column by more than spaces, makes the save throw; on success stores the order as its columns keep it and answers with the order as written: the request's fields and status unchecked, active, created by the caller, dated by the request or now. |
| PurchaseOrderService.Update | AssetManagement.Application/Services/PurchaseOrderService.cs:105-137 | Throws "Purchase Order not found" for a missing or deleted order, then "User not found", then the save's exception for a text over its column by more than spaces; on success stores the order as its columns keep it, overwriting the listed fields and status, keeping PR_ID, creator, creation time and active flag, and changing the date only when one is supplied. |
| PurchaseOrderService.UpdateStatus | AssetManagement.Application/Services/PurchaseOrderService.cs:139-157 | Returns false for a missing or deleted order before looking at the status; throws "Invalid status" outside the list; an updater missing from the user table makes the save throw; otherwise changes only status, updater and update time. |
| PurchaseOrderService.Delete | AssetManagement.Application/Services/PurchaseOrderService.cs:159-162 | Succeeds exactly for an existing key, and the order is no longer found. |
| PurchaseOrderService.UpdateStatusKeepsStatusesAllowed | AssetManagement.Application/Services/PurchaseOrderService.cs:147-155 | The status update keeps every active order's status on the list. |
| PurchaseOrderService.DeleteKeepsStatusesAllowed | AssetManagement.Application/Services/PurchaseOrderService.cs:159-162 | A delete keeps every active order's status on the list. |
| PurchaseOrderService.CreateAcceptsAnyStatus | AssetManagement.Application/Services/PurchaseOrderService.cs:97-101 | Creation by a known user, with fields the columns take, can store a status that is not on the list, cut or not. |
| PurchaseOrderService.CutStatusStaysUnlisted | AssetManagement.Domain/Entities/PurchaseOrder.cs:41-42 | Cutting an unlisted status to its 50-character column never yields a listed one. |
| PurchaseOrderService.UpdateAcceptsAnyStatus | AssetManagement.Application/Services/PurchaseOrderService.cs:127 | An update whose fields the columns take can store a status that is not on the list. |
| PurchaseOrderService.CreateKeepsRowsWithinColumns | AssetManagement.Domain/Entities/PurchaseOrder.cs:10-42 | Creation keeps every stored order within its column sizes. |
| PurchaseOrderService.UpdateKeepsRowsWithinColumns | AssetManagement.Domain/Entities/PurchaseOrder.cs:10-42 | Update keeps every stored order within its column sizes. |
| PurchaseOrderService.StatusAndDeleteKeepRowsWithinColumns | AssetManagement.Domain/Entities/PurchaseOrder.cs:10-42 | The status update and the delete keep every stored order within its column sizes. |
| PurchaseOrderService.CreateKeepsPRIdsUnique | AssetManagement.Application/Services/PurchaseOrderService.cs:91-101 | Creation keeps PR_IDs unique among active orders. |
| PurchaseOrderService.OnlyHolder | AssetManagement.Application/Services/PurchaseOrderService.cs:91-101 | After a creation the new order stores the requested PR_ID cut to its column, is the only row of any kind holding that stored PR_ID, and is the only active row holding the requested one. |
| PurchaseOrderService.UpdateKeepsPRIdsUnique | AssetManagement.Application/Services/PurchaseOrderService.cs:119-135 | Update of a table whose rows fit their columns keeps PR_IDs unique among active orders. |
| PurchaseOrderService.UpdateStatusKeepsPRIdsUnique | AssetManagement.Application/Services/PurchaseOrderService.cs:152-155 | The status update keeps PR_IDs unique among active orders. |
| PurchaseOrderService.DeleteKeepsPRIdsUnique | AssetManagement.Application/Services/PurchaseOrderService.cs:159-162 | A delete keeps PR_IDs unique among active orders. |
| PurchaseOrderService.CreatedOrderFoundByPRId | AssetManagement.Application/Services/PurchaseOrderService.cs:83-103 | The order just created is what the lookup by its stored PR_ID returns, and that PR_ID is the requested one whenever it fits its column. |
| PurchaseOrderService.FailuresAreBadRequests | AssetManagement.Application/Services/PurchaseOrderService.cs:83-150 | Under the global handler every exception the service raises itself maps to 400 with its message, and a rejected save maps to 500 "Internal server error". |
| PurchaseOrderService.DeletedPRIdNotReusable | AssetManagement.Application/Services/PurchaseOrderService.cs:91-102 | After an active order is deleted the PR_ID check no longer sees its PR_ID, yet creating an order with it fails on the unique index with a 500. |
| AssetRecordRepository.ExistsBySerial | AssetManagement.Infrastructure/Repositories/AssetManagementRepository.cs:17-18 | True exactly when some record, with no active flag to consult, has exactly this serial. |
| AssetRecordRepository.Add | AssetManagement.Infrastructure/Repositories/AssetManagementRepository.cs:20-24 | Adds the record under a key not in use. |
| AssetRecordRepository.GetById | AssetManagement.Infrastructure/Repositories/AssetManagementRepository.cs:26-27 | Finds the record exactly when the key is in use. |
| AssetRecordRepository.GetAll | AssetManagement.Infrastructure/Repositories/AssetManagementRepository.cs:29-30 | Lists every record. |
| AssetRecordRepository.Update | AssetManagement.Infrastructure/Repositories/AssetManagementRepository.cs:32-36 | Stores the record and leaves the others alone. |
| AssetRecordRepository.Delete | AssetManagement.Infrastructure/Repositories/AssetManagementRepository.cs:38-42 | Removes the row and nothing else. |
| AssetRecordService.Create | AssetManagement.Application/Services/AssetManagementService.cs:21-67 | "Serial number already exists" exactly when any record has the serial; otherwise stores the request's fields, `Available`, created by the caller at now. |
| AssetRecordService.GetById | AssetManagement.Application/Services/AssetManagementService.cs:103-135 | "Asset not found" exactly for an unknown key; otherwise the stored record. |
| AssetRecordService.Update | AssetManagement.Application/Services/AssetManagementService.cs:136-166 | "Asset not found" for an unknown key; otherwise overwrites the descriptive fields and keeps serial, status, creator and creation time. |
| AssetRecordService.Delete | AssetManagement.Application/Services/AssetManagementService.cs:168-186 | "Asset not found" for an unknown key; otherwise the row is removed. |
| AssetRecordService.WritesKeepSerialsUnique | AssetManagement.Application/Services/AssetManagementService.cs:26-28 | Create, update and delete keep serial numbers unique across records. |
| AssetRecordService.SerialStaysTaken | AssetManagement.Application/Services/AssetManagementService.cs:136-156 | A created record's serial stays taken through any update. |
| AssetRecordService.CreateThenGet | AssetManagement.Application/Services/AssetManagementService.cs:21-128 | Reading a created record back gives what the request described. |
| AssetRecordService.DeleteFreesSerial | AssetManagement.Application/Services/AssetManagementService.cs:168-186 | After a delete the serial is free and the key is not found. |
| Departments.GetDepartments | AssetManagement.API/Controllers/UsersController.cs:187-226 | Publishes the two departments, named as registration requires, with 5 and 10 sub-departments. |
| Departments.GetRegistrationOptions | AssetManagement.API/Controllers/UsersController.cs:136-181 | Publishes the same departments, with the active roles or, when the role service fails, no roles. |
| Departments.GetSubDepartments | AssetManagement.API/Controllers/UsersController.cs:233-277 | The lower-cased key "it" or "itdepartment" gives the IT list, "nonit" or "nonitdepartment" the non-IT list, echoing the key as given; any other key is a 400 with the fixed message. |
| Departments.ITListsAgree | AssetManagement.API/Controllers/UsersController.cs:146-246 | The three endpoints publish the same IT list. |
| Departments.NonITListsAgree | AssetManagement.API/Controllers/UsersController.cs:158-259 | The three endpoints publish the same non-IT list. |
| Departments.LookupIgnoresCase | AssetManagement.API/Controllers/UsersController.cs:237 | Keys that lower-case alike get the same answer. |
| Departments.DepartmentNamesAreNotKeys | AssetManagement.API/Controllers/UsersController.cs:237-267 | The department names a registration must carry are refused by the sub-department lookup. |

## Left out

- JWT creation and validation: the role filter takes "authenticated?" and the claim list as inputs.
- Password hashing (SHA-256 and Base64) is the parameter `hash`; nothing is assumed about it.
- AutoMapper profiles are plain field copies; response DTO projections are not modelled, so services answer with the entity as they wrote it, which differs from the stored row only where a column cut trailing spaces.
- Logging, dependency injection, Swagger, CORS, health checks, startup migration and the web UI script are configuration.
- Controllers other than the user controller's department endpoints, and the vendor code.
- Store faults other than column sizes, unique indexes and foreign keys (lost connections, timeouts) are not modelled; the asset-record service's rethrow and the catch-alls of operations whose writes cannot break a column, an index or a key therefore have no trigger.
- UserService.Register: the unknown-role case is the null dereference the catch-all turns into "An error occurred while registering the user"; it is modelled as that answer directly.
- Unique indexes on role, category, brand and location names are left out: under the assumption above about their name columns, the services' own checks, which ignore case and cover every row, already refuse every name the case-sensitive index would. The `Restrict` key from users to roles is left out for the same reason: the role delete already checks every user.
- Timestamps are opaque integers; key allocation is `FreshId`; 32-bit overflow of keys is not modelled.
- Database collation: string order and comparison are ordinal, and the order of ties in the purchase-order listings is the sort's, not the database's.
- PurchaseOrderRepository.GetByDateRange: the query as written throws `InvalidOperationException` when it runs, because it `Include`s two string properties that are not navigations. The model gives the filter evidently intended. Its only endpoint is commented out.
- PurchaseOrdersController: the create and update actions catch `ArgumentException` and answer `BadRequest` with the message themselves, so the service's argument failures reach the client from the controller, not from the global handler. The status code and message are the same either way. The status-update endpoint is commented out. `FailuresAreBadRequests` states the mapping under the global handler.
- Location address fields and the Users entity's navigation properties are not part of the records.
- `[EmailAddress]` and `[Phone]` format validators are library code; culture-specific casing is replaced by ASCII lower-casing.
- JSON `null` in non-nullable string fields, several identities in one principal, and concurrency (check-then-insert is not atomic; the model is sequential).
- `UpdatePurchaseOrderForApproved` is declared in the service interface but implemented nowhere.

=== FILE: asset_dtos.dfy ===
/** The request bodies of the asset operations and their data-annotation rules
    (`AssetRegistrationDto`, `AssetUpdateDto`, `AssetAssignmentDto`). A rule set is
    modelled twice: as the list of error messages model validation produces, in
    declaration order, and as a plain predicate; the two agree. */
module AssetDtos {

  import opened Wrappers
  import opened Text
  import opened Entities

  datatype AssetRegistration = AssetRegistration(
    name: string,
    serialNumber: string,
    categoryId: int,
    brandId: int,
    locationId: int,
    remarks: Option<string>)

  /** There is no serial number here, and `status` is any `AssetStatus` value. */
  datatype AssetUpdate = AssetUpdate(
    name: string,
    categoryId: int,
    brandId: int,
    locationId: int,
    remarks: Option<string>,
    status: AssetStatus)

  datatype AssetAssignment = AssetAssignment(userId: int, assignmentRemarks: Option<string>)

  // ------------------------------------------------------- single attributes

  /** `[Required]` on a string: fails on an empty or white-space-only value. */
  function RequiredRule(s: string, message: string): seq<string>
  {
    if IsBlank(s) then [message] else []
  }

  /** `[StringLength(max)]`: fails when the value has more than `max` UTF-16 code
      units; an absent value passes. */
  function LengthRule(s: Option<string>, max: nat, message: string): seq<string>
  {
    if s.Some? && Utf16Length(s.value) > max then [message] else []
  }

  /** `[Range(1, int.MaxValue)]`. */
  function PositiveRule(v: int, message: string): seq<string>
  {
    if 1 <= v <= IntMax then [] else [message]
  }

  predicate FitsLength(s: Option<string>, max: nat)
  {
    s.Some? ==> Utf16Length(s.value) <= max
  }

  // ------------------------------------------------------------ registration

  predicate RegistrationValid(d: AssetRegistration)
  {
    && !IsBlank(d.name) && Utf16Length(d.name) <= 100
    && !IsBlank(d.serialNumber) && Utf16Length(d.serialNumber) <= 100
    && 1 <= d.categoryId <= IntMax
    && 1 <= d.brandId <= IntMax
    && 1 <= d.locationId <= IntMax
    && FitsLength(d.remarks, 500)
  }

  function RegistrationErrors(d: AssetRegistration): (errors: seq<string>)
    ensures |errors| == 0 <==> RegistrationValid(d)
    ensures IsBlank(d.serialNumber) ==> "Serial number is required" in errors
    ensures !(1 <= d.categoryId <= IntMax) ==> "Please select a valid category" in errors
  {
    RequiredRule(d.name, "Asset name is required")
    + LengthRule(Some(d.name), 100, "Asset name cannot exceed 100 characters")
    + RequiredRule(d.serialNumber, "Serial number is required")
    + LengthRule(Some(d.serialNumber), 100, "Serial number cannot exceed 100 characters")
    + PositiveRule(d.categoryId, "Please select a valid category")
    + PositiveRule(d.brandId, "Please select a valid brand")
    + PositiveRule(d.locationId, "Please select a valid location")
    + LengthRule(d.remarks, 500, "Remarks cannot exceed 500 characters")
  }

  // ------------------------------------------------------------------ update

  predicate UpdateValid(d: AssetUpdate)
  {
    && !IsBlank(d.name) && Utf16Length(d.name) <= 100
    && 1 <= d.categoryId <= IntMax
    && 1 <= d.brandId <= IntMax
    && 1 <= d.locationId <= IntMax
    && FitsLength(d.remarks, 500)
  }

  function UpdateErrors(d: AssetUpdate): (errors: seq<string>)
    ensures |errors| == 0 <==> UpdateValid(d)
  {
    RequiredRule(d.name, "Asset name is required")
    + LengthRule(Some(d.name), 100, "Asset name cannot exceed 100 characters")
    + PositiveRule(d.categoryId, "Please select a valid category")
    + PositiveRule(d.brandId, "Please select a valid brand")
    + PositiveRule(d.locationId, "Please select a valid location")
    + LengthRule(d.remarks, 500, "Remarks cannot exceed 500 characters")
  }

  /** No rule mentions the status, so every status value, named or not, is
      accepted. */
  lemma UpdateStatusUnchecked(d: AssetUpdate, s: AssetStatus)
    ensures UpdateErrors(d.(status := s)) == UpdateErrors(d)
    ensures UpdateValid(d) ==> UpdateValid(d.(status := Unnamed(0)))
  {
  }

  // -------------------------------------------------------------- assignment

  predicate AssignmentValid(d: AssetAssignment)
  {
    1 <= d.userId <= IntMax && FitsLength(d.assignmentRemarks, 500)
  }

  function AssignmentErrors(d: AssetAssignment): (errors: seq<string>)
    ensures |errors| == 0 <==> AssignmentValid(d)
  {
    PositiveRule(d.userId, "Please select a valid user")
    + LengthRule(d.assignmentRemarks, 500, "Assignment remarks cannot exceed 500 characters")
  }
}

=== FILE: asset_records.dfy ===
/** The store of denormalised asset records (`AssetManagementRepository`): a serial
    check over every row, plain insert, lookup by key and hard delete. */
module AssetRecordRepository {
  import opened Wrappers
  import opened Tables
  import opened Entities

  /** `ExistsBySerialAsync`: an exact match over all rows; records have no active flag. */
  function ExistsBySerial(t: Table<AssetRecord>, serialNumber: string): (r: bool)
    ensures r <==> exists k :: k in t && t[k].serialNumber == serialNumber
  {
    First(t, (a: AssetRecord) => a.serialNumber == serialNumber).Some?
  }

  /** `AddAsync`: stores the record under a fresh key. */
  function Add(t: Table<AssetRecord>, a: AssetRecord): (r: (Table<AssetRecord>, int))
    ensures r.1 !in t
    ensures r.0 == t[r.1 := a]
  {
    AddRow(t, a)
  }

  /** `GetByIdAsync`: the record under the key, if any. */
  function GetById(t: Table<AssetRecord>, id: int): (r: Option<AssetRecord>)
    ensures r.Some? <==> id in t
    ensures r.Some? ==> r.value == t[id]
  {
    Lookup(t, id)
  }

  /** `GetAllAsync`: every record, in key order. */
  function GetAll(t: Table<AssetRecord>): (r: seq<Row<AssetRecord>>)
    ensures forall k :: k in KeysOf(r) <==> k in t
    ensures forall i :: 0 <= i < |r| ==> r[i].id in t && r[i].rec == t[r[i].id]
  {
    Where(t, (a: AssetRecord) => true)
  }

  /** `UpdateAsync`: writes the record back. */
  function Update(t: Table<AssetRecord>, id: int, a: AssetRecord): (r: Table<AssetRecord>)
    ensures r.Keys == t.Keys + {id}
    ensures r[id] == a
    ensures forall k :: k in t && k != id ==> r[k] == t[k]
  {
    Put(t, id, a)
  }

  /** `DeleteAsync`: removes the row. */
  function Delete(t: Table<AssetRecord>, id: int): (r: Table<AssetRecord>)
    ensures r.Keys == t.Keys - {id}
    ensures forall k :: k in r ==> r[k] == t[k]
  {
    t - {id}
  }
}

/** The asset-record service (`AssetManagementService`): the serial guard on creation,
    field copies on update, and the "Asset not found" answers. */
module AssetRecordService {
  import opened Wrappers
  import opened Tables
  import opened Entities
  import Repo = AssetRecordRepository

  /** `AssetManagementCreateDto`. */
  datatype RecordRequest = RecordRequest(
    category: string,
    assetName: string,
    brand: string,
    serialNumber: string,
    location: string,
    ram: string,
    storage: string,
    processor: string,
    storageSize: int,
    departmentType: string,
    remarks: Option<string>)

  /** `AssetManagementUpdateDto`: the same fields without the serial number. */
  datatype RecordUpdate = RecordUpdate(
    category: string,
    assetName: string,
    brand: string,
    location: string,
    ram: string,
    storage: string,
    processor: string,
    storageSize: int,
    remarks: Option<string>,
    departmentType: string)

  datatype Outcome<T> = Outcome(records: Table<AssetRecord>, response: Envelope<T>)

  /** The descriptive fields a record shares with an update request. */
  ghost predicate Describes(a: AssetRecord, u: RecordUpdate)
  {
    && a.category == u.category && a.assetName == u.assetName && a.brand == u.brand
    && a.location == u.location && a.ram == u.ram && a.storage == u.storage
    && a.processor == u.processor && a.storageSize == u.storageSize
    && a.remarks == u.remarks && a.departmentType == u.departmentType
  }

  /** The update request a creation request amounts to, once the serial is set aside. */
  function Descriptive(d: RecordRequest): RecordUpdate
  {
    RecordUpdate(d.category, d.assetName, d.brand, d.location, d.ram, d.storage,
                 d.processor, d.storageSize, d.remarks, d.departmentType)
  }

  /** `CreateAsync`. A serial already on any record is refused; otherwise the record is
      stored as requested, `Available`, created by the caller at `now`. */
  function Create(records: Table<AssetRecord>, d: RecordRequest, userId: int, now: int): (r: Outcome<Row<AssetRecord>>)
    ensures r.response.Error? <==> Repo.ExistsBySerial(records, d.serialNumber)
    ensures r.response.Error? ==> r == Outcome(records, Error("Serial number already exists"))
    ensures r.response.Ok? ==>
              var row := r.response.data;
              && row.id !in records
              && r.records == records[row.id := row.rec]
              && Describes(row.rec, Descriptive(d))
              && row.rec.serialNumber == d.serialNumber
              && row.rec.status == RecordAvailable
              && row.rec.createdBy == userId && row.rec.createdAt == now
              && r.response.note == Some("Asset registered successfully")
  {
    if Repo.ExistsBySerial(records, d.serialNumber) then
      Outcome(records, Error("Serial number already exists"))
    else
      var a := AssetRecord(d.category, d.assetName, d.brand, d.serialNumber, d.location,
                           d.ram, d.storage, d.processor, d.storageSize, d.remarks,
                           RecordAvailable, userId, now, d.departmentType);
      var (t, id) := Repo.Add(records, a);
      Outcome(t, Ok(Row(id, a), Some("Asset registered successfully")))
  }

  /** `GetByIdAsync`. */
  function GetById(records: Table<AssetRecord>, id: int): (r: Envelope<AssetRecord>)
    ensures r.Error? <==> id !in records
    ensures r.Error? ==> r.message == "Asset not found"
    ensures r.Ok? ==> r.data == records[id] && r.note == None
  {
    match Repo.GetById(records, id)
    case None => Error("Asset not found")
    case Some(a) => Ok(a, None)
  }

  /** `UpdateAsync`. Overwrites the descriptive fields; the serial number, status,
      creator and creation time stay as they were. */
  function Update(records: Table<AssetRecord>, id: int, u: RecordUpdate): (r: Outcome<bool>)
    ensures r.response.Error? <==> id !in records
    ensures r.response.Error? ==> r == Outcome(records, Error("Asset not found"))
    ensures r.response.Ok? ==>
              && r.response == Ok(true, Some("Asset updated successfully"))
              && r.records.Keys == records.Keys
              && Describes(r.records[id], u)
              && r.records[id].serialNumber == records[id].serialNumber
              && r.records[id].status == records[id].status
              && r.records[id].createdBy == records[id].createdBy
              && r.records[id].createdAt == records[id].createdAt
              && forall k :: k in records && k != id ==> r.records[k] == records[k]
  {
    match Repo.GetById(records, id)
    case None => Outcome(records, Error("Asset not found"))
    case Some(a) =>
      var a' := a.(category := u.category, assetName := u.assetName, brand := u.brand,
                   location := u.location, ram := u.ram, storage := u.storage,
                   processor := u.processor, storageSize := u.storageSize,
                   remarks := u.remarks, departmentType := u.departmentType);
      Outcome(Repo.Update(records, id, a'), Ok(true, Some("Asset updated successfully")))
  }

  /** `DeleteAsync`: a hard delete of an existing record. */
  function Delete(records: Table<AssetRecord>, id: int): (r: Outcome<bool>)
    ensures r.response.Error? <==> id !in records
    ensures r.response.Error? ==> r == Outcome(records, Error("Asset not found"))
    ensures r.response.Ok? ==>
              && r.response == Ok(true, Some("Asset deleted successfully"))
              && r.records.Keys == records.Keys - {id}
              && forall k :: k in r.records ==> r.records[k] == records[k]
  {
    match Repo.GetById(records, id)
    case None => Outcome(records, Error("Asset not found"))
    case Some(_) => Outcome(Repo.Delete(records, id), Ok(true, Some("Asset deleted successfully")))
  }

  /** No two records share a serial number. */
  ghost predicate SerialsUnique(records: Table<AssetRecord>)
  {
    forall j, k :: j in records && k in records && records[j].serialNumber == records[k].serialNumber ==> j == k
  }

  /** Creation, update and deletion all keep serial numbers unique. */
  lemma WritesKeepSerialsUnique(records: Table<AssetRecord>, d: RecordRequest, userId: int, now: int, id: int, u: RecordUpdate)
    requires SerialsUnique(records)
    ensures SerialsUnique(Create(records, d, userId, now).records)
    ensures SerialsUnique(Update(records, id, u).records)
    ensures SerialsUnique(Delete(records, id).records)
  {
    CreateKeepsSerialsUnique(records, d, userId, now);
    UpdateKeepsSerialsUnique(records, id, u);
    DeleteKeepsSerialsUnique(records, id);
  }

  lemma CreateKeepsSerialsUnique(records: Table<AssetRecord>, d: RecordRequest, userId: int, now: int)
    requires SerialsUnique(records)
    ensures SerialsUnique(Create(records, d, userId, now).records)
  {
    var r := Create(records, d, userId, now);
    if r.response.Ok? {
      var row := r.response.data;
      assert r.records == records[row.id := row.rec];
      forall k | k in records ensures records[k].serialNumber != d.serialNumber {
        assert !Repo.ExistsBySerial(records, d.serialNumber);
      }
    }
  }

  lemma UpdateKeepsSerialsUnique(records: Table<AssetRecord>, id: int, u: RecordUpdate)
    requires SerialsUnique(records)
    ensures SerialsUnique(Update(records, id, u).records)
  {
    var r := Update(records, id, u);
    assert forall k :: k in r.records ==> k in records && r.records[k].serialNumber == records[k].serialNumber;
  }

  lemma DeleteKeepsSerialsUnique(records: Table<AssetRecord>, id: int)
    requires SerialsUnique(records)
    ensures SerialsUnique(Delete(records, id).records)
  {
    var r := Delete(records, id);
    assert forall k :: k in r.records ==> k in records && r.records[k] == records[k];
  }

  /** A serial number is never released: after a record is created its serial is taken,
      and it stays taken through any later update. */
  lemma SerialStaysTaken(records: Table<AssetRecord>, d: RecordRequest, userId: int, now: int, id: int, u: RecordUpdate)
    requires Create(records, d, userId, now).response.Ok?
    ensures Repo.ExistsBySerial(Create(records, d, userId, now).records, d.serialNumber)
    ensures Repo.ExistsBySerial(Update(Create(records, d, userId, now).records, id, u).records, d.serialNumber)
  {
    var r := Create(records, d, userId, now);
    var row := r.response.data;
    assert row.id in r.records;
    var r2 := Update(r.records, id, u);
    assert row.id in r2.records && r2.records[row.id].serialNumber == d.serialNumber;
  }

  /** Creating a record and reading it back returns what the request described. */
  lemma CreateThenGet(records: Table<AssetRecord>, d: RecordRequest, userId: int, now: int)
    requires !Repo.ExistsBySerial(records, d.serialNumber)
    ensures var r := Create(records, d, userId, now);
            var got := GetById(r.records, r.response.data.id);
            got.Ok? && Describes(got.data, Descriptive(d)) && got.data.serialNumber == d.serialNumber
  {
  }

  /** Deleting a record makes its serial number available again. */
  lemma DeleteFreesSerial(records: Table<AssetRecord>, id: int)
    requires SerialsUnique(records)
    requires id in records
    ensures !Repo.ExistsBySerial(Delete(records, id).records, records[id].serialNumber)
    ensures GetById(Delete(records, id).records, id).Error?
  {
    var t := Delete(records, id).records;
    forall k | k in t ensures t[k].serialNumber != records[id].serialNumber {
      assert k != id;
    }
  }
}

=== FILE: asset_repository.dfy ===
/** `AssetRepository` over an in-memory asset table. The list queries return only
    active assets; the single-asset lookups do not look at the active flag; delete
    is soft. */
module AssetRepository {

  import opened Wrappers
  import opened Tables
  import opened Entities

  /** `GetByIdAsync`: the asset with that key, active or not. */
  function GetById(assets: Table<Asset>, id: int): (r: Option<Asset>)
    ensures r.Some? <==> id in assets
    ensures r.Some? ==> r.value == assets[id]
  {
    Lookup(assets, id)
  }

  /** `GetBySerialNumberAsync`: the first asset, by key, whose serial number is
      exactly `serial`, active or not. */
  function GetBySerialNumber(assets: Table<Asset>, serial: string): (r: Option<Row<Asset>>)
    ensures r.Some? <==> exists k :: k in assets && assets[k].serialNumber == serial
    ensures r.Some? ==> r.value.id in assets && r.value.rec == assets[r.value.id] &&
                        r.value.rec.serialNumber == serial
  {
    First(assets, (a: Asset) => a.serialNumber == serial)
  }

  /** The rows of a list query are exactly the active assets that satisfy `keep`,
      each once, in key order. */
  ghost predicate ListsActive(assets: Table<Asset>, keep: Asset -> bool, r: seq<Row<Asset>>)
  {
    && (forall i :: 0 <= i < |r| ==> r[i].id in assets && r[i].rec == assets[r[i].id])
    && (forall k :: k in KeysOf(r) <==> k in assets && assets[k].isActive && keep(assets[k]))
    && (forall i, j :: 0 <= i < j < |r| ==> r[i].id < r[j].id)
  }

  function ActiveWhere(assets: Table<Asset>, keep: Asset -> bool): (r: seq<Row<Asset>>)
    ensures ListsActive(assets, keep, r)
    ensures forall i :: 0 <= i < |r| ==> r[i].rec.isActive && keep(r[i].rec)
  {
    Where(assets, (a: Asset) => a.isActive && keep(a))
  }

  /** `GetAllAsync`. */
  function GetAll(assets: Table<Asset>): (r: seq<Row<Asset>>)
    ensures ListsActive(assets, (a: Asset) => true, r)
  {
    ActiveWhere(assets, (a: Asset) => true)
  }

  /** `GetByUserIdAsync`: active assets assigned to `userId`. */
  function GetByUserId(assets: Table<Asset>, userId: int): (r: seq<Row<Asset>>)
    ensures ListsActive(assets, (a: Asset) => a.assignedTo == Some(userId), r)
  {
    ActiveWhere(assets, (a: Asset) => a.assignedTo == Some(userId))
  }

  /** `GetByCategoryIdAsync`. */
  function GetByCategoryId(assets: Table<Asset>, categoryId: int): (r: seq<Row<Asset>>)
    ensures ListsActive(assets, (a: Asset) => a.categoryId == categoryId, r)
  {
    ActiveWhere(assets, (a: Asset) => a.categoryId == categoryId)
  }

  /** `GetByLocationIdAsync`. */
  function GetByLocationId(assets: Table<Asset>, locationId: int): (r: seq<Row<Asset>>)
    ensures ListsActive(assets, (a: Asset) => a.locationId == locationId, r)
  {
    ActiveWhere(assets, (a: Asset) => a.locationId == locationId)
  }

  /** `GetByStatusAsync`. */
  function GetByStatus(assets: Table<Asset>, status: AssetStatus): (r: seq<Row<Asset>>)
    ensures ListsActive(assets, (a: Asset) => a.status == status, r)
  {
    ActiveWhere(assets, (a: Asset) => a.status == status)
  }

  /** `CreateAsync`: stores the asset under a fresh key and returns the key. */
  function Create(assets: Table<Asset>, a: Asset): (r: (Table<Asset>, int))
    ensures r.1 !in assets
    ensures r.0 == assets[r.1 := a]
  {
    AddRow(assets, a)
  }

  /** `UpdateAsync`: stores every field of `a` under `id`, with `UpdatedAt` stamped. */
  function Update(assets: Table<Asset>, id: int, a: Asset, now: int): (r: Table<Asset>)
    ensures r.Keys == assets.Keys + {id}
    ensures r[id] == a.(updatedAt := now)
    ensures forall k :: k in assets && k != id ==> r[k] == assets[k]
  {
    Put(assets, id, a.(updatedAt := now))
  }

  /** `DeleteAsync`: false when no asset has the key; otherwise the asset is
      marked inactive (even when it already was) and the answer is true. */
  function Delete(assets: Table<Asset>, id: int, now: int): (r: (Table<Asset>, bool))
    ensures r.1 <==> id in assets
    ensures !r.1 ==> r.0 == assets
    ensures r.1 ==> r.0 == assets[id := assets[id].(isActive := false, updatedAt := now)]
  {
    if id !in assets then (assets, false)
    else (assets[id := assets[id].(isActive := false, updatedAt := now)], true)
  }

  /** `SerialNumberExistsAsync(serial, exclude)`: some active asset other than
      `exclude` has exactly this serial number. */
  function SerialNumberExists(assets: Table<Asset>, serial: string, exclude: Option<int>): (r: bool)
    ensures r <==> exists k :: k in assets && assets[k].isActive &&
                              assets[k].serialNumber == serial && exclude != Some(k)
  {
    var candidates := if exclude.Some? then assets.Keys - {exclude.value} else assets.Keys;
    var hits := Select(assets, candidates, (a: Asset) => a.isActive && a.serialNumber == serial);
    if |hits| > 0 then
      assert hits[0].id in KeysOf(hits);
      true
    else
      assert forall k :: k in candidates && assets[k].isActive && assets[k].serialNumber == serial ==>
        k in KeysOf(hits);
      false
  }

  // ---------------------------------------------------------------- properties

  /** A soft-deleted asset is still found by key and by serial number, only
      inactive; the list queries no longer show it. */
  lemma DeletedAssetStillFound(assets: Table<Asset>, id: int, now: int)
    requires id in assets
    ensures var after := Delete(assets, id, now).0;
      && GetById(after, id) == Some(assets[id].(isActive := false, updatedAt := now))
      && GetBySerialNumber(after, assets[id].serialNumber).Some?
      && id !in KeysOf(GetAll(after))
  {
    var after := Delete(assets, id, now).0;
    assert after[id].serialNumber == assets[id].serialNumber;
  }

  /** Delete changes nothing but the active flag and the update time of one asset. */
  lemma DeleteTouchesOnlyFlag(assets: Table<Asset>, id: int, now: int)
    requires id in assets
    ensures var after := Delete(assets, id, now).0;
      && after.Keys == assets.Keys
      && (forall k :: k in assets && k != id ==> after[k] == assets[k])
      && after[id].(isActive := true, updatedAt := 0) == assets[id].(isActive := true, updatedAt := 0)
  {
  }

  /** Deleting hides the serial number from the active-serial check: when the
      deleted asset was its only active holder, the check no longer sees it. The
      deleted row still holds the serial for the table's unique index. */
  lemma DeleteFreesSerial(assets: Table<Asset>, id: int, now: int)
    requires id in assets
    requires forall k :: k in assets && assets[k].isActive && assets[k].serialNumber == assets[id].serialNumber ==> k == id
    ensures !SerialNumberExists(Delete(assets, id, now).0, assets[id].serialNumber, None)
  {
  }

  /** Excluding an asset from the serial check ignores exactly that asset. */
  lemma SerialExistsExcludingSelf(assets: Table<Asset>, id: int)
    requires id in assets && assets[id].isActive
    ensures SerialNumberExists(assets, assets[id].serialNumber, None)
    ensures SerialNumberExists(assets, assets[id].serialNumber, Some(id)) <==>
      exists k :: k in assets && k != id && assets[k].isActive && assets[k].serialNumber == assets[id].serialNumber
  {
  }
}

=== FILE: asset_service.dfy ===
/** `AssetService`: registration, update, assignment, unassignment and deletion of
    assets. Each operation returns the new asset table and the response envelope;
    the category, brand, location and user tables are only read. */
module AssetService {

  import opened Wrappers
  import opened Text
  import opened Tables
  import opened Entities
  import opened AssetDtos
  import Repo = AssetRepository

  /** The tables the service reads. */
  datatype Store = Store(
    assets: Table<Asset>,
    categories: Table<CatalogEntry>,
    brands: Table<CatalogEntry>,
    locations: Table<CatalogEntry>,
    users: Table<User>)

  /** The new asset table and the response. */
  datatype Outcome<T> = Outcome(assets: Table<Asset>, response: Envelope<T>)

  /** A catalog lookup that succeeds only on an existing, active entry
      (`entry == null || !entry.IsActive` is the failure). */
  predicate ActiveEntry(t: Table<CatalogEntry>, id: int)
  {
    id in t && t[id].isActive
  }

  predicate ActiveUser(users: Table<User>, id: int)
  {
    id in users && users[id].isActive
  }

  /** Whether the asset table takes `a` under key `id` when the change is saved:
      the columns take every text (`AssetFitsColumns`), and no other row, active
      or deleted, holds the serial number the row keeps (the unique index on
      `SerialNumber`). A rejected save throws, and the service's catch-all
      answers with the table unchanged. */
  predicate StoreAccepts(assets: Table<Asset>, id: int, a: Asset)
  {
    && AssetFitsColumns(a)
    && forall k :: k in assets && k != id ==> assets[k].serialNumber != AssetAsStored(a).serialNumber
  }

  /** Every asset satisfies the assignment invariant. */
  ghost predicate AllConsistent(assets: Table<Asset>)
  {
    forall k :: k in assets ==> AssignmentConsistent(assets[k])
  }

  /** Every row holds texts within their columns, as every row read back does. */
  ghost predicate AllWithinColumns(assets: Table<Asset>)
  {
    forall k :: k in assets ==> AssetWithinColumns(assets[k])
  }

  // ------------------------------------------------------------------ register

  /** The asset a registration writes. */
  function Registered(d: AssetRegistration, createdBy: int, now: int): Asset
  {
    NewAsset(now).(
      name := d.name, serialNumber := d.serialNumber, categoryId := d.categoryId,
      brandId := d.brandId, locationId := d.locationId, remarks := d.remarks,
      createdBy := createdBy, status := Available, isActive := true)
  }

  /** The four checks `RegisterAssetAsync` makes before it writes. */
  predicate RegisterChecksPass(s: Store, d: AssetRegistration)
  {
    && !Repo.SerialNumberExists(s.assets, d.serialNumber, None) && ActiveEntry(s.categories, d.categoryId)
    && ActiveEntry(s.brands, d.brandId) && ActiveEntry(s.locations, d.locationId)
  }

  /** `RegisterAssetAsync`. The checks run in a fixed order and the first failure
      answers: a clash with an active serial number, then the category, the brand
      and the location, each of which must exist and be active. A save the
      database rejects (a creator missing from the user table, a text too long for
      its column, a serial a deleted asset still holds) ends in the catch-all
      answer. A text longer than its column only by trailing spaces is cut to the
      column; the response carries the asset as written. */
  function Register(s: Store, d: AssetRegistration, createdBy: int, now: int): (r: Outcome<Row<Asset>>)
    ensures r.response.Error? ==> r.assets == s.assets
    ensures Repo.SerialNumberExists(s.assets, d.serialNumber, None) ==>
      r.response == Error("Asset with this serial number already exists")
    ensures !Repo.SerialNumberExists(s.assets, d.serialNumber, None) && !ActiveEntry(s.categories, d.categoryId) ==>
      r.response == Error("Invalid category selected")
    ensures (!Repo.SerialNumberExists(s.assets, d.serialNumber, None) && ActiveEntry(s.categories, d.categoryId) &&
             !ActiveEntry(s.brands, d.brandId)) ==>
      r.response == Error("Invalid brand selected")
    ensures (!Repo.SerialNumberExists(s.assets, d.serialNumber, None) && ActiveEntry(s.categories, d.categoryId) &&
             ActiveEntry(s.brands, d.brandId) && !ActiveEntry(s.locations, d.locationId)) ==>
      r.response == Error("Invalid location selected")
    ensures (RegisterChecksPass(s, d) &&
             !(createdBy in s.users && StoreAccepts(s.assets, FreshId(s.assets), Registered(d, createdBy, now)))) ==>
      r.response == Error("An error occurred while registering the asset")
    ensures r.response.Ok? <==>
      RegisterChecksPass(s, d) && createdBy in s.users &&
      StoreAccepts(s.assets, FreshId(s.assets), Registered(d, createdBy, now))
    ensures r.response.Ok? ==>
      var id := r.response.data.id;
      var a := r.response.data.rec;
      && id !in s.assets && r.assets == s.assets[id := AssetAsStored(a)]
      && r.response.note == Some("Asset registered successfully")
      && a.status == Available && a.isActive && a.assignedTo.None? && a.createdBy == createdBy
      && a.name == d.name && a.serialNumber == d.serialNumber && a.remarks == d.remarks
      && a.categoryId == d.categoryId && a.brandId == d.brandId && a.locationId == d.locationId
      && a.createdAt == now && a.updatedAt == now
  {
    if Repo.SerialNumberExists(s.assets, d.serialNumber, None) then
      Outcome(s.assets, Error("Asset with this serial number already exists"))
    else if !ActiveEntry(s.categories, d.categoryId) then
      Outcome(s.assets, Error("Invalid category selected"))
    else if !ActiveEntry(s.brands, d.brandId) then
      Outcome(s.assets, Error("Invalid brand selected"))
    else if !ActiveEntry(s.locations, d.locationId) then
      Outcome(s.assets, Error("Invalid location selected"))
    else
      var asset := Registered(d, createdBy, now);
      if !(createdBy in s.users && StoreAccepts(s.assets, FreshId(s.assets), asset)) then
        Outcome(s.assets, Error("An error occurred while registering the asset"))
      else
        var (assets', id) := Repo.Create(s.assets, AssetAsStored(asset));
        Outcome(assets', Ok(Row(id, asset), Some("Asset registered successfully")))
  }

  // -------------------------------------------------------------------- update

  /** The fields an update overwrites. */
  function Updated(a: Asset, d: AssetUpdate): Asset
  {
    a.(name := d.name, categoryId := d.categoryId, brandId := d.brandId,
       locationId := d.locationId, remarks := d.remarks, status := d.status)
  }

  /** `UpdateAssetAsync`. The asset is looked up by key whatever its active flag;
      then the category, brand and location are checked as in `Register`. Name,
      keys, remarks and status are overwritten (the status with no transition
      check); the serial number, creator, assignee and active flag are kept. A save
      the database rejects ends in the catch-all answer; texts longer than their
      column only by trailing spaces are cut to it. */
  function Update(s: Store, id: int, d: AssetUpdate, now: int): (r: Outcome<Row<Asset>>)
    ensures r.response.Error? ==> r.assets == s.assets
    ensures id !in s.assets ==> r.response == Error("Asset not found")
    ensures id in s.assets && !ActiveEntry(s.categories, d.categoryId) ==>
      r.response == Error("Invalid category selected")
    ensures id in s.assets && ActiveEntry(s.categories, d.categoryId) && !ActiveEntry(s.brands, d.brandId) ==>
      r.response == Error("Invalid brand selected")
    ensures (id in s.assets && ActiveEntry(s.categories, d.categoryId) && ActiveEntry(s.brands, d.brandId) &&
             !ActiveEntry(s.locations, d.locationId)) ==>
      r.response == Error("Invalid location selected")
    ensures (id in s.assets && ActiveEntry(s.categories, d.categoryId) && ActiveEntry(s.brands, d.brandId) &&
             ActiveEntry(s.locations, d.locationId) && !StoreAccepts(s.assets, id, Updated(s.assets[id], d))) ==>
      r.response == Error("An error occurred while updating the asset")
    ensures r.response.Ok? <==>
      id in s.assets && ActiveEntry(s.categories, d.categoryId) && ActiveEntry(s.brands, d.brandId) &&
      ActiveEntry(s.locations, d.locationId) && StoreAccepts(s.assets, id, Updated(s.assets[id], d))
    ensures r.response.Ok? ==>
      var old_ := s.assets[id];
      var a := r.response.data.rec;
      && r.response.data.id == id && r.assets == s.assets[id := AssetAsStored(a)]
      && r.response.note == Some("Asset updated successfully")
      && a.name == d.name && a.categoryId == d.categoryId && a.brandId == d.brandId
      && a.locationId == d.locationId && a.remarks == d.remarks && a.status == d.status
      && a.updatedAt == now
      && a.serialNumber == old_.serialNumber && a.createdBy == old_.createdBy
      && a.assignedTo == old_.assignedTo && a.isActive == old_.isActive && a.createdAt == old_.createdAt
  {
    match Repo.GetById(s.assets, id)
    case None => Outcome(s.assets, Error("Asset not found"))
    case Some(asset) =>
      if !ActiveEntry(s.categories, d.categoryId) then Outcome(s.assets, Error("Invalid category selected"))
      else if !ActiveEntry(s.brands, d.brandId) then Outcome(s.assets, Error("Invalid brand selected"))
      else if !ActiveEntry(s.locations, d.locationId) then Outcome(s.assets, Error("Invalid location selected"))
      else if !StoreAccepts(s.assets, id, Updated(asset, d)) then
        Outcome(s.assets, Error("An error occurred while updating the asset"))
      else
        var assets' := Repo.Update(s.assets, id, AssetAsStored(Updated(asset, d)), now);
        Outcome(assets', Ok(Row(id, Updated(asset, d).(updatedAt := now)), Some("Asset updated successfully")))
  }

  // -------------------------------------------------------------------- assign

  /** `string.IsNullOrEmpty`. */
  predicate NullOrEmpty(s: Option<string>)
  {
    s.None? || s.value == ""
  }

  /** The remarks after an assignment: the assignment text appended on a new line
      (an absent remark interpolates as the empty string), or the old remarks when
      the assignment carries none. */
  function AssignmentRemarks(remarks: Option<string>, text: Option<string>): (r: Option<string>)
    ensures NullOrEmpty(text) ==> r == remarks
    ensures !NullOrEmpty(text) ==> r.Some? && r.value == remarks.GetOr("") + "\n[Assignment] " + text.value
  {
    if NullOrEmpty(text) then remarks
    else Some(remarks.GetOr("") + "\n[Assignment] " + text.value)
  }

  /** The asset after an assignment, before the update time is stamped. */
  function AssignedTo(a: Asset, d: AssetAssignment): Asset
  {
    a.(assignedTo := Some(d.userId), status := Assigned, remarks := AssignmentRemarks(a.remarks, d.assignmentRemarks))
  }

  /** `AssignAssetAsync`: the asset must exist and be `Available` (its active flag
      is not consulted), and the user must exist and be active. A save the database
      rejects, such as remarks grown past their column, ends in the catch-all answer;
      remarks longer than the column only by trailing spaces are cut to it. */
  function Assign(s: Store, id: int, d: AssetAssignment, now: int): (r: Outcome<Row<Asset>>)
    ensures r.response.Error? ==> r.assets == s.assets
    ensures id !in s.assets ==> r.response == Error("Asset not found")
    ensures id in s.assets && s.assets[id].status != Available ==>
      r.response == Error("Asset is not available for assignment")
    ensures id in s.assets && s.assets[id].status == Available && !ActiveUser(s.users, d.userId) ==>
      r.response == Error("Invalid user selected")
    ensures (id in s.assets && s.assets[id].status == Available && ActiveUser(s.users, d.userId) &&
             !StoreAccepts(s.assets, id, AssignedTo(s.assets[id], d))) ==>
      r.response == Error("An error occurred while assigning the asset")
    ensures r.response.Ok? <==>
      id in s.assets && s.assets[id].status == Available && ActiveUser(s.users, d.userId) &&
      StoreAccepts(s.assets, id, AssignedTo(s.assets[id], d))
    ensures r.response.Ok? ==>
      var a := r.response.data.rec;
      && r.response.data.id == id && r.assets == s.assets[id := AssetAsStored(a)]
      && r.response.note == Some("Asset assigned successfully")
      && a == s.assets[id].(assignedTo := Some(d.userId), status := Assigned,
                            remarks := AssignmentRemarks(s.assets[id].remarks, d.assignmentRemarks),
                            updatedAt := now)
  {
    match Repo.GetById(s.assets, id)
    case None => Outcome(s.assets, Error("Asset not found"))
    case Some(asset) =>
      if asset.status != Available then Outcome(s.assets, Error("Asset is not available for assignment"))
      else if !(d.userId in s.users && s.users[d.userId].isActive) then Outcome(s.assets, Error("Invalid user selected"))
      else if !StoreAccepts(s.assets, id, AssignedTo(asset, d)) then
        Outcome(s.assets, Error("An error occurred while assigning the asset"))
      else
        var assets' := Repo.Update(s.assets, id, AssetAsStored(AssignedTo(asset, d)), now);
        Outcome(assets', Ok(Row(id, AssignedTo(asset, d).(updatedAt := now)), Some("Asset assigned successfully")))
  }

  // ------------------------------------------------------------------ unassign

  /** `UnassignAssetAsync`: the asset must exist and be `Assigned`; the assignee is
      cleared and the asset is `Available` again; the remarks are left alone. */
  function Unassign(assets: Table<Asset>, id: int, now: int): (r: Outcome<Row<Asset>>)
    ensures r.response.Error? ==> r.assets == assets
    ensures id !in assets ==> r.response == Error("Asset not found")
    ensures id in assets && assets[id].status != Assigned ==>
      r.response == Error("Asset is not currently assigned")
    ensures r.response.Ok? <==> id in assets && assets[id].status == Assigned
    ensures r.response.Ok? ==>
      var a := r.response.data.rec;
      && r.response.data.id == id && r.assets == assets[id := a]
      && r.response.note == Some("Asset unassigned successfully")
      && a == assets[id].(assignedTo := None, status := Available, updatedAt := now)
  {
    match Repo.GetById(assets, id)
    case None => Outcome(assets, Error("Asset not found"))
    case Some(asset) =>
      if asset.status != Assigned then Outcome(assets, Error("Asset is not currently assigned"))
      else
        var changed := asset.(assignedTo := None, status := Available);
        var assets' := Repo.Update(assets, id, changed, now);
        Outcome(assets', Ok(Row(id, assets'[id]), Some("Asset unassigned successfully")))
  }

  // -------------------------------------------------------------------- delete

  /** `DeleteAssetAsync`: a soft delete through the repository. */
  function Delete(assets: Table<Asset>, id: int, now: int): (r: Outcome<bool>)
    ensures r.response.Ok? <==> id in assets
    ensures r.response.Error? ==> r.response.message == "Asset not found" && r.assets == assets
    ensures r.response.Ok? ==>
      r.response == Ok(true, Some("Asset deleted successfully")) &&
      r.assets.Keys == assets.Keys && !r.assets[id].isActive
  {
    var (assets', found) := Repo.Delete(assets, id, now);
    if !found then Outcome(assets, Error("Asset not found"))
    else Outcome(assets', Ok(true, Some("Asset deleted successfully")))
  }

  // ---------------------------------------------------------------- properties

  /** Register, Assign, Unassign and Delete preserve the assignment invariant. */
  lemma RegisterPreservesConsistency(s: Store, d: AssetRegistration, createdBy: int, now: int)
    requires AllConsistent(s.assets)
    ensures AllConsistent(Register(s, d, createdBy, now).assets)
  {
  }

  lemma AssignPreservesConsistency(s: Store, id: int, d: AssetAssignment, now: int)
    requires AllConsistent(s.assets)
    ensures AllConsistent(Assign(s, id, d, now).assets)
  {
  }

  lemma UnassignPreservesConsistency(assets: Table<Asset>, id: int, now: int)
    requires AllConsistent(assets)
    ensures AllConsistent(Unassign(assets, id, now).assets)
  {
  }

  lemma DeletePreservesConsistency(assets: Table<Asset>, id: int, now: int)
    requires AllConsistent(assets)
    ensures AllConsistent(Delete(assets, id, now).assets)
  {
  }

  /** A registration leaves each row's texts within their columns. */
  lemma RegisterKeepsRowsWithinColumns(s: Store, d: AssetRegistration, createdBy: int, now: int)
    requires AllWithinColumns(s.assets)
    ensures AllWithinColumns(Register(s, d, createdBy, now).assets)
  {
  }

  /** So does an update. */
  lemma UpdateKeepsRowsWithinColumns(s: Store, id: int, d: AssetUpdate, now: int)
    requires AllWithinColumns(s.assets)
    ensures AllWithinColumns(Update(s, id, d, now).assets)
  {
  }

  /** So do assignment, unassignment and the soft delete. */
  lemma AssignmentsKeepRowsWithinColumns(s: Store, id: int, d: AssetAssignment, now: int)
    requires AllWithinColumns(s.assets)
    ensures AllWithinColumns(Assign(s, id, d, now).assets)
    ensures AllWithinColumns(Unassign(s.assets, id, now).assets)
    ensures AllWithinColumns(Delete(s.assets, id, now).assets)
  {
  }

  /** Update does not preserve the invariant: it can mark an unassigned asset as
      `Assigned`. */
  lemma UpdateCanBreakConsistency()
    ensures exists s: Store, id: int, d: AssetUpdate, now: int ::
      AllConsistent(s.assets) && !AllConsistent(Update(s, id, d, now).assets)
  {
    var entry := CatalogEntry("c", None, true, 0, 0);
    var asset := NewAsset(0).(categoryId := 1, brandId := 1, locationId := 1);
    var s := Store(map[1 := asset], map[1 := entry], map[1 := entry], map[1 := entry], map[]);
    var d := AssetUpdate("n", 1, 1, 1, None, Assigned);
    var after := Update(s, 1, d, 0).assets;
    assert after[1].status == Assigned && after[1].assignedTo.None?;
    assert !AllConsistent(after);
  }

  /** Assigning and then unassigning restores the asset apart from the remarks
      and the update time. */
  lemma AssignThenUnassign(s: Store, id: int, d: AssetAssignment, now1: int, now2: int)
    requires Assign(s, id, d, now1).response.Ok?
    requires AssignmentConsistent(s.assets[id]) && AssetWithinColumns(s.assets[id])
    ensures var mid := Assign(s, id, d, now1).assets;
      var back := Unassign(mid, id, now2);
      && back.response.Ok?
      && back.assets[id] == s.assets[id].(remarks := mid[id].remarks, updatedAt := now2)
  {
  }

  /** A soft-deleted asset can be assigned exactly when it could before the delete:
      the service looks it up by key and does not consult the active flag. */
  lemma DeletedAssetAssignable(s: Store, id: int, d: AssetAssignment, now1: int, now2: int)
    requires id in s.assets
    ensures var deleted := Delete(s.assets, id, now1).assets;
      Assign(s.(assets := deleted), id, d, now2).response.Ok? <==> Assign(s, id, d, now2).response.Ok?
  {
    var deleted := Delete(s.assets, id, now1).assets;
    assert deleted == s.assets[id := s.assets[id].(isActive := false, updatedAt := now1)];
    assert StoreAccepts(deleted, id, AssignedTo(deleted[id], d)) <==> StoreAccepts(s.assets, id, AssignedTo(s.assets[id], d)) by {
      forall k | k in s.assets && k != id ensures deleted[k] == s.assets[k] { }
    }
  }

  /** A registration that passes validation writes an asset that fits the asset
      table's columns, so the only save it can lose is to the serial number's
      unique index: with no row holding the serial and the checks passing, it is
      stored. */
  lemma ValidRegistrationStored(s: Store, d: AssetRegistration, createdBy: int, now: int)
    requires |RegistrationErrors(d)| == 0
    requires RegisterChecksPass(s, d) && createdBy in s.users
    requires forall k :: k in s.assets ==> s.assets[k].serialNumber != d.serialNumber
    ensures AssetWithinColumns(Registered(d, createdBy, now))
    ensures Register(s, d, createdBy, now).response.Ok?
    ensures var r := Register(s, d, createdBy, now).response.data;
      Register(s, d, createdBy, now).assets[r.id] == r.rec
  {
    assert RegistrationValid(d);
  }

  /** The serial of a soft-deleted asset is not free again: the service's check no
      longer sees it, but the unique index still holds it, and the registration
      ends in the catch-all answer. */
  lemma DeletedSerialBlocksRegistration(s: Store, d: AssetRegistration, createdBy: int, now: int, k: int)
    requires RegisterChecksPass(s, d) && |d.serialNumber| <= 100
    requires k in s.assets && s.assets[k].serialNumber == d.serialNumber
    ensures !s.assets[k].isActive
    ensures Register(s, d, createdBy, now).response == Error("An error occurred while registering the asset")
  {
    assert k != FreshId(s.assets);
  }

  /** An assignment that passes validation can still fail: remarks of 487
      characters appended to an asset without remarks make a 501-character value
      for a 500-character column. */
  lemma AssignCanOverflowRemarks()
    ensures exists s: Store, id: int, d: AssetAssignment, now: int ::
      && AssignmentValid(d) && id in s.assets && s.assets[id].status == Available && ActiveUser(s.users, d.userId)
      && Assign(s, id, d, now).response == Error("An error occurred while assigning the asset")
  {
    var text := seq(487, i => 'x');
    assert forall i :: 0 <= i < |text| ==> InBasicPlane(text[i]);
    var user := User("u", "e", "1", None, "h", "d", "s", 1, true, 0, 0);
    var s := Store(map[1 := NewAsset(0)], map[], map[], map[], map[1 := user]);
    var d := AssetAssignment(1, Some(text));
    assert AssignmentValid(d);
    var remarks := AssignmentRemarks(None, Some(text)).value;
    assert |remarks| == 501 && remarks[500] == text[486] == 'x';
    assert !StoreAccepts(s.assets, 1, AssignedTo(s.assets[1], d));
    assert Assign(s, 1, d, 0).response == Error("An error occurred while assigning the asset");
  }

  /** Remarks that outgrow the column only by trailing spaces are stored cut to
      500 characters, and the assignment succeeds. */
  lemma AssignCutsTrailingSpaces()
    ensures exists s: Store, id: int, d: AssetAssignment, now: int ::
      && AssignmentValid(d) && id in s.assets
      && var r := Assign(s, id, d, now);
      && r.response.Ok? && r.response.data.rec.remarks.Some? && |r.response.data.rec.remarks.value| == 501
      && r.assets[id].remarks == Some(r.response.data.rec.remarks.value[..500])
  {
    var text := seq(486, i => 'x') + " ";
    assert forall i :: 0 <= i < |text| ==> InBasicPlane(text[i]);
    var user := User("u", "e", "1", None, "h", "d", "s", 1, true, 0, 0);
    var s := Store(map[1 := NewAsset(0)], map[], map[], map[], map[1 := user]);
    var d := AssetAssignment(1, Some(text));
    assert AssignmentValid(d);
    var remarks := AssignmentRemarks(None, Some(text)).value;
    assert |remarks| == 501 && remarks[500] == text[486] == ' ';
    assert StoreAccepts(s.assets, 1, AssignedTo(s.assets[1], d));
    var r := Assign(s, 1, d, 0);
    assert r.response.Ok?;
  }
}

=== FILE: auth_service.dfy ===
/** `AuthService`: login and password change. Password hashing is the parameter
    `hash`; issuing the JWT is not part of this model, so a successful login
    answers with the user it authenticated. */
module AuthService {

  import opened Wrappers
  import opened Text
  import opened Tables
  import opened Entities
  import opened UserDtos
  import Repo = UserRepository
  import Users = UserService

  /** `LoginAsync`: the user is found by email ignoring case; an unknown email and
      a wrong password give the same message, a deactivated account (checked
      before the password) a different one. */
  function Login(users: Table<User>, email: string, password: string, hash: string -> string): (r: Envelope<Row<User>>)
    ensures Repo.GetByEmail(users, email).None? ==> r == Error("Invalid email or password")
    ensures (Repo.GetByEmail(users, email).Some? && !Repo.GetByEmail(users, email).value.rec.isActive) ==>
      r == Error("Account is deactivated")
    ensures (Repo.GetByEmail(users, email).Some? && Repo.GetByEmail(users, email).value.rec.isActive &&
             Repo.GetByEmail(users, email).value.rec.passwordHash != hash(password)) ==>
      r == Error("Invalid email or password")
    ensures r.Ok? <==>
      Repo.GetByEmail(users, email).Some? && Repo.GetByEmail(users, email).value.rec.isActive &&
      Repo.GetByEmail(users, email).value.rec.passwordHash == hash(password)
    ensures r.Ok? ==> r.data == Repo.GetByEmail(users, email).value && r.note == Some("Login successful")
  {
    match Repo.GetByEmail(users, email)
    case None => Error("Invalid email or password")
    case Some(row) =>
      if !row.rec.isActive then Error("Account is deactivated")
      else if row.rec.passwordHash != hash(password) then Error("Invalid email or password")
      else Ok(row, Some("Login successful"))
  }

  /** `ChangePasswordAsync`: the user is found by key (the active flag is not
      checked) and the current password must hash to the stored hash. */
  function ChangePassword(users: Table<User>, id: int, current: string, newPassword: string,
                          hash: string -> string, now: int): (r: (Table<User>, Envelope<bool>))
    ensures id !in users ==> r.1 == Error("User not found")
    ensures id in users && users[id].passwordHash != hash(current) ==> r.1 == Error("Current password is incorrect")
    ensures r.1.Error? ==> r.0 == users
    ensures r.1.Ok? <==> id in users && users[id].passwordHash == hash(current)
    ensures r.1.Ok? ==>
      && r.1 == Ok(true, Some("Password changed successfully"))
      && r.0 == users[id := users[id].(passwordHash := hash(newPassword), updatedAt := now)]
  {
    match Repo.GetById(users, id)
    case None => (users, Error("User not found"))
    case Some(u) =>
      if u.passwordHash != hash(current) then (users, Error("Current password is incorrect"))
      else (Repo.Update(users, id, u.(passwordHash := hash(newPassword)), now), Ok(true, Some("Password changed successfully")))
  }

  // ---------------------------------------------------------------- properties

  /** With unique emails, login succeeds exactly when some user has the email
      (ignoring case), is active, and has the password's hash. */
  lemma LoginSucceedsIff(users: Table<User>, email: string, password: string, hash: string -> string)
    requires Repo.KeysUnique(users)
    ensures Login(users, email, password, hash).Ok? <==>
      exists k :: k in users && EqualsIgnoreCase(users[k].email, email) && users[k].isActive &&
                  users[k].passwordHash == hash(password)
  {
    if exists k :: k in users && EqualsIgnoreCase(users[k].email, email) && users[k].isActive &&
                   users[k].passwordHash == hash(password) {
      var k :| k in users && EqualsIgnoreCase(users[k].email, email) && users[k].isActive &&
               users[k].passwordHash == hash(password);
      Repo.EmailLookupFindsOwner(users, k, email);
    }
  }

  /** A newly registered user can log in with the registered password, giving the
      stored email in any case. The stored email is the lower-cased one the request
      gave whenever that fits its column. */
  lemma RegisterThenLogin(users: Table<User>, roles: Table<Role>, d: UserRegistration,
                          hash: string -> string, now: int, email: string)
    requires Users.Register(users, roles, d, hash, now).response.Ok?
    requires Repo.EmailsLowerCase(users)
    requires var r := Users.Register(users, roles, d, hash, now);
      EqualsIgnoreCase(email, r.users[r.response.data.id].email)
    ensures var r := Users.Register(users, roles, d, hash, now);
      var id := r.response.data.id;
      && Login(r.users, email, d.password, hash) == Ok(Row(id, r.users[id]), Some("Login successful"))
      && (|d.email| <= 100 ==> r.users[id].email == ToLower(d.email))
  {
    var r := Users.Register(users, roles, d, hash, now);
    var id := r.response.data.id;
    var stored := r.users[id];
    Users.StoredEmailLowerCase(d, hash, now);
    ToLowerFixesLowerCase(stored.email);
    forall k | k in users
      ensures !EqualsIgnoreCase(users[k].email, email)
    {
      ToLowerFixesLowerCase(users[k].email);
      assert users[k].email != stored.email;
    }
    NewEmailFoundFirst(users, r.users, id, email);
  }

  /** When only the added user matches an email, the email lookup finds that user. */
  lemma NewEmailFoundFirst(users: Table<User>, users': Table<User>, id: int, email: string)
    requires id !in users && id in users' && users' == users[id := users'[id]]
    requires EqualsIgnoreCase(users'[id].email, email)
    requires forall k :: k in users ==> !EqualsIgnoreCase(users[k].email, email)
    ensures Repo.GetByEmail(users', email) == Some(Row(id, users'[id]))
  {
    var found := Repo.GetByEmail(users', email).value;
    assert found.id <= id;
    assert found.id == id by {
      assert found.id !in users;
    }
  }

  /** After a password change the new password logs in and, unless the two
      hashes collide, the old one no longer does. */
  lemma ChangePasswordThenLogin(users: Table<User>, id: int, email: string, current: string, newPassword: string,
                                hash: string -> string, now: int)
    requires ChangePassword(users, id, current, newPassword, hash, now).1.Ok?
    requires Repo.GetByEmail(users, email).Some? && Repo.GetByEmail(users, email).value.id == id
    requires users[id].isActive
    ensures var after := ChangePassword(users, id, current, newPassword, hash, now).0;
      && Login(after, email, newPassword, hash).Ok?
      && (hash(current) != hash(newPassword) ==> Login(after, email, current, hash) == Error("Invalid email or password"))
  {
    var after := ChangePassword(users, id, current, newPassword, hash, now).0;
    assert after.Keys == users.Keys;
    assert forall k :: k in users ==> after[k].email == users[k].email;
    assert Repo.GetByEmail(after, email).value.id == id;
  }
}

=== FILE: authorization.dfy ===
/** The role-authorization filter (`RoleAuthorizationAttribute.OnAuthorization`)
    and its three presets. The request's identity is reduced to whether it is
    present and authenticated, and to the list of its claims in order. */
module Authorization {

  import opened Wrappers
  import opened Text

  datatype Claim = Claim(claimType: string, value: string)

  /** `HttpContext.User`: `hasIdentity` is false when `User.Identity` is null. */
  datatype Principal = Principal(hasIdentity: bool, isAuthenticated: bool, claims: seq<Claim>)

  /** `ClaimTypes.Role`, "http://schemas.microsoft.com/ws/2008/06/identity/claims/role",
      written in pieces so that its letters can be checked piece by piece. */
  const RoleClaimType := "http://schem" + "as.microsoft" + ".com/ws/2008" + "/06/identity" + "/claims/role"

  /** The outcome of the filter: a 401 because the caller is not authenticated, a
      401 because no usable role claim is present, a 403 (`ForbidResult`), or no
      result at all, in which case the request proceeds. */
  datatype Decision = NotAuthenticated | MissingRole | Forbidden | Proceed
  {
    /** The HTTP status the decision produces, when it produces one. */
    function Status(): Option<int>
    {
      match this
      case NotAuthenticated => Some(401)
      case MissingRole => Some(401)
      case Forbidden => Some(403)
      case Proceed => None
    }
  }

  /** The claim-type test of `FindFirst`, which ignores case. `RoleClaimType` is
      already lower-case (`RoleClaimTypeIsLowerCase`), so comparing the lowered
      claim type with it is the ignore-case comparison. */
  predicate IsRoleClaim(c: Claim)
  {
    ToLower(c.claimType) == RoleClaimType
  }

  lemma RoleClaimTypeIsLowerCase()
    ensures ToLower(RoleClaimType) == RoleClaimType
    ensures forall c: Claim :: IsRoleClaim(c) <==> EqualsIgnoreCase(c.claimType, RoleClaimType)
  {
    LowerCaseAppend("http://schem", "as.microsoft");
    LowerCaseAppend("http://schem" + "as.microsoft", ".com/ws/2008");
    LowerCaseAppend("http://schem" + "as.microsoft" + ".com/ws/2008", "/06/identity");
    LowerCaseAppend("http://schem" + "as.microsoft" + ".com/ws/2008" + "/06/identity", "/claims/role");
    ToLowerFixesLowerCase(RoleClaimType);
  }

  /** `User.FindFirst(ClaimTypes.Role)?.Value`: the value of the first claim whose
      type is the role type (claim types compare ignoring case); `None` when there
      is none. */
  function FirstRole(claims: seq<Claim>): (r: Option<string>)
    ensures r.None? <==> forall i :: 0 <= i < |claims| ==> !IsRoleClaim(claims[i])
    ensures r.Some? ==>
      exists i :: (0 <= i < |claims| && IsRoleClaim(claims[i]) && claims[i].value == r.value &&
                   forall j :: 0 <= j < i ==> !IsRoleClaim(claims[j]))
  {
    if |claims| == 0 then None
    else if IsRoleClaim(claims[0]) then Some(claims[0].value)
    else
      var r := FirstRole(claims[1..]);
      assert forall i :: 0 < i < |claims| ==> claims[i] == claims[1..][i - 1];
      if r.Some? then
        var k :| 0 <= k < |claims[1..]| && IsRoleClaim(claims[1..][k]) &&
          claims[1..][k].value == r.value &&
          forall j :: 0 <= j < k ==> !IsRoleClaim(claims[1..][j]);
        assert claims[k + 1] == claims[1..][k];
        assert forall j :: 0 < j < k + 1 ==> !IsRoleClaim(claims[j]) by {
          forall j | 0 < j < k + 1 ensures !IsRoleClaim(claims[j]) {
            assert claims[j] == claims[1..][j - 1];
          }
        }
        r
      else
        r
  }

  /** `OnAuthorization(context)` with the filter's allow-list `allowed`. Membership
      is exact (`string[].Contains` uses ordinal equality). */
  function Authorize(user: Principal, allowed: seq<string>): (d: Decision)
    ensures d == NotAuthenticated <==> !(user.hasIdentity && user.isAuthenticated)
    ensures d == MissingRole <==> (user.hasIdentity && user.isAuthenticated &&
      (FirstRole(user.claims).None? || FirstRole(user.claims).value == ""))
    ensures d == Forbidden <==> (user.hasIdentity && user.isAuthenticated &&
      FirstRole(user.claims).Some? && FirstRole(user.claims).value != "" &&
      FirstRole(user.claims).value !in allowed)
    ensures d == Proceed <==> (user.hasIdentity && user.isAuthenticated &&
      FirstRole(user.claims).Some? && FirstRole(user.claims).value != "" &&
      FirstRole(user.claims).value in allowed)
  {
    if !(user.hasIdentity && user.isAuthenticated) then NotAuthenticated
    else
      var role := FirstRole(user.claims);
      if role.None? || role.value == "" then MissingRole
      else if role.value !in allowed then Forbidden
      else Proceed
  }

  const AdminOnly: seq<string> := ["Admin"]
  const AdminAndIT: seq<string> := ["Admin", "IT Support"]
  const AdminManagerIT: seq<string> := ["Admin", "Manager", "IT Support"]

  /** Enlarging the allow-list never turns a pass into a denial, and it changes no
      decision other than a 403. */
  lemma AllowListMonotonic(user: Principal, allowed: seq<string>, larger: seq<string>)
    requires forall r :: r in allowed ==> r in larger
    ensures Authorize(user, allowed) == Proceed ==> Authorize(user, larger) == Proceed
    ensures Authorize(user, allowed) != Forbidden ==> Authorize(user, larger) == Authorize(user, allowed)
  {
  }

  /** Only the first role claim counts: claims after it do not change the decision. */
  lemma {:induction false} OnlyFirstRoleClaimCounts(claims: seq<Claim>, c: Claim, later: seq<Claim>)
    requires IsRoleClaim(c)
    requires forall i :: 0 <= i < |claims| ==> !IsRoleClaim(claims[i])
    ensures FirstRole(claims + [c] + later) == Some(c.value)
  {
    if |claims| > 0 {
      assert (claims + [c] + later)[1..] == claims[1..] + [c] + later;
      OnlyFirstRoleClaimCounts(claims[1..], c, later);
    }
  }

  /** The presets are nested: whoever passes `AdminOnly` passes `AdminAndIT`, and
      whoever passes `AdminAndIT` passes `AdminManagerIT`. */
  lemma PresetsNested(user: Principal)
    ensures Authorize(user, AdminOnly) == Proceed ==> Authorize(user, AdminAndIT) == Proceed
    ensures Authorize(user, AdminAndIT) == Proceed ==> Authorize(user, AdminManagerIT) == Proceed
  {
    AllowListMonotonic(user, AdminOnly, AdminAndIT);
    AllowListMonotonic(user, AdminAndIT, AdminManagerIT);
  }

  /** Role names are matched exactly: an authenticated caller whose role claim is
      `"admin"` is forbidden by every preset. */
  lemma RoleMatchIsCaseSensitive(user: Principal)
    requires user.hasIdentity && user.isAuthenticated
    requires FirstRole(user.claims) == Some("admin")
    ensures Authorize(user, AdminOnly) == Forbidden
    ensures Authorize(user, AdminAndIT) == Forbidden
    ensures Authorize(user, AdminManagerIT) == Forbidden
  {
  }
}

=== FILE: catalog_repository.dfy ===
/** The repositories of the three catalogs an asset refers to: `BrandRepository`,
    `LocationRepository`, and the category repository, which has the same
    interface. Names are compared ignoring case, the active list is ordered by
    name, and delete is a hard delete the repository refuses while an active asset
    refers to the entry and the database refuses while any asset does. */
module CatalogRepository {

  import opened Wrappers
  import opened Text
  import opened Tables
  import opened Entities

  /** Which catalog a table is, and so which key of an asset refers to it. */
  datatype Catalog = Categories | Brands | Locations
  {
    function Noun(): string
    {
      match this
      case Categories => "category"
      case Brands => "brand"
      case Locations => "location"
    }
  }

  predicate RefersTo(a: Asset, c: Catalog, id: int)
  {
    match c
    case Categories => a.categoryId == id
    case Brands => a.brandId == id
    case Locations => a.locationId == id
  }

  /** `GetByIdAsync` (`FindAsync`): the entry with that key, active or not. */
  function GetById(t: Table<CatalogEntry>, id: int): (r: Option<CatalogEntry>)
    ensures r.Some? <==> id in t
    ensures r.Some? ==> r.value == t[id]
  {
    Lookup(t, id)
  }

  /** `GetByNameAsync`: the first entry, by key, whose name equals `name` ignoring
      case. */
  function GetByName(t: Table<CatalogEntry>, name: string): (r: Option<Row<CatalogEntry>>)
    ensures r.Some? <==> exists k :: k in t && EqualsIgnoreCase(t[k].name, name)
    ensures r.Some? ==> r.value.id in t && r.value.rec == t[r.value.id] &&
                        EqualsIgnoreCase(r.value.rec.name, name)
  {
    First(t, (e: CatalogEntry) => EqualsIgnoreCase(e.name, name))
  }

  /** The `OrderBy(x => x.Name)` order on rows: ordinal order of the names. */
  predicate ByName(a: Row<CatalogEntry>, b: Row<CatalogEntry>)
  {
    LexLe(a.rec.name, b.rec.name)
  }

  lemma ByNameTotal()
    ensures Total(ByName)
  {
    forall a: Row<CatalogEntry>, b: Row<CatalogEntry> ensures ByName(a, b) || ByName(b, a) {
      LexLeTotal(a.rec.name, b.rec.name);
    }
  }

  /** `GetActiveAsync`: exactly the active entries, each once, ordered by name. */
  function GetActive(t: Table<CatalogEntry>): (r: seq<Row<CatalogEntry>>)
    ensures forall i :: 0 <= i < |r| ==> r[i].id in t && r[i].rec == t[r[i].id] && r[i].rec.isActive
    ensures forall k :: k in t && t[k].isActive <==> k in KeysOf(r)
    ensures forall i, j :: 0 <= i < j < |r| ==> r[i].id != r[j].id
    ensures Sorted(r, ByName)
  {
    ByNameTotal();
    SortedWhere(t, (e: CatalogEntry) => e.isActive, ByName)
  }

  /** `CreateAsync`: stores the entry under a fresh key. */
  function Create(t: Table<CatalogEntry>, e: CatalogEntry): (r: (Table<CatalogEntry>, int))
    ensures r.1 !in t
    ensures r.0 == t[r.1 := e]
  {
    AddRow(t, e)
  }

  /** `UpdateAsync`: stores `e` under `id` with `UpdatedAt` stamped. */
  function Update(t: Table<CatalogEntry>, id: int, e: CatalogEntry, now: int): (r: Table<CatalogEntry>)
    ensures r.Keys == t.Keys + {id}
    ensures r[id] == e.(updatedAt := now)
    ensures forall k :: k in t && k != id ==> r[k] == t[k]
  {
    Put(t, id, e.(updatedAt := now))
  }

  /** The outcome of `DeleteAsync`: `false`, the `InvalidOperationException` it
      throws, the `DbUpdateException` the save throws, or `true`. */
  datatype Removal = Missing | Referenced(message: string) | Rejected | Removed

  /** Some active asset refers to the entry. Inactive assets do not count. */
  predicate InUse(assets: Table<Asset>, c: Catalog, id: int)
  {
    exists k :: k in assets && assets[k].isActive && RefersTo(assets[k], c, id)
  }

  /** Some asset, active or deleted, refers to the entry. The foreign keys from
      the asset table are `Restrict`, so the database refuses to delete the entry. */
  predicate Referred(assets: Table<Asset>, c: Catalog, id: int)
  {
    exists k :: k in assets && RefersTo(assets[k], c, id)
  }

  function AnyActiveReference(assets: Table<Asset>, c: Catalog, id: int): (r: bool)
    ensures r <==> InUse(assets, c, id)
  {
    var rows := Where(assets, (a: Asset) => a.isActive && RefersTo(a, c, id));
    if |rows| > 0 then
      assert rows[0].id in KeysOf(rows);
      true
    else
      assert forall k :: k in assets && assets[k].isActive && RefersTo(assets[k], c, id) ==> k in KeysOf(rows);
      false
  }

  /** `DeleteAsync`: `Missing` for an unknown key; `Referenced` while an active
      asset refers to the entry; otherwise the row is removed and the change
      saved, which the database rejects while a deleted asset still refers to it. */
  function Delete(t: Table<CatalogEntry>, assets: Table<Asset>, c: Catalog, id: int): (r: (Table<CatalogEntry>, Removal))
    ensures r.1 == Missing <==> id !in t
    ensures r.1.Referenced? <==> id in t && InUse(assets, c, id)
    ensures r.1.Referenced? ==> r.1.message == "Cannot delete " + c.Noun() + " that has assets assigned to it"
    ensures r.1 == Rejected <==> id in t && !InUse(assets, c, id) && Referred(assets, c, id)
    ensures r.1 == Removed <==> id in t && !Referred(assets, c, id)
    ensures r.1 == Removed ==> r.0 == t - {id}
    ensures r.1 != Removed ==> r.0 == t
  {
    if id !in t then (t, Missing)
    else if AnyActiveReference(assets, c, id) then
      (t, Referenced("Cannot delete " + c.Noun() + " that has assets assigned to it"))
    else if Referred(assets, c, id) then (t, Rejected)
    else (t - {id}, Removed)
  }

  /** `ExistsAsync(name, excludeId)`: some entry other than `exclude` has this
      name, ignoring case. */
  function Exists(t: Table<CatalogEntry>, name: string, exclude: Option<int>): (r: bool)
    ensures r <==> exists k :: k in t && EqualsIgnoreCase(t[k].name, name) && exclude != Some(k)
  {
    var candidates := if exclude.Some? then t.Keys - {exclude.value} else t.Keys;
    var hits := Select(t, candidates, (e: CatalogEntry) => EqualsIgnoreCase(e.name, name));
    if |hits| > 0 then
      assert hits[0].id in KeysOf(hits);
      true
    else
      assert forall k :: k in candidates && EqualsIgnoreCase(t[k].name, name) ==> k in KeysOf(hits);
      false
  }

  // ---------------------------------------------------------------- properties

  /** No two entries have the same name ignoring case. The database's unique index
      on the name is a weaker, case-sensitive cousin of this. */
  ghost predicate NamesUnique(t: Table<CatalogEntry>)
  {
    forall i, j :: i in t && j in t && i != j ==> !EqualsIgnoreCase(t[i].name, t[j].name)
  }

  /** While names are unique, excluding an entry from the name check makes
      exactly its own name (in any case) available to it again. */
  lemma OwnNameIsFree(t: Table<CatalogEntry>, id: int, name: string)
    requires NamesUnique(t) && id in t
    requires EqualsIgnoreCase(name, t[id].name)
    ensures Exists(t, name, None)
    ensures !Exists(t, name, Some(id))
  {
    assert EqualsIgnoreCase(t[id].name, name);
  }

  /** After a permitted delete the entry is gone and no asset, active or deleted,
      referred to it; a refused delete changes nothing, and is refused by the
      repository for an active reference and by the database for a deleted one. */
  lemma DeleteRemovesOnlyUnused(t: Table<CatalogEntry>, assets: Table<Asset>, c: Catalog, id: int)
    ensures var (after, outcome) := Delete(t, assets, c, id);
      && (outcome == Removed ==> id !in after && after.Keys == t.Keys - {id} &&
                                 forall k :: k in assets ==> !RefersTo(assets[k], c, id))
      && (outcome.Referenced? ==> after == t && exists k :: k in assets && assets[k].isActive && RefersTo(assets[k], c, id))
      && (outcome == Rejected ==> after == t && exists k :: k in assets && !assets[k].isActive && RefersTo(assets[k], c, id))
  {
  }
}

=== FILE: category_service.dfy ===
/** `CategoryService`: create, update and delete of categories over the catalog
    repository, with the service's own messages. */
module CategoryService {

  import opened Wrappers
  import opened Text
  import opened Tables
  import opened Entities
  import Repo = CatalogRepository

  /** `CreateCategoryDto` and `UpdateCategoryDto`, which have the same fields. */
  datatype CategoryRequest = CategoryRequest(name: string, description: Option<string>, isActive: bool)

  datatype Outcome<T> = Outcome(categories: Table<CatalogEntry>, response: Envelope<T>)

  /** `CreateCategoryAsync`: refused when any category has the name, ignoring
      case; otherwise the request's name, description and active flag are stored. */
  function Create(t: Table<CatalogEntry>, d: CategoryRequest, now: int): (r: Outcome<Row<CatalogEntry>>)
    ensures r.response.Error? <==> Repo.Exists(t, d.name, None)
    ensures r.response.Error? ==>
      r.response.message == "Category with this name already exists" && r.categories == t
    ensures r.response.Ok? ==>
      var id := r.response.data.id;
      && id !in t && r.categories == t[id := r.response.data.rec]
      && r.response.data.rec == CatalogEntry(d.name, d.description, d.isActive, now, now)
      && r.response.note == Some("Category created successfully")
  {
    if Repo.Exists(t, d.name, None) then Outcome(t, Error("Category with this name already exists"))
    else
      var entry := CatalogEntry(d.name, d.description, d.isActive, now, now);
      var (t', id) := Repo.Create(t, entry);
      Outcome(t', Ok(Row(id, entry), Some("Category created successfully")))
  }

  /** `UpdateCategoryAsync`: "Category not found" for an unknown key; refused when
      another category has the name; otherwise only the name, description and
      active flag change (and the update time). */
  function Update(t: Table<CatalogEntry>, id: int, d: CategoryRequest, now: int): (r: Outcome<Row<CatalogEntry>>)
    ensures id !in t ==> r.response == Error("Category not found")
    ensures id in t && Repo.Exists(t, d.name, Some(id)) ==>
      r.response == Error("Another category with this name already exists")
    ensures r.response.Error? ==> r.categories == t
    ensures r.response.Ok? <==> id in t && !Repo.Exists(t, d.name, Some(id))
    ensures r.response.Ok? ==>
      && r.response.data.id == id && r.categories == t[id := r.response.data.rec]
      && r.response.data.rec == t[id].(name := d.name, description := d.description,
                                       isActive := d.isActive, updatedAt := now)
      && r.response.note == Some("Category updated successfully")
  {
    match Repo.GetById(t, id)
    case None => Outcome(t, Error("Category not found"))
    case Some(entry) =>
      if Repo.Exists(t, d.name, Some(id)) then Outcome(t, Error("Another category with this name already exists"))
      else
        var t' := Repo.Update(t, id, entry.(name := d.name, description := d.description, isActive := d.isActive), now);
        Outcome(t', Ok(Row(id, t'[id]), Some("Category updated successfully")))
  }

  /** `DeleteCategoryAsync`: the repository's refusal becomes the service's own
      message, the database's refusal the catch-all one; a permitted delete
      removes the row. */
  function Delete(t: Table<CatalogEntry>, assets: Table<Asset>, id: int): (r: Outcome<bool>)
    ensures id !in t ==> r.response == Error("Category not found")
    ensures id in t && Repo.InUse(assets, Repo.Categories, id) ==>
      r.response == Error("Cannot delete category that has assets assigned to it")
    ensures id in t && !Repo.InUse(assets, Repo.Categories, id) && Repo.Referred(assets, Repo.Categories, id) ==>
      r.response == Error("An error occurred while deleting the category")
    ensures r.response.Ok? <==> id in t && !Repo.Referred(assets, Repo.Categories, id)
    ensures r.response.Ok? ==>
      r.response == Ok(true, Some("Category deleted successfully")) && r.categories == t - {id}
    ensures r.response.Error? ==> r.categories == t
  {
    var (t', outcome) := Repo.Delete(t, assets, Repo.Categories, id);
    match outcome
    case Missing => Outcome(t, Error("Category not found"))
    case Referenced(_) => Outcome(t, Error("Cannot delete category that has assets assigned to it"))
    case Rejected => Outcome(t, Error("An error occurred while deleting the category"))
    case Removed => Outcome(t', Ok(true, Some("Category deleted successfully")))
  }

  // ---------------------------------------------------------------- properties

  /** Create keeps category names unique ignoring case. */
  lemma CreateKeepsNamesUnique(t: Table<CatalogEntry>, d: CategoryRequest, now: int)
    requires Repo.NamesUnique(t)
    ensures Repo.NamesUnique(Create(t, d, now).categories)
  {
    var c := Create(t, d, now);
    if c.response.Ok? {
      var nid := c.response.data.id;
      forall i, j | i in c.categories && j in c.categories && i != j
        ensures !EqualsIgnoreCase(c.categories[i].name, c.categories[j].name)
      {
        if i == nid { assert !EqualsIgnoreCase(t[j].name, d.name); }
        else if j == nid { assert !EqualsIgnoreCase(t[i].name, d.name); }
      }
    }
  }

  /** Update keeps category names unique ignoring case. */
  lemma UpdateKeepsNamesUnique(t: Table<CatalogEntry>, id: int, d: CategoryRequest, now: int)
    requires Repo.NamesUnique(t)
    ensures Repo.NamesUnique(Update(t, id, d, now).categories)
  {
    var u := Update(t, id, d, now);
    if u.response.Ok? {
      forall i, j | i in u.categories && j in u.categories && i != j
        ensures !EqualsIgnoreCase(u.categories[i].name, u.categories[j].name)
      {
        if i == id { assert !EqualsIgnoreCase(t[j].name, d.name); }
        else if j == id { assert !EqualsIgnoreCase(t[i].name, d.name); }
      }
    }
  }

  /** Renaming a category to its own name in another case is allowed. */
  lemma RenameInOtherCaseAllowed(t: Table<CatalogEntry>, id: int, d: CategoryRequest, now: int)
    requires Repo.NamesUnique(t) && id in t
    requires EqualsIgnoreCase(d.name, t[id].name)
    ensures Update(t, id, d, now).response.Ok?
  {
    Repo.OwnNameIsFree(t, id, d.name);
  }
}

=== FILE: departments.dfy ===
/** The department catalogue the user endpoints publish (`UsersController`): the
    fixed sub-department lists and the lookup of one department's list by a
    case-insensitive key. */
module Departments {
  import opened Wrappers
  import opened Text
  import Middleware
  import UserDtos

  const OkStatus := 200

  const ITDepartmentName := "IT Department"
  const NonITDepartmentName := "Non-IT Department"

  const ITSubDepartments: seq<string> :=
    ["Hardware IT", "Software IT", "Network Administration", "Cybersecurity", "Database Administration"]

  const NonITSubDepartments: seq<string> :=
    ["HR", "Aadhar", "KYC", "GST", "Finance", "Marketing", "Sales", "Operations", "Legal", "Administration"]

  const InvalidDepartmentMessage := "Invalid department type. Use 'IT' or 'NonIT'"

  datatype Department = Department(name: string, subDepartments: seq<string>)

  /** The `Departments` object both option endpoints publish. */
  datatype Catalogue = Catalogue(itDepartment: Department, nonItDepartment: Department)

  datatype RegistrationOptions<R> = RegistrationOptions(departments: Catalogue, roles: seq<R>)

  datatype SubDepartments = SubDepartments(departmentType: string, subDepartments: seq<string>)

  /** An HTTP answer: the status code and the envelope in its body. */
  datatype Reply<T> = Reply(status: int, body: Envelope<T>)

  function TheCatalogue(): Catalogue
  {
    Catalogue(Department(ITDepartmentName, ITSubDepartments), Department(NonITDepartmentName, NonITSubDepartments))
  }

  /** `GetDepartments`. */
  function GetDepartments(): (r: Envelope<Catalogue>)
    ensures r.Ok? && r.note == Some("Departments retrieved successfully")
    ensures r.data.itDepartment.name in UserDtos.Departments
    ensures r.data.nonItDepartment.name in UserDtos.Departments
    ensures |r.data.itDepartment.subDepartments| == 5 && |r.data.nonItDepartment.subDepartments| == 10
  {
    Ok(TheCatalogue(), Some("Departments retrieved successfully"))
  }

  /** `GetRegistrationOptions`: the catalogue with the active roles, or with no roles
      when the role service reports a failure. */
  function GetRegistrationOptions<R>(rolesResult: Envelope<seq<R>>): (r: Envelope<RegistrationOptions<R>>)
    ensures r.Ok? && r.note == Some("Registration options retrieved successfully")
    ensures r.data.departments == GetDepartments().data
    ensures rolesResult.Ok? ==> r.data.roles == rolesResult.data
    ensures rolesResult.Error? ==> r.data.roles == []
  {
    var roles := if rolesResult.Ok? then rolesResult.data else [];
    Ok(RegistrationOptions(TheCatalogue(), roles), Some("Registration options retrieved successfully"))
  }

  /** The keys that name the IT department, after lower-casing. */
  predicate NamesIT(key: string)
  {
    key == "it" || key == "itdepartment"
  }

  /** The keys that name the non-IT department, after lower-casing. */
  predicate NamesNonIT(key: string)
  {
    key == "nonit" || key == "nonitdepartment"
  }

  /** `GetSubDepartments`: looks the lower-cased key up; an unknown key is a 400, and a
      known one echoes the key exactly as given. */
  function GetSubDepartments(departmentType: string): (r: Reply<SubDepartments>)
    ensures r.status == OkStatus <==> NamesIT(ToLower(departmentType)) || NamesNonIT(ToLower(departmentType))
    ensures r.status != OkStatus ==> r == Reply(Middleware.BadRequest, Error(InvalidDepartmentMessage))
    ensures r.status == OkStatus ==>
              && r.body.Ok?
              && r.body.data.departmentType == departmentType
              && r.body.note == Some("Sub-departments for " + departmentType + " retrieved successfully")
    ensures NamesIT(ToLower(departmentType)) ==> r.body.Ok? && r.body.data.subDepartments == ITSubDepartments
    ensures NamesNonIT(ToLower(departmentType)) ==> r.body.Ok? && r.body.data.subDepartments == NonITSubDepartments
  {
    var key := ToLower(departmentType);
    var subDepartments := if NamesIT(key) then ITSubDepartments
                          else if NamesNonIT(key) then NonITSubDepartments
                          else [];
    if |subDepartments| == 0 then Reply(Middleware.BadRequest, Error(InvalidDepartmentMessage))
    else Reply(OkStatus, Ok(SubDepartments(departmentType, subDepartments),
                            Some("Sub-departments for " + departmentType + " retrieved successfully")))
  }

  /** The three endpoints publish the same IT list. */
  lemma ITListsAgree<R>(rolesResult: Envelope<seq<R>>)
    ensures GetSubDepartments("IT").body.data.subDepartments
            == GetDepartments().data.itDepartment.subDepartments
            == GetRegistrationOptions(rolesResult).data.departments.itDepartment.subDepartments
  {
    assert ToLower("IT") == "it";
  }

  /** The three endpoints publish the same non-IT list. */
  lemma NonITListsAgree<R>(rolesResult: Envelope<seq<R>>)
    ensures GetSubDepartments("NonIT").body.data.subDepartments
            == GetDepartments().data.nonItDepartment.subDepartments
            == GetRegistrationOptions(rolesResult).data.departments.nonItDepartment.subDepartments
  {
    assert ToLower("NonIT") == "nonit";
  }

  /** The lookup ignores case: keys that lower-case alike get the same list. */
  lemma LookupIgnoresCase(a: string, b: string)
    requires ToLower(a) == ToLower(b)
    ensures GetSubDepartments(a).status == GetSubDepartments(b).status
    ensures GetSubDepartments(a).body.Ok? ==>
              GetSubDepartments(a).body.data.subDepartments == GetSubDepartments(b).body.data.subDepartments
  {
  }

  /** A key whose length matches none of the four accepted keys is refused. */
  lemma OddLengthRefused(departmentType: string)
    requires |departmentType| !in {2, 5, 12, 15}
    ensures GetSubDepartments(departmentType) == Reply(Middleware.BadRequest, Error(InvalidDepartmentMessage))
  {
    var key := ToLower(departmentType);
    assert !NamesIT(key) && !NamesNonIT(key);
  }

  /** The department names a registration must carry are not keys the lookup accepts:
      their lower-cased forms keep the space and the hyphen. */
  lemma DepartmentNamesAreNotKeys(name: string)
    requires name in UserDtos.Departments
    ensures GetSubDepartments(name) == Reply(Middleware.BadRequest, Error(InvalidDepartmentMessage))
  {
    assert |name| == 13 || |name| == 17;
    OddLengthRefused(name);
  }
}

=== FILE: entities.dfy ===
/** The persisted records. Each table maps a primary key to one of these; the key
    itself (`Id`) is not repeated inside the record. Timestamps are opaque clock
    readings. */
module Entities {

  import opened Wrappers

  /** `int.MaxValue`, the upper end of every `[Range(1, int.MaxValue)]`. */
  const IntMax := 0x7FFF_FFFF

  // ------------------------------------------------------------ text columns

  /** Whether a `character varying(n)` column takes `s`: it fits, or every
      character past the n-th is a space, which PostgreSQL drops instead of
      refusing the value. */
  predicate FitsColumn(s: string, n: nat)
  {
    |s| <= n || forall i :: n <= i < |s| ==> s[i] == ' '
  }

  /** What a `character varying(n)` column keeps of a value: its first `n`
      characters. */
  function InColumn(s: string, n: nat): (r: string)
    ensures |r| <= n && |r| <= |s| && r == s[..|r|]
    ensures |s| <= n <==> r == s
    ensures |s| > n ==> |r| == n
  {
    if |s| <= n then s else s[..n]
  }

  /** A value the column takes is what it keeps followed by spaces, and a value it
      keeps whole is one it takes: the column drops trailing spaces and nothing
      else. */
  lemma ColumnDropsOnlySpaces(s: string, n: nat)
    ensures FitsColumn(s, n) ==> s == InColumn(s, n) + seq(|s| - |InColumn(s, n)|, _ => ' ')
    ensures FitsColumn(s, n) <==> forall i :: |InColumn(s, n)| <= i < |s| ==> s[i] == ' '
  {
    if FitsColumn(s, n) && |s| > n {
      var pad := seq(|s| - n, _ => ' ');
      assert forall i :: 0 <= i < |s| ==> s[i] == (s[..n] + pad)[i];
    }
  }

  predicate OptionFitsColumn(s: Option<string>, n: nat)
  {
    s.Some? ==> FitsColumn(s.value, n)
  }

  predicate OptionWithin(s: Option<string>, n: nat)
  {
    s.Some? ==> |s.value| <= n
  }

  function OptionInColumn(s: Option<string>, n: nat): (r: Option<string>)
    ensures OptionWithin(r, n)
    ensures r.Some? <==> s.Some?
    ensures OptionWithin(s, n) ==> r == s
  {
    if s.Some? then Some(InColumn(s.value, n)) else None
  }

  // ------------------------------------------------------------------ assets

  /** `AssetStatus`. Like every C# enum it can hold any integer; the six named
      members are coded 1 to 6 and every other code is `Unnamed`. */
  datatype AssetStatus =
    | Available
    | Assigned
    | UnderMaintenance
    | Retired
    | Lost
    | Damaged
    | Unnamed(code: int)
  {
    /** `(int)status`. */
    function Code(): int
    {
      match this
      case Available => 1
      case Assigned => 2
      case UnderMaintenance => 3
      case Retired => 4
      case Lost => 5
      case Damaged => 6
      case Unnamed(c) => c
    }

    /** A status value that a cast from its own code produces: the unnamed codes
        are those outside 1..6. */
    predicate Valid()
    {
      Unnamed? ==> !(1 <= code <= 6)
    }
  }

  /** `(AssetStatus)code`. */
  function StatusOfCode(code: int): (s: AssetStatus)
    ensures s.Valid()
    ensures s.Code() == code
    ensures s.Unnamed? <==> !(1 <= code <= 6)
  {
    match code
    case 1 => Available
    case 2 => Assigned
    case 3 => UnderMaintenance
    case 4 => Retired
    case 5 => Lost
    case 6 => Damaged
    case _ => Unnamed(code)
  }

  /** The cast and the code are inverse to each other on valid statuses. */
  lemma StatusCodeRoundTrip(s: AssetStatus)
    requires s.Valid()
    ensures StatusOfCode(s.Code()) == s
  {
  }

  /** The six named statuses, in declaration order (`Enum.GetValues<AssetStatus>()`). */
  const NamedStatuses: seq<AssetStatus> :=
    [Available, Assigned, UnderMaintenance, Retired, Lost, Damaged]

  /** The named statuses are exactly the valid non-`Unnamed` ones, coded 1 to 6 in
      declaration order. */
  lemma NamedStatusesCoded()
    ensures |NamedStatuses| == 6
    ensures forall i :: 0 <= i < 6 ==> NamedStatuses[i].Code() == i + 1
    ensures forall s: AssetStatus :: s.Valid() && !s.Unnamed? <==> s in NamedStatuses
  {
  }

  /** `Asset`. `assignedTo` is the nullable `AssignedToUserId`. */
  datatype Asset = Asset(
    name: string,
    serialNumber: string,
    remarks: Option<string>,
    categoryId: int,
    brandId: int,
    locationId: int,
    createdBy: int,
    assignedTo: Option<int>,
    status: AssetStatus,
    createdAt: int,
    updatedAt: int,
    isActive: bool)

  /** The assignment invariant: an asset is `Assigned` exactly when it has an
      assignee. */
  predicate AssignmentConsistent(a: Asset)
  {
    a.status == Assigned <==> a.assignedTo.Some?
  }

  /** The asset table takes the row: each text within its `[MaxLength]`, or longer
      only by trailing spaces. */
  predicate AssetFitsColumns(a: Asset)
  {
    FitsColumn(a.name, 100) && FitsColumn(a.serialNumber, 100) && OptionFitsColumn(a.remarks, 500)
  }

  /** Every text of the row within its column: what any row read back holds. */
  predicate AssetWithinColumns(a: Asset)
  {
    |a.name| <= 100 && |a.serialNumber| <= 100 && OptionWithin(a.remarks, 500)
  }

  /** The row the asset table keeps: every text cut to its column; nothing else
      changes. */
  function AssetAsStored(a: Asset): (r: Asset)
    ensures AssetWithinColumns(r)
    ensures AssetWithinColumns(a) <==> r == a
    ensures r == a.(name := r.name, serialNumber := r.serialNumber, remarks := r.remarks)
  {
    a.(name := InColumn(a.name, 100), serialNumber := InColumn(a.serialNumber, 100),
       remarks := OptionInColumn(a.remarks, 500))
  }

  /** `new Asset()` at time `now`: the property initialisers. */
  function NewAsset(now: int): (a: Asset)
    ensures a.status == Available && a.isActive && a.assignedTo.None?
    ensures AssignmentConsistent(a) && AssetFitsColumns(a) && AssetWithinColumns(a)
  {
    Asset("", "", None, 0, 0, 0, 0, None, Available, now, now, true)
  }

  // ----------------------------------------------- categories, brands, locations

  /** A category, brand or location: the three share a name, an optional
      description and an active flag. */
  datatype CatalogEntry = CatalogEntry(
    name: string,
    description: Option<string>,
    isActive: bool,
    createdAt: int,
    updatedAt: int)

  // -------------------------------------------------------------- users, roles

  datatype Role = Role(
    name: string,
    description: Option<string>,
    isActive: bool,
    createdAt: int,
    updatedAt: int)

  /** `Users`. */
  datatype User = User(
    fullName: string,
    email: string,
    employmentId: string,
    mobileNumber: Option<string>,
    passwordHash: string,
    department: string,
    subDepartment: string,
    roleId: int,
    isActive: bool,
    createdAt: int,
    updatedAt: int)

  /** The user table takes the row: each text within its `[MaxLength]`, or longer
      only by trailing spaces. */
  predicate UserFitsColumns(u: User)
  {
    && FitsColumn(u.fullName, 100) && FitsColumn(u.email, 100) && FitsColumn(u.employmentId, 20)
    && OptionFitsColumn(u.mobileNumber, 15)
    && FitsColumn(u.department, 50) && FitsColumn(u.subDepartment, 50)
  }

  predicate UserWithinColumns(u: User)
  {
    && |u.fullName| <= 100 && |u.email| <= 100 && |u.employmentId| <= 20
    && OptionWithin(u.mobileNumber, 15) && |u.department| <= 50 && |u.subDepartment| <= 50
  }

  /** The row the user table keeps: every text cut to its column. */
  function UserAsStored(u: User): (r: User)
    ensures UserWithinColumns(r)
    ensures UserWithinColumns(u) <==> r == u
    ensures r == u.(fullName := r.fullName, email := r.email, employmentId := r.employmentId,
                    mobileNumber := r.mobileNumber, department := r.department, subDepartment := r.subDepartment)
  {
    u.(fullName := InColumn(u.fullName, 100), email := InColumn(u.email, 100),
       employmentId := InColumn(u.employmentId, 20), mobileNumber := OptionInColumn(u.mobileNumber, 15),
       department := InColumn(u.department, 50), subDepartment := InColumn(u.subDepartment, 50))
  }

  // ----------------------------------------------------------- purchase orders

  /** `PurchaseOrder`. `status` is free text; the service keeps an allow-list. */
  datatype PurchaseOrder = PurchaseOrder(
    prId: string,
    requesterName: string,
    processName: string,
    category: string,
    itCategory: Option<string>,
    assetName: string,
    location: string,
    quantity: int,
    status: string,
    orderDateTime: int,
    isActive: bool,
    createdAt: int,
    updatedAt: int,
    createdBy: int,
    updatedBy: Option<int>)

  /** The purchase-order table takes the row: each text within its
      `[StringLength]`, or longer only by trailing spaces. */
  predicate PurchaseOrderFitsColumns(po: PurchaseOrder)
  {
    && FitsColumn(po.prId, 50) && FitsColumn(po.requesterName, 100) && FitsColumn(po.processName, 100)
    && FitsColumn(po.category, 100) && OptionFitsColumn(po.itCategory, 100)
    && FitsColumn(po.assetName, 100) && FitsColumn(po.location, 100) && FitsColumn(po.status, 50)
  }

  predicate PurchaseOrderWithinColumns(po: PurchaseOrder)
  {
    && |po.prId| <= 50 && |po.requesterName| <= 100 && |po.processName| <= 100
    && |po.category| <= 100 && OptionWithin(po.itCategory, 100)
    && |po.assetName| <= 100 && |po.location| <= 100 && |po.status| <= 50
  }

  /** The row the purchase-order table keeps: every text cut to its column. */
  function PurchaseOrderAsStored(po: PurchaseOrder): (r: PurchaseOrder)
    ensures PurchaseOrderWithinColumns(r)
    ensures PurchaseOrderWithinColumns(po) <==> r == po
    ensures r == po.(prId := r.prId, requesterName := r.requesterName, processName := r.processName,
                     category := r.category, itCategory := r.itCategory, assetName := r.assetName,
                     location := r.location, status := r.status)
  {
    po.(prId := InColumn(po.prId, 50), requesterName := InColumn(po.requesterName, 100),
        processName := InColumn(po.processName, 100), category := InColumn(po.category, 100),
        itCategory := OptionInColumn(po.itCategory, 100), assetName := InColumn(po.assetName, 100),
        location := InColumn(po.location, 100), status := InColumn(po.status, 50))
  }

  // ------------------------------------------- denormalised asset records

  /** `AssetManagementStatus`, coded 1 to 4. */
  datatype RecordStatus = RecordAvailable | RecordAssigned | RecordMaintenance | RecordRetired

  /** `Assetmanagement`: an asset described by free-text category, brand and
      location rather than by keys. */
  datatype AssetRecord = AssetRecord(
    category: string,
    assetName: string,
    brand: string,
    serialNumber: string,
    location: string,
    ram: string,
    storage: string,
    processor: string,
    storageSize: int,
    remarks: Option<string>,
    status: RecordStatus,
    createdBy: int,
    createdAt: int,
    departmentType: string)
}

=== FILE: middleware.dfy ===
/** The global exception handler (`ExceptionHandlingMiddleware`): every exception
    that escapes a request becomes a JSON error envelope with a status code chosen
    by the exception's type. */
module Middleware {

  /** The exception types the handler distinguishes, plus the ones the services
      throw. `ArgumentNull` and `ArgumentOutOfRange` are subtypes of
      `ArgumentException`; `InvalidOperation` and `Other` stand for every type the
      handler does not name. */
  datatype ExceptionKind =
    | Argument
    | ArgumentNull
    | ArgumentOutOfRange
    | KeyNotFound
    | UnauthorizedAccess
    | InvalidOperation
    | Other

  datatype Exception = Exception(kind: ExceptionKind, message: string)

  /** `exception is ArgumentException`: the type or one of its subtypes. */
  predicate IsArgumentException(k: ExceptionKind)
  {
    k == Argument || k == ArgumentNull || k == ArgumentOutOfRange
  }

  /** How a service call ends: it returns a value or throws an exception, which
      travels up to the handler. */
  datatype Completion<+T> = Returned(value: T) | Raised(error: Exception)

  /** The response the handler writes: HTTP status, and the `success` and `message`
      fields of the envelope. */
  datatype ErrorResponse = ErrorResponse(status: int, success: bool, message: string)

  const BadRequest := 400
  const Unauthorized := 401
  const NotFound := 404
  const InternalServerError := 500

  /** The message the envelope is created with before the type switch. */
  const DefaultMessage := "An error occurred while processing your request"

  /** `HandleExceptionAsync`. An argument exception (of any subtype) is a 400 that
      passes its own message through; the three other cases replace the message by
      a fixed text. The envelope is always a failure. */
  function HandleException(e: Exception): (r: ErrorResponse)
    ensures !r.success
    ensures r.status in {BadRequest, Unauthorized, NotFound, InternalServerError}
    ensures r.status == BadRequest <==> IsArgumentException(e.kind)
    ensures r.status == BadRequest ==> r.message == e.message
    ensures r.status == NotFound <==> e.kind == KeyNotFound
    ensures r.status == NotFound ==> r.message == "Resource not found"
    ensures r.status == Unauthorized <==> e.kind == UnauthorizedAccess
    ensures r.status == Unauthorized ==> r.message == "Unauthorized access"
    ensures r.status == InternalServerError <==> e.kind in {InvalidOperation, Other}
    ensures r.status == InternalServerError ==> r.message == "Internal server error"
  {
    var start := ErrorResponse(InternalServerError, false, DefaultMessage);
    match e.kind
    case Argument | ArgumentNull | ArgumentOutOfRange =>
      start.(status := BadRequest, message := e.message)
    case KeyNotFound =>
      start.(status := NotFound, message := "Resource not found")
    case UnauthorizedAccess =>
      start.(status := Unauthorized, message := "Unauthorized access")
    case InvalidOperation | Other =>
      start.(message := "Internal server error")
  }

  /** Outside the 400 case the response reveals nothing of the exception beyond its
      status: two exceptions mapped to the same non-400 status give the same
      response, whatever their messages. */
  lemma OnlyArgumentMessagesEscape(e1: Exception, e2: Exception)
    requires HandleException(e1).status == HandleException(e2).status != BadRequest
    ensures HandleException(e1) == HandleException(e2)
  {
  }

  /** The default message never reaches the client unless an argument exception
      carries it as its own message. */
  lemma DefaultMessageOverwritten(e: Exception)
    ensures HandleException(e).message == DefaultMessage ==>
      IsArgumentException(e.kind) && e.message == DefaultMessage
  {
  }

  /** A service that only throws `ArgumentException` surfaces every failure to the
      client as a 400 carrying the service's own message. */
  lemma RaisedArgumentIsBadRequest<T>(c: Completion<T>)
    requires c.Raised? && c.error.kind == Argument
    ensures HandleException(c.error) == ErrorResponse(BadRequest, false, c.error.message)
  {
  }
}

=== FILE: purchase_order_repository.dfy ===
/** The purchase-order store: active-only lookups, listings newest first, and a soft
    delete that only clears the `isActive` flag. */
module PurchaseOrderRepository {
  import opened Wrappers
  import opened Text
  import opened Tables
  import opened Entities

  /** The listing order: a later `createdAt` comes first. */
  predicate NewestFirst(a: Row<PurchaseOrder>, b: Row<PurchaseOrder>)
  {
    a.rec.createdAt >= b.rec.createdAt
  }

  lemma NewestFirstTotal()
    ensures Total(NewestFirst)
  {
  }

  /** The active orders satisfying `keep`, newest first: the shape every listing query shares. */
  function Listing(t: Table<PurchaseOrder>, keep: PurchaseOrder -> bool): (r: seq<Row<PurchaseOrder>>)
    ensures forall i :: 0 <= i < |r| ==> r[i].id in t && r[i].rec == t[r[i].id] && r[i].rec.isActive && keep(r[i].rec)
    ensures forall k :: k in t && t[k].isActive && keep(t[k]) <==> k in KeysOf(r)
    ensures forall i, j :: 0 <= i < j < |r| ==> r[i].id != r[j].id
    ensures forall i, j :: 0 <= i < j < |r| ==> r[i].rec.createdAt >= r[j].rec.createdAt
  {
    NewestFirstTotal();
    var r := SortedWhere(t, (po: PurchaseOrder) => po.isActive && keep(po), NewestFirst);
    NewestFirstEverywhere(r);
    r
  }

  /** Ordering neighbours newest first orders every pair newest first. */
  lemma {:induction false} NewestFirstEverywhere(r: seq<Row<PurchaseOrder>>)
    requires Sorted(r, NewestFirst)
    ensures forall i, j :: 0 <= i < j < |r| ==> r[i].rec.createdAt >= r[j].rec.createdAt
  {
    if |r| > 1 {
      assert Sorted(r[1..], NewestFirst) by {
        forall i | 0 <= i < |r[1..]| - 1 ensures NewestFirst(r[1..][i], r[1..][i + 1]) {
          assert NewestFirst(r[i + 1], r[i + 2]);
        }
      }
      NewestFirstEverywhere(r[1..]);
      forall i, j | 0 <= i < j < |r| ensures r[i].rec.createdAt >= r[j].rec.createdAt {
        if i > 0 {
          assert r[i] == r[1..][i - 1] && r[j] == r[1..][j - 1];
        } else if j > 1 {
          assert r[1] == r[1..][0] && r[j] == r[1..][j - 1];
          assert NewestFirst(r[0], r[1]);
        } else {
          assert NewestFirst(r[0], r[1]);
        }
      }
    }
  }

  /** `GetAllAsync`: every active order. */
  function GetAll(t: Table<PurchaseOrder>): (r: seq<Row<PurchaseOrder>>)
    ensures forall k :: k in KeysOf(r) <==> k in t && t[k].isActive
    ensures forall i, j :: 0 <= i < j < |r| ==> r[i].rec.createdAt >= r[j].rec.createdAt
  {
    Listing(t, (po: PurchaseOrder) => true)
  }

  /** `GetByIdAsync`: an order is found only while it is active. */
  function GetById(t: Table<PurchaseOrder>, id: int): (r: Option<PurchaseOrder>)
    ensures r.Some? <==> id in t && t[id].isActive
    ensures r.Some? ==> r.value == t[id]
  {
    if id in t && t[id].isActive then Some(t[id]) else None
  }

  /** `GetByPRIdAsync`: the first active order carrying exactly this PR_ID. */
  function GetByPRId(t: Table<PurchaseOrder>, prId: string): (r: Option<Row<PurchaseOrder>>)
    ensures r.Some? <==> exists k :: k in t && t[k].isActive && t[k].prId == prId
    ensures r.Some? ==> r.value.id in t && r.value.rec == t[r.value.id]
    ensures r.Some? ==> r.value.rec.isActive && r.value.rec.prId == prId
  {
    First(t, (po: PurchaseOrder) => po.prId == prId && po.isActive)
  }

  /** `GetByStatusAsync`: exact, case-sensitive status match. */
  function GetByStatus(t: Table<PurchaseOrder>, status: string): (r: seq<Row<PurchaseOrder>>)
    ensures forall k :: k in KeysOf(r) <==> k in t && t[k].isActive && t[k].status == status
    ensures forall i, j :: 0 <= i < j < |r| ==> r[i].rec.createdAt >= r[j].rec.createdAt
  {
    Listing(t, (po: PurchaseOrder) => po.status == status)
  }

  /** `GetByRequesterAsync`: the requester name contains the fragment. */
  function GetByRequester(t: Table<PurchaseOrder>, requesterName: string): (r: seq<Row<PurchaseOrder>>)
    ensures forall k :: k in KeysOf(r) <==> k in t && t[k].isActive && Contains(t[k].requesterName, requesterName)
    ensures forall i, j :: 0 <= i < j < |r| ==> r[i].rec.createdAt >= r[j].rec.createdAt
  {
    Listing(t, (po: PurchaseOrder) => Contains(po.requesterName, requesterName))
  }

  /** `GetByCategoryAsync`: the category contains the fragment. */
  function GetByCategory(t: Table<PurchaseOrder>, category: string): (r: seq<Row<PurchaseOrder>>)
    ensures forall k :: k in KeysOf(r) <==> k in t && t[k].isActive && Contains(t[k].category, category)
    ensures forall i, j :: 0 <= i < j < |r| ==> r[i].rec.createdAt >= r[j].rec.createdAt
  {
    Listing(t, (po: PurchaseOrder) => Contains(po.category, category))
  }

  /** `GetByLocationAsync`: the location contains the fragment. */
  function GetByLocation(t: Table<PurchaseOrder>, location: string): (r: seq<Row<PurchaseOrder>>)
    ensures forall k :: k in KeysOf(r) <==> k in t && t[k].isActive && Contains(t[k].location, location)
    ensures forall i, j :: 0 <= i < j < |r| ==> r[i].rec.createdAt >= r[j].rec.createdAt
  {
    Listing(t, (po: PurchaseOrder) => Contains(po.location, location))
  }

  /** `GetByDateRangeAsync`: the order date lies in the closed interval. */
  function GetByDateRange(t: Table<PurchaseOrder>, startDate: int, endDate: int): (r: seq<Row<PurchaseOrder>>)
    ensures forall k :: k in KeysOf(r) <==> k in t && t[k].isActive && startDate <= t[k].orderDateTime <= endDate
    ensures forall i, j :: 0 <= i < j < |r| ==> r[i].rec.createdAt >= r[j].rec.createdAt
  {
    Listing(t, (po: PurchaseOrder) => startDate <= po.orderDateTime <= endDate)
  }

  /** `CreateAsync`: stamps both timestamps with `now` and stores the order under a fresh key. */
  function Create(t: Table<PurchaseOrder>, po: PurchaseOrder, now: int): (r: (Table<PurchaseOrder>, int))
    ensures r.1 !in t
    ensures r.0 == t[r.1 := po.(createdAt := now, updatedAt := now)]
  {
    AddRow(t, po.(createdAt := now, updatedAt := now))
  }

  /** `UpdateAsync`: writes the order back with `updatedAt` set to `now`. */
  function Update(t: Table<PurchaseOrder>, id: int, po: PurchaseOrder, now: int): (r: Table<PurchaseOrder>)
    ensures r.Keys == t.Keys + {id}
    ensures r[id] == po.(updatedAt := now)
    ensures forall k :: k in t && k != id ==> r[k] == t[k]
  {
    Put(t, id, po.(updatedAt := now))
  }

  /** `DeleteAsync`: finds the row whether or not it is active, and clears its flag. */
  function Delete(t: Table<PurchaseOrder>, id: int, now: int): (r: (Table<PurchaseOrder>, bool))
    ensures r.1 <==> id in t
    ensures r.0.Keys == t.Keys
    ensures id in t ==> r.0[id] == t[id].(isActive := false, updatedAt := now)
    ensures forall k :: k in t && k != id ==> r.0[k] == t[k]
  {
    if id !in t then (t, false)
    else (t[id := t[id].(isActive := false, updatedAt := now)], true)
  }

  /** `ExistsAsync`: the key holds an active order. */
  function Exists(t: Table<PurchaseOrder>, id: int): (r: bool)
    ensures r <==> GetById(t, id).Some?
  {
    id in t && t[id].isActive
  }

  /** `PRIdExistsAsync`: some active order carries this PR_ID. */
  function PRIdExists(t: Table<PurchaseOrder>, prId: string): (r: bool)
    ensures r <==> GetByPRId(t, prId).Some?
  {
    exists k :: k in t && t[k].isActive && t[k].prId == prId
  }

  /** No two active orders share a PR_ID. */
  ghost predicate ActivePRIdsUnique(t: Table<PurchaseOrder>)
  {
    forall j, k :: j in t && k in t && t[j].isActive && t[k].isActive && t[j].prId == t[k].prId ==> j == k
  }

  /** A deleted order disappears from every active lookup; when it was active, the
      PR_ID check no longer sees its PR_ID (the unique index still does). */
  lemma DeleteHidesOrder(t: Table<PurchaseOrder>, id: int, now: int)
    requires id in t
    requires ActivePRIdsUnique(t)
    ensures GetById(Delete(t, id, now).0, id) == None
    ensures !Exists(Delete(t, id, now).0, id)
    ensures t[id].isActive ==> !PRIdExists(Delete(t, id, now).0, t[id].prId)
    ensures forall i :: 0 <= i < |GetAll(Delete(t, id, now).0)| ==> GetAll(Delete(t, id, now).0)[i].id != id
  {
    var t' := Delete(t, id, now).0;
    if t[id].isActive {
      forall k | k in t' && t'[k].isActive ensures t'[k].prId != t[id].prId {
        assert k != id && t'[k] == t[k];
      }
    }
  }

  /** Deleting twice reports success both times and leaves the same store as deleting once,
      up to the second timestamp. */
  lemma DeleteAgainStillSucceeds(t: Table<PurchaseOrder>, id: int, now: int, later: int)
    requires id in t
    ensures Delete(Delete(t, id, now).0, id, later).1
    ensures Delete(Delete(t, id, now).0, id, later).0 == Delete(t, id, later).0
  {
  }
}

=== FILE: purchase_order_service.dfy ===
/** The purchase-order rules (`PurchaseOrderService`): who may create and update an
    order, the PR_ID guard, and the status allow-list that only the status update
    enforces. Every rejection is an `ArgumentException`. */
module PurchaseOrderService {
  import opened Wrappers
  import opened Tables
  import opened Entities
  import opened Middleware
  import Repo = PurchaseOrderRepository
  import Users = UserRepository

  /** `_availableStatuses`, in the order `GetAvailableStatusesAsync` returns them. */
  const AvailableStatuses: seq<string> := ["Pending", "Approved", "Rejected", "In Progress", "Completed", "Cancelled"]

  /** The status a new order carries when the request leaves it out. */
  const DefaultStatus := "Pending"

  /** `CreatePurchaseOrderDto`. */
  datatype CreateRequest = CreateRequest(
    prId: string,
    requesterName: string,
    processName: string,
    category: string,
    itCategory: Option<string>,
    assetName: string,
    location: string,
    quantity: int,
    status: string,
    orderDateTime: Option<int>)

  /** `UpdatePurchaseOrderDto`: everything but the PR_ID. */
  datatype UpdateRequest = UpdateRequest(
    requesterName: string,
    processName: string,
    category: string,
    itCategory: Option<string>,
    assetName: string,
    location: string,
    quantity: int,
    status: string,
    orderDateTime: Option<int>)

  function Argument(message: string): Exception
  {
    Exception(ExceptionKind.Argument, message)
  }

  /** The `DbUpdateException` a rejected save throws (a text longer than its
      column, or a second row with the same PR_ID); nothing in the service or the
      controller catches it. */
  const SaveRejected := Exception(ExceptionKind.Other,
    "An error occurred while saving the entity changes. See the inner exception for details.")

  /** Some row, active or deleted, carries this PR_ID: what the unique index on
      `PR_ID` sees, where the service's check sees active rows only. */
  predicate PRIdHeld(t: Table<PurchaseOrder>, prId: string)
  {
    exists k :: k in t && t[k].prId == prId
  }

  /** `GetAvailableStatusesAsync`. */
  function GetAvailableStatuses(): (r: seq<string>)
    ensures |r| == 6
    ensures forall i, j :: 0 <= i < j < |r| ==> r[i] != r[j]
    ensures DefaultStatus in r
  {
    AvailableStatuses
  }

  /** Every row holds texts within their columns, as every row read back does. */
  ghost predicate RowsWithinColumns(t: Table<PurchaseOrder>)
  {
    forall k :: k in t ==> PurchaseOrderWithinColumns(t[k])
  }

  /** Every active order's status is one the allow-list names. */
  ghost predicate StatusesAllowed(t: Table<PurchaseOrder>)
  {
    forall k :: k in t && t[k].isActive ==> t[k].status in AvailableStatuses
  }

  /** The request's fields, as the order stores them. */
  ghost predicate CarriesRequest(po: PurchaseOrder, d: CreateRequest)
  {
    && po.prId == d.prId && po.requesterName == d.requesterName
    && po.processName == d.processName && po.category == d.category
    && po.itCategory == d.itCategory && po.assetName == d.assetName
    && po.location == d.location && po.quantity == d.quantity && po.status == d.status
  }

  /** The order a creation writes. */
  function NewOrder(d: CreateRequest, createdBy: int, now: int): PurchaseOrder
  {
    PurchaseOrder(d.prId, d.requesterName, d.processName, d.category, d.itCategory,
                  d.assetName, d.location, d.quantity, d.status, d.orderDateTime.GetOr(now),
                  true, now, now, createdBy, None)
  }

  /** The order an update writes, before the update time is stamped. */
  function Revised(po: PurchaseOrder, d: UpdateRequest, updatedBy: int): PurchaseOrder
  {
    po.(requesterName := d.requesterName, processName := d.processName,
        category := d.category, itCategory := d.itCategory,
        assetName := d.assetName, location := d.location,
        quantity := d.quantity, status := d.status,
        updatedBy := Some(updatedBy),
        orderDateTime := d.orderDateTime.GetOr(po.orderDateTime))
  }

  /** `CreatePurchaseOrderAsync`. The creator must be a known user (checked first) and
      no active order may hold the PR_ID; the status is stored as given. A PR_ID left
      on a deleted order passes the service's check, and the save then fails on the
      unique index; so does a text too long for its column. A text longer than its
      column only by trailing spaces is cut to it, the index sees the cut PR_ID, and
      the response carries the order as written. */
  function Create(orders: Table<PurchaseOrder>, users: Table<User>, d: CreateRequest, createdBy: int, now: int)
    : (r: (Table<PurchaseOrder>, Completion<Row<PurchaseOrder>>))
    ensures r.1.Raised? <==>
              !Users.ExistsId(users, createdBy) || Repo.PRIdExists(orders, d.prId) ||
              PRIdHeld(orders, InColumn(d.prId, 50)) || !PurchaseOrderFitsColumns(NewOrder(d, createdBy, now))
    ensures !Users.ExistsId(users, createdBy) ==> r == (orders, Raised(Argument("User not found")))
    ensures Users.ExistsId(users, createdBy) && Repo.PRIdExists(orders, d.prId) ==>
              r == (orders, Raised(Argument("PR_ID already exists")))
    ensures Users.ExistsId(users, createdBy) && !Repo.PRIdExists(orders, d.prId) &&
            (PRIdHeld(orders, InColumn(d.prId, 50)) || !PurchaseOrderFitsColumns(NewOrder(d, createdBy, now))) ==>
              r == (orders, Raised(SaveRejected))
    ensures r.1.Returned? ==>
              var row := r.1.value;
              && row.id !in orders
              && r.0 == orders[row.id := PurchaseOrderAsStored(row.rec)]
              && CarriesRequest(row.rec, d)
              && row.rec.isActive
              && row.rec.createdBy == createdBy && row.rec.updatedBy == None
              && row.rec.createdAt == now && row.rec.updatedAt == now
              && row.rec.orderDateTime == d.orderDateTime.GetOr(now)
  {
    if !Users.ExistsId(users, createdBy) then (orders, Raised(Argument("User not found")))
    else if Repo.PRIdExists(orders, d.prId) then (orders, Raised(Argument("PR_ID already exists")))
    else if PRIdHeld(orders, InColumn(d.prId, 50)) || !PurchaseOrderFitsColumns(NewOrder(d, createdBy, now)) then
      (orders, Raised(SaveRejected))
    else
      var po := NewOrder(d, createdBy, now);
      var (t, id) := Repo.Create(orders, PurchaseOrderAsStored(po), now);
      (t, Returned(Row(id, po)))
  }

  /** `UpdatePurchaseOrderAsync`. A missing or deleted order is reported before an
      unknown updater; the status is overwritten without consulting the allow-list.
      A text too long for its column makes the save throw; one longer only by
      trailing spaces is cut to it, and the response carries the order as written. */
  function Update(orders: Table<PurchaseOrder>, users: Table<User>, id: int, d: UpdateRequest, updatedBy: int, now: int)
    : (r: (Table<PurchaseOrder>, Completion<Row<PurchaseOrder>>))
    ensures r.1.Raised? <==>
              Repo.GetById(orders, id).None? || !Users.ExistsId(users, updatedBy) ||
              !PurchaseOrderFitsColumns(Revised(orders[id], d, updatedBy))
    ensures Repo.GetById(orders, id).None? ==> r == (orders, Raised(Argument("Purchase Order not found")))
    ensures Repo.GetById(orders, id).Some? && !Users.ExistsId(users, updatedBy) ==>
              r == (orders, Raised(Argument("User not found")))
    ensures (Repo.GetById(orders, id).Some? && Users.ExistsId(users, updatedBy) &&
             !PurchaseOrderFitsColumns(Revised(orders[id], d, updatedBy))) ==>
              r == (orders, Raised(SaveRejected))
    ensures r.1.Returned? ==>
              var old_ := orders[id];
              var po := r.1.value.rec;
              && r.1.value.id == id
              && r.0 == orders[id := PurchaseOrderAsStored(po)]
              && po.prId == old_.prId && po.createdBy == old_.createdBy
              && po.createdAt == old_.createdAt && po.isActive
              && po.requesterName == d.requesterName && po.processName == d.processName
              && po.category == d.category && po.itCategory == d.itCategory
              && po.assetName == d.assetName && po.location == d.location
              && po.quantity == d.quantity && po.status == d.status
              && po.updatedBy == Some(updatedBy) && po.updatedAt == now
              && po.orderDateTime == d.orderDateTime.GetOr(old_.orderDateTime)
  {
    match Repo.GetById(orders, id)
    case None => (orders, Raised(Argument("Purchase Order not found")))
    case Some(existing) =>
      if !Users.ExistsId(users, updatedBy) then (orders, Raised(Argument("User not found")))
      else if !PurchaseOrderFitsColumns(Revised(existing, d, updatedBy)) then (orders, Raised(SaveRejected))
      else
        var po := Revised(existing, d, updatedBy);
        var t := Repo.Update(orders, id, PurchaseOrderAsStored(po), now);
        (t, Returned(Row(id, po.(updatedAt := now))))
  }

  /** `UpdatePurchaseOrderStatusAsync`. A missing or deleted order yields `false` before
      the status is looked at; an unknown status throws. The service does not check
      the updater, so an unknown one breaks the foreign key on `UpdatedByUserId`
      and the save throws. */
  function UpdateStatus(orders: Table<PurchaseOrder>, users: Table<User>, id: int, status: string, updatedBy: int, now: int)
    : (r: (Table<PurchaseOrder>, Completion<bool>))
    ensures Repo.GetById(orders, id).None? ==> r == (orders, Returned(false))
    ensures Repo.GetById(orders, id).Some? && status !in AvailableStatuses ==>
              r == (orders, Raised(Argument("Invalid status")))
    ensures Repo.GetById(orders, id).Some? && status in AvailableStatuses && !Users.ExistsId(users, updatedBy) ==>
              r == (orders, Raised(SaveRejected))
    ensures r.1 == Returned(true) <==>
              Repo.GetById(orders, id).Some? && status in AvailableStatuses && Users.ExistsId(users, updatedBy)
    ensures r.1 == Returned(true) ==>
              r.0 == orders[id := orders[id].(status := status, updatedBy := Some(updatedBy), updatedAt := now)]
  {
    match Repo.GetById(orders, id)
    case None => (orders, Returned(false))
    case Some(existing) =>
      if status !in AvailableStatuses then (orders, Raised(Argument("Invalid status")))
      else if !Users.ExistsId(users, updatedBy) then (orders, Raised(SaveRejected))
      else
        var po := existing.(status := status, updatedBy := Some(updatedBy));
        (Repo.Update(orders, id, po, now), Returned(true))
  }

  /** `DeletePurchaseOrderAsync`: the repository's soft delete. */
  function Delete(orders: Table<PurchaseOrder>, id: int, now: int): (r: (Table<PurchaseOrder>, bool))
    ensures r.1 <==> id in orders
    ensures Repo.GetById(r.0, id) == None
  {
    Repo.Delete(orders, id, now)
  }

  /** The status update is the only write that checks the status against the allow-list. */
  lemma UpdateStatusKeepsStatusesAllowed(orders: Table<PurchaseOrder>, users: Table<User>, id: int, status: string, updatedBy: int, now: int)
    requires StatusesAllowed(orders)
    ensures StatusesAllowed(UpdateStatus(orders, users, id, status, updatedBy, now).0)
  {
  }

  /** Deleting never puts a disallowed status on an active order. */
  lemma DeleteKeepsStatusesAllowed(orders: Table<PurchaseOrder>, id: int, now: int)
    requires StatusesAllowed(orders)
    ensures StatusesAllowed(Delete(orders, id, now).0)
  {
  }

  /** No listed status is longer than 11 characters, so cutting a status to its
      column never turns an unlisted status into a listed one. */
  lemma CutStatusStaysUnlisted(status: string)
    requires status !in AvailableStatuses
    ensures InColumn(status, 50) !in AvailableStatuses
  {
    assert forall i :: 0 <= i < |AvailableStatuses| ==> |AvailableStatuses[i]| <= 11;
  }

  /** A known user can create an order whose status is not on the list. */
  lemma CreateAcceptsAnyStatus(users: Table<User>, createdBy: int, d: CreateRequest, now: int)
    requires Users.ExistsId(users, createdBy)
    requires PurchaseOrderFitsColumns(NewOrder(d, createdBy, now))
    requires d.status !in AvailableStatuses
    ensures Create(map[], users, d, createdBy, now).1.Returned?
    ensures !StatusesAllowed(Create(map[], users, d, createdBy, now).0)
  {
    var r := Create(map[], users, d, createdBy, now);
    CutStatusStaysUnlisted(d.status);
    assert r.1.value.id in r.0 && r.0[r.1.value.id].status == InColumn(d.status, 50);
  }

  /** Likewise an update can store a status that is not on the list. */
  lemma UpdateAcceptsAnyStatus(orders: Table<PurchaseOrder>, users: Table<User>, id: int, d: UpdateRequest, updatedBy: int, now: int)
    requires Repo.GetById(orders, id).Some? && Users.ExistsId(users, updatedBy)
    requires PurchaseOrderFitsColumns(Revised(orders[id], d, updatedBy))
    requires d.status !in AvailableStatuses
    ensures !StatusesAllowed(Update(orders, users, id, d, updatedBy, now).0)
  {
    var t := Update(orders, users, id, d, updatedBy, now).0;
    CutStatusStaysUnlisted(d.status);
    assert id in t && t[id].isActive && t[id].status == InColumn(d.status, 50);
  }

  /** A creation keeps each row's texts within their columns. */
  lemma CreateKeepsRowsWithinColumns(orders: Table<PurchaseOrder>, users: Table<User>, d: CreateRequest,
                                     createdBy: int, now: int)
    requires RowsWithinColumns(orders)
    ensures RowsWithinColumns(Create(orders, users, d, createdBy, now).0)
  {
  }

  /** So does an update. */
  lemma UpdateKeepsRowsWithinColumns(orders: Table<PurchaseOrder>, users: Table<User>, id: int, d: UpdateRequest,
                                     updatedBy: int, now: int)
    requires RowsWithinColumns(orders)
    ensures RowsWithinColumns(Update(orders, users, id, d, updatedBy, now).0)
  {
  }

  /** So do the status update, whose statuses all fit, and the soft delete. */
  lemma StatusAndDeleteKeepRowsWithinColumns(orders: Table<PurchaseOrder>, users: Table<User>, id: int, status: string,
                                             updatedBy: int, now: int)
    requires RowsWithinColumns(orders)
    ensures RowsWithinColumns(UpdateStatus(orders, users, id, status, updatedBy, now).0)
    ensures RowsWithinColumns(Delete(orders, id, now).0)
  {
    assert forall i :: 0 <= i < |AvailableStatuses| ==> |AvailableStatuses[i]| <= 11;
  }

  /** An active order's PR_ID cannot be used again after its deletion: the service's check no longer
      sees it, but the unique index does, and the creation fails with a 500. */
  lemma DeletedPRIdNotReusable(orders: Table<PurchaseOrder>, users: Table<User>, id: int, d: CreateRequest,
                               createdBy: int, now1: int, now2: int)
    requires id in orders && orders[id].isActive && d.prId == orders[id].prId
    requires Repo.ActivePRIdsUnique(orders) && RowsWithinColumns(orders)
    requires Users.ExistsId(users, createdBy)
    ensures var deleted := Delete(orders, id, now1).0;
            && !Repo.PRIdExists(deleted, d.prId)
            && Create(deleted, users, d, createdBy, now2) == (deleted, Raised(SaveRejected))
            && HandleException(SaveRejected).status == InternalServerError
  {
    var deleted := Delete(orders, id, now1).0;
    Repo.DeleteHidesOrder(orders, id, now1);
    assert deleted[id].prId == d.prId;
  }

  /** No write lets two active orders share a PR_ID: creation checks it, and the
      other writes never change a PR_ID or reactivate an order. */
  lemma CreateKeepsPRIdsUnique(orders: Table<PurchaseOrder>, users: Table<User>, d: CreateRequest, createdBy: int, now: int)
    requires Repo.ActivePRIdsUnique(orders)
    ensures Repo.ActivePRIdsUnique(Create(orders, users, d, createdBy, now).0)
  {
    var r := Create(orders, users, d, createdBy, now);
    if r.1.Returned? {
      OnlyHolder(orders, users, d, createdBy, now);
    }
  }

  /** After a successful creation the new order is the only row, active or
      deleted, holding the PR_ID it stores, and the only active one holding the
      requested PR_ID; the two are the same unless the column cut it. */
  lemma OnlyHolder(orders: Table<PurchaseOrder>, users: Table<User>, d: CreateRequest, createdBy: int, now: int)
    requires Create(orders, users, d, createdBy, now).1.Returned?
    ensures var r := Create(orders, users, d, createdBy, now);
            var id := r.1.value.id;
            && r.0[id].prId == InColumn(d.prId, 50)
            && (forall k :: k in r.0 && r.0[k].prId == r.0[id].prId ==> k == id)
            && (forall k :: k in r.0 && r.0[k].isActive && r.0[k].prId == d.prId ==> k == id)
  {
    var r := Create(orders, users, d, createdBy, now);
    var id := r.1.value.id;
    forall k | k in r.0 && r.0[k].prId == r.0[id].prId ensures k == id {
      assert !PRIdHeld(orders, InColumn(d.prId, 50));
    }
    forall k | k in r.0 && r.0[k].isActive && r.0[k].prId == d.prId ensures k == id {
      assert !Repo.PRIdExists(orders, d.prId);
    }
  }

  /** An update keeps the PR_ID of a row read back from the table, which fits its
      column. */
  lemma UpdateKeepsPRIdsUnique(orders: Table<PurchaseOrder>, users: Table<User>, id: int, d: UpdateRequest, updatedBy: int, now: int)
    requires Repo.ActivePRIdsUnique(orders) && RowsWithinColumns(orders)
    ensures Repo.ActivePRIdsUnique(Update(orders, users, id, d, updatedBy, now).0)
  {
  }

  lemma UpdateStatusKeepsPRIdsUnique(orders: Table<PurchaseOrder>, users: Table<User>, id: int, status: string, updatedBy: int, now: int)
    requires Repo.ActivePRIdsUnique(orders)
    ensures Repo.ActivePRIdsUnique(UpdateStatus(orders, users, id, status, updatedBy, now).0)
  {
  }

  lemma DeleteKeepsPRIdsUnique(orders: Table<PurchaseOrder>, id: int, now: int)
    requires Repo.ActivePRIdsUnique(orders)
    ensures Repo.ActivePRIdsUnique(Delete(orders, id, now).0)
  {
  }

  /** A freshly created order is what a lookup by its stored PR_ID finds; the
      stored PR_ID is the requested one whenever that fits its column. */
  lemma CreatedOrderFoundByPRId(orders: Table<PurchaseOrder>, users: Table<User>, d: CreateRequest, createdBy: int, now: int)
    requires Create(orders, users, d, createdBy, now).1.Returned?
    ensures var r := Create(orders, users, d, createdBy, now);
            var id := r.1.value.id;
            && Repo.GetByPRId(r.0, r.0[id].prId) == Some(Row(id, r.0[id]))
            && (|d.prId| <= 50 ==> r.0[id].prId == d.prId)
  {
    var r := Create(orders, users, d, createdBy, now);
    var id := r.1.value.id;
    assert id in r.0 && r.0[id].isActive;
    OnlyHolder(orders, users, d, createdBy, now);
  }

  /** Every failure the service itself raises maps to a 400 with its message under
      the global handler; only a save the database rejects maps to a 500. */
  lemma FailuresAreBadRequests(orders: Table<PurchaseOrder>, users: Table<User>, id: int,
                               c: CreateRequest, u: UpdateRequest, status: string, actor: int, now: int)
    ensures var r := Create(orders, users, c, actor, now).1;
            r.Raised? && (!Users.ExistsId(users, actor) || Repo.PRIdExists(orders, c.prId)) ==>
              HandleException(r.error) == ErrorResponse(BadRequest, false, r.error.message)
    ensures var r := Create(orders, users, c, actor, now).1;
            r.Raised? && Users.ExistsId(users, actor) && !Repo.PRIdExists(orders, c.prId) ==>
              HandleException(r.error) == ErrorResponse(InternalServerError, false, "Internal server error")
    ensures var r := Update(orders, users, id, u, actor, now).1;
            r.Raised? && (Repo.GetById(orders, id).None? || !Users.ExistsId(users, actor)) ==>
              HandleException(r.error) == ErrorResponse(BadRequest, false, r.error.message)
    ensures var r := Update(orders, users, id, u, actor, now).1;
            r.Raised? && Repo.GetById(orders, id).Some? && Users.ExistsId(users, actor) ==>
              HandleException(r.error) == ErrorResponse(InternalServerError, false, "Internal server error")
    ensures var r := UpdateStatus(orders, users, id, status, actor, now).1;
            r.Raised? && status !in AvailableStatuses ==>
              HandleException(r.error) == ErrorResponse(BadRequest, false, r.error.message)
    ensures var r := UpdateStatus(orders, users, id, status, actor, now).1;
            r.Raised? && status in AvailableStatuses ==>
              HandleException(r.error) == ErrorResponse(InternalServerError, false, "Internal server error")
  {
  }
}

=== FILE: role_repository.dfy ===
/** `RoleRepository`: roles with names compared ignoring case, and a hard delete
    refused while any user, active or not, holds the role. */
module RoleRepository {

  import opened Wrappers
  import opened Text
  import opened Tables
  import opened Entities

  /** `GetByIdAsync`. */
  function GetById(roles: Table<Role>, id: int): (r: Option<Role>)
    ensures r.Some? <==> id in roles
    ensures r.Some? ==> r.value == roles[id]
  {
    Lookup(roles, id)
  }

  /** `GetByNameAsync`: the first role, by key, whose name equals `name` ignoring
      case. */
  function GetByName(roles: Table<Role>, name: string): (r: Option<Row<Role>>)
    ensures r.Some? <==> exists k :: k in roles && EqualsIgnoreCase(roles[k].name, name)
    ensures r.Some? ==> r.value.id in roles && r.value.rec == roles[r.value.id] &&
                        EqualsIgnoreCase(r.value.rec.name, name)
    ensures r.Some? ==> forall k :: k in roles && EqualsIgnoreCase(roles[k].name, name) ==> r.value.id <= k
  {
    First(roles, (x: Role) => EqualsIgnoreCase(x.name, name))
  }

  /** `GetActiveRolesAsync`: exactly the active roles, in key order. */
  function GetActiveRoles(roles: Table<Role>): (r: seq<Row<Role>>)
    ensures forall i :: 0 <= i < |r| ==> r[i].id in roles && r[i].rec == roles[r[i].id] && r[i].rec.isActive
    ensures forall k :: k in KeysOf(r) <==> k in roles && roles[k].isActive
    ensures forall i, j :: 0 <= i < j < |r| ==> r[i].id < r[j].id
  {
    Where(roles, (x: Role) => x.isActive)
  }

  /** `CreateAsync`. */
  function Create(roles: Table<Role>, x: Role): (r: (Table<Role>, int))
    ensures r.1 !in roles
    ensures r.0 == roles[r.1 := x]
  {
    AddRow(roles, x)
  }

  /** `UpdateAsync`: stores `x` under `id` with `UpdatedAt` stamped. */
  function Update(roles: Table<Role>, id: int, x: Role, now: int): (r: Table<Role>)
    ensures r.Keys == roles.Keys + {id}
    ensures r[id] == x.(updatedAt := now)
    ensures forall k :: k in roles && k != id ==> r[k] == roles[k]
  {
    Put(roles, id, x.(updatedAt := now))
  }

  /** Some user, active or not, holds the role (`role.Users.Any()`). */
  predicate HasUsers(users: Table<User>, id: int)
  {
    exists k :: k in users && users[k].roleId == id
  }

  function AnyUserWithRole(users: Table<User>, id: int): (r: bool)
    ensures r <==> HasUsers(users, id)
  {
    var rows := Where(users, (u: User) => u.roleId == id);
    if |rows| > 0 then
      assert rows[0].id in KeysOf(rows);
      true
    else
      assert forall k :: k in users && users[k].roleId == id ==> k in KeysOf(rows);
      false
  }

  /** The outcome of `DeleteAsync`: `false`, the `InvalidOperationException`, or
      `true`. */
  datatype Removal = Missing | HeldByUsers | Removed

  /** `DeleteAsync`: a hard delete, refused while a user holds the role. */
  function Delete(roles: Table<Role>, users: Table<User>, id: int): (r: (Table<Role>, Removal))
    ensures r.1 == Missing <==> id !in roles
    ensures r.1 == HeldByUsers <==> id in roles && HasUsers(users, id)
    ensures r.1 == Removed <==> id in roles && !HasUsers(users, id)
    ensures r.1 == Removed ==> r.0 == roles - {id}
    ensures r.1 != Removed ==> r.0 == roles
  {
    if id !in roles then (roles, Missing)
    else if AnyUserWithRole(users, id) then (roles, HeldByUsers)
    else (roles - {id}, Removed)
  }

  /** `ExistsAsync(name)`: some role has this name, ignoring case. */
  function Exists(roles: Table<Role>, name: string): (r: bool)
    ensures r <==> exists k :: k in roles && EqualsIgnoreCase(roles[k].name, name)
  {
    GetByName(roles, name).Some?
  }

  /** Every user's role exists: what a permitted delete never breaks. */
  ghost predicate RolesReferenced(roles: Table<Role>, users: Table<User>)
  {
    forall k :: k in users ==> users[k].roleId in roles
  }

  lemma DeleteKeepsUsersRoles(roles: Table<Role>, users: Table<User>, id: int)
    requires RolesReferenced(roles, users)
    ensures RolesReferenced(Delete(roles, users, id).0, users)
  {
    var (after, outcome) := Delete(roles, users, id);
    if outcome == Removed {
      forall k | k in users ensures users[k].roleId in after {
        assert users[k].roleId != id;
      }
    }
  }
}

=== FILE: role_service.dfy ===
/** `RoleService`: create, update and delete of roles with the service's
    messages. */
module RoleService {

  import opened Wrappers
  import opened Text
  import opened Tables
  import opened Entities
  import Repo = RoleRepository

  /** `CreateRoleDto` and `UpdateRoleDto`, which have the same fields. */
  datatype RoleRequest = RoleRequest(name: string, description: Option<string>, isActive: bool)

  datatype Outcome<T> = Outcome(roles: Table<Role>, response: Envelope<T>)

  /** No two roles have the same name ignoring case. */
  ghost predicate NamesUnique(roles: Table<Role>)
  {
    forall i, j :: i in roles && j in roles && i != j ==> !EqualsIgnoreCase(roles[i].name, roles[j].name)
  }

  /** `CreateRoleAsync`: refused on a name clash ignoring case; otherwise name,
      description and active flag come from the request. */
  function Create(roles: Table<Role>, d: RoleRequest, now: int): (r: Outcome<Row<Role>>)
    ensures r.response.Error? <==> Repo.Exists(roles, d.name)
    ensures r.response.Error? ==>
      r.response.message == "Role with this name already exists" && r.roles == roles
    ensures r.response.Ok? ==>
      var id := r.response.data.id;
      && id !in roles && r.roles == roles[id := r.response.data.rec]
      && r.response.data.rec == Role(d.name, d.description, d.isActive, now, now)
      && r.response.note == Some("Role created successfully")
  {
    if Repo.Exists(roles, d.name) then Outcome(roles, Error("Role with this name already exists"))
    else
      var role := Role(d.name, d.description, d.isActive, now, now);
      var (roles', id) := Repo.Create(roles, role);
      Outcome(roles', Ok(Row(id, role), Some("Role created successfully")))
  }

  /** `UpdateRoleAsync`: "Role not found" for an unknown key; refused when the
      first role holding the name (ignoring case) is another role, so keeping its
      own name is allowed; otherwise name, description and active flag change. */
  function Update(roles: Table<Role>, id: int, d: RoleRequest, now: int): (r: Outcome<Row<Role>>)
    ensures id !in roles ==> r.response == Error("Role not found")
    ensures (id in roles && Repo.GetByName(roles, d.name).Some? && Repo.GetByName(roles, d.name).value.id != id) ==>
      r.response == Error("Another role with this name already exists")
    ensures r.response.Error? ==> r.roles == roles
    ensures r.response.Ok? <==>
      id in roles && (Repo.GetByName(roles, d.name).None? || Repo.GetByName(roles, d.name).value.id == id)
    ensures r.response.Ok? ==>
      && r.response.data.id == id && r.roles == roles[id := r.response.data.rec]
      && r.response.data.rec == roles[id].(name := d.name, description := d.description,
                                           isActive := d.isActive, updatedAt := now)
      && r.response.note == Some("Role updated successfully")
  {
    match Repo.GetById(roles, id)
    case None => Outcome(roles, Error("Role not found"))
    case Some(role) =>
      var existing := Repo.GetByName(roles, d.name);
      if existing.Some? && existing.value.id != id then
        Outcome(roles, Error("Another role with this name already exists"))
      else
        var roles' := Repo.Update(roles, id, role.(name := d.name, description := d.description, isActive := d.isActive), now);
        Outcome(roles', Ok(Row(id, roles'[id]), Some("Role updated successfully")))
  }

  /** `DeleteRoleAsync`: "Role not found", the refusal message while users hold the
      role, or a hard delete. */
  function Delete(roles: Table<Role>, users: Table<User>, id: int): (r: Outcome<bool>)
    ensures id !in roles ==> r.response == Error("Role not found")
    ensures id in roles && Repo.HasUsers(users, id) ==>
      r.response == Error("Cannot delete role that has users assigned to it")
    ensures r.response.Ok? <==> id in roles && !Repo.HasUsers(users, id)
    ensures r.response.Ok? ==>
      r.response == Ok(true, Some("Role deleted successfully")) && r.roles == roles - {id}
    ensures r.response.Error? ==> r.roles == roles
  {
    var (roles', outcome) := Repo.Delete(roles, users, id);
    match outcome
    case Missing => Outcome(roles, Error("Role not found"))
    case HeldByUsers => Outcome(roles, Error("Cannot delete role that has users assigned to it"))
    case Removed => Outcome(roles', Ok(true, Some("Role deleted successfully")))
  }

  // ---------------------------------------------------------------- properties

  /** While names are unique, Update's first-match check is exactly "another role
      has this name, ignoring case". */
  lemma UpdateCheckIsAnotherHolds(roles: Table<Role>, id: int, d: RoleRequest, now: int)
    requires NamesUnique(roles) && id in roles
    ensures Update(roles, id, d, now).response.Error? <==>
      exists k :: k in roles && k != id && EqualsIgnoreCase(roles[k].name, d.name)
  {
    var hit := Repo.GetByName(roles, d.name);
    if exists k :: k in roles && k != id && EqualsIgnoreCase(roles[k].name, d.name) {
      var k :| k in roles && k != id && EqualsIgnoreCase(roles[k].name, d.name);
      assert hit.Some?;
    }
  }

  /** Create keeps role names unique ignoring case. */
  lemma CreateKeepsNamesUnique(roles: Table<Role>, d: RoleRequest, now: int)
    requires NamesUnique(roles)
    ensures NamesUnique(Create(roles, d, now).roles)
  {
    var c := Create(roles, d, now);
    if c.response.Ok? {
      var nid := c.response.data.id;
      forall i, j | i in c.roles && j in c.roles && i != j
        ensures !EqualsIgnoreCase(c.roles[i].name, c.roles[j].name)
      {
        if i == nid { assert !EqualsIgnoreCase(roles[j].name, d.name); }
        else if j == nid { assert !EqualsIgnoreCase(roles[i].name, d.name); }
      }
    }
  }

  /** Update keeps role names unique ignoring case. */
  lemma UpdateKeepsNamesUnique(roles: Table<Role>, id: int, d: RoleRequest, now: int)
    requires NamesUnique(roles)
    ensures NamesUnique(Update(roles, id, d, now).roles)
  {
    var u := Update(roles, id, d, now);
    if u.response.Ok? {
      UpdateCheckIsAnotherHolds(roles, id, d, now);
      forall i, j | i in u.roles && j in u.roles && i != j
        ensures !EqualsIgnoreCase(u.roles[i].name, u.roles[j].name)
      {
        if i == id { assert !EqualsIgnoreCase(roles[j].name, d.name); }
        else if j == id { assert !EqualsIgnoreCase(roles[i].name, d.name); }
      }
    }
  }
}

=== FILE: tables.dfy ===
/** In-memory tables: the model of one database table is a map from primary key to
    record. This module enumerates a table in key order, filters it, and sorts
    rows with a stable insertion sort, which is how the list queries
    (`Where(...)`, `OrderBy(...)`, `OrderByDescending(...)`) are modelled. */
module Tables {

  import opened Wrappers

  type Table<T> = map<int, T>

  /** One row of a query result: the primary key and the record. */
  datatype Row<T> = Row(id: int, rec: T)

  /** Some element of a non-empty set. */
  lemma Element(s: set<int>) returns (x: int)
    requires |s| > 0
    ensures x in s
  {
    NoMemberEmpty(s);
    x :| x in s;
  }

  lemma NoMemberEmpty(s: set<int>)
    ensures (forall y :: y !in s) ==> s == {}
  {
    if forall y :: y !in s {
      assert s == {};
    }
  }

  /** Finds the least and the greatest element of a non-empty finite set of keys, by
      induction on the size of the set. */
  lemma {:induction false} Extremes(s: set<int>) returns (lo: int, hi: int)
    requires |s| > 0
    ensures lo in s && forall k :: k in s ==> lo <= k
    ensures hi in s && forall k :: k in s ==> k <= hi
    decreases |s|
  {
    var x := Element(s);
    var rest := s - {x};
    assert s == rest + {x};
    if |rest| == 0 {
      lo, hi := x, x;
    } else {
      var l, h := Extremes(rest);
      lo := if x < l then x else l;
      hi := if x > h then x else h;
    }
  }

  /** The smallest key of a non-empty set of keys. */
  function Min(s: set<int>): (m: int)
    requires |s| > 0
    ensures m in s && forall k :: k in s ==> m <= k
  {
    assert exists m :: m in s && forall k :: k in s ==> m <= k by {
      var lo, hi := Extremes(s);
    }
    var m :| m in s && forall k :: k in s ==> m <= k; m
  }

  /** A key above every key in use: where an insert lands (the identity column). */
  function FreshId<T>(t: Table<T>): (id: int)
    ensures id >= 1 && id !in t
    ensures forall k :: k in t ==> k < id
  {
    if |t.Keys| == 0 then 1
    else
      assert exists m :: m in t.Keys && forall k :: k in t.Keys ==> k <= m by {
        var lo, hi := Extremes(t.Keys);
      }
      var top :| top in t.Keys && forall k :: k in t.Keys ==> k <= top;
      if top >= 0 then top + 1 else 1
  }

  /** `FindAsync(id)`: the record under the key, if any. */
  function Lookup<T>(t: Table<T>, id: int): (r: Option<T>)
    ensures r.Some? <==> id in t
    ensures r.Some? ==> r.value == t[id]
  {
    if id in t then Some(t[id]) else None
  }

  /** `Add` and `SaveChangesAsync`: `x` lands under a key above every key in use,
      and no other row changes. */
  function AddRow<T>(t: Table<T>, x: T): (r: (Table<T>, int))
    ensures r.1 !in t && forall k :: k in t ==> k < r.1
    ensures r.0.Keys == t.Keys + {r.1} && r.0[r.1] == x
    ensures forall k :: k in t ==> r.0[k] == t[k]
  {
    var id := FreshId(t);
    (t[id := x], id)
  }

  /** `Update` and `SaveChangesAsync`: the row under `id` becomes `x`, and no other
      row changes. */
  function Put<T>(t: Table<T>, id: int, x: T): (r: Table<T>)
    ensures r.Keys == t.Keys + {id} && r[id] == x
    ensures forall k :: k in t && k != id ==> r[k] == t[k]
  {
    t[id := x]
  }

  /** The keys carried by a query result. */
  function KeysOf<T>(r: seq<Row<T>>): set<int>
  {
    set i | 0 <= i < |r| :: r[i].id
  }

  lemma KeysOfCons<T>(x: Row<T>, r: seq<Row<T>>)
    ensures KeysOf([x] + r) == {x.id} + KeysOf(r)
  {
    var c := [x] + r;
    forall k | k in KeysOf(c) ensures k in {x.id} + KeysOf(r) {
      var i :| 0 <= i < |c| && c[i].id == k;
      if i > 0 { assert r[i - 1].id == k; }
    }
    forall k | k in KeysOf(r) ensures k in KeysOf(c) {
      var i :| 0 <= i < |r| && r[i].id == k;
      assert c[i + 1].id == k;
    }
    assert c[0].id == x.id;
  }

  /** The rows of `t` whose keys are in `s` and that satisfy `keep`, in ascending key
      order: the model of an unordered `Where(...)` query. Every row is a row of the
      table that satisfies `keep`, every such row is present, and none twice. */
  function Select<T>(t: Table<T>, s: set<int>, keep: T -> bool): (r: seq<Row<T>>)
    requires s <= t.Keys
    ensures forall i :: 0 <= i < |r| ==> r[i].id in s && r[i].rec == t[r[i].id] && keep(r[i].rec)
    ensures forall k :: k in KeysOf(r) <==> k in s && keep(t[k])
    ensures forall i, j :: 0 <= i < j < |r| ==> r[i].id < r[j].id
    decreases |s|
  {
    if |s| == 0 then []
    else
      var m := Min(s);
      var rest := Select(t, s - {m}, keep);
      SelectStep(t, s, keep, m, rest);
      if keep(t[m]) then [Row(m, t[m])] + rest else rest
  }

  /** The induction step of `Select`: a result for `s - {m}`, with `m` the least key
      of `s`, extends to a result for `s`. */
  lemma SelectStep<T>(t: Table<T>, s: set<int>, keep: T -> bool, m: int, rest: seq<Row<T>>)
    requires s <= t.Keys && m in s && forall k :: k in s ==> m <= k
    requires forall i :: 0 <= i < |rest| ==> rest[i].id in s - {m} && rest[i].rec == t[rest[i].id] && keep(rest[i].rec)
    requires forall k :: k in KeysOf(rest) <==> k in s - {m} && keep(t[k])
    requires forall i, j :: 0 <= i < j < |rest| ==> rest[i].id < rest[j].id
    ensures var r := if keep(t[m]) then [Row(m, t[m])] + rest else rest;
      && (forall i :: 0 <= i < |r| ==> r[i].id in s && r[i].rec == t[r[i].id] && keep(r[i].rec))
      && (forall k :: k in KeysOf(r) <==> k in s && keep(t[k]))
      && (forall i, j :: 0 <= i < j < |r| ==> r[i].id < r[j].id)
  {
    if keep(t[m]) {
      var r := [Row(m, t[m])] + rest;
      KeysOfCons(Row(m, t[m]), rest);
      forall i, j | 0 <= i < j < |r| ensures r[i].id < r[j].id {
        if i == 0 {
          assert r[j] == rest[j - 1];
        } else {
          assert r[i] == rest[i - 1] && r[j] == rest[j - 1];
        }
      }
      forall i | 0 <= i < |r| ensures r[i].id in s && r[i].rec == t[r[i].id] && keep(r[i].rec) {
        if i > 0 { assert r[i] == rest[i - 1]; }
      }
    }
  }

  /** All rows of `t` that satisfy `keep`, in ascending key order. */
  function Where<T>(t: Table<T>, keep: T -> bool): (r: seq<Row<T>>)
    ensures forall i :: 0 <= i < |r| ==> r[i].id in t && r[i].rec == t[r[i].id] && keep(r[i].rec)
    ensures forall k :: k in KeysOf(r) <==> k in t && keep(t[k])
    ensures forall i, j :: 0 <= i < j < |r| ==> r[i].id < r[j].id
  {
    Select(t, t.Keys, keep)
  }

  /** The first row, by key, that satisfies `keep`: the model of
      `FirstOrDefault(predicate)` on a table without an ordering. */
  function First<T>(t: Table<T>, keep: T -> bool): (r: Option<Row<T>>)
    ensures r.Some? <==> exists k :: k in t && keep(t[k])
    ensures r.Some? ==> r.value.id in t && r.value.rec == t[r.value.id] && keep(r.value.rec)
    ensures r.Some? ==> forall k :: k in t && keep(t[k]) ==> r.value.id <= k
  {
    var rows := Where(t, keep);
    if |rows| == 0 then
      assert forall k :: k in t && keep(t[k]) ==> k in KeysOf(rows);
      None
    else
      assert rows[0].id in KeysOf(rows);
      assert forall k :: k in t && keep(t[k]) ==> rows[0].id <= k by {
        forall k | k in t && keep(t[k]) ensures rows[0].id <= k {
          assert k in KeysOf(rows);
          var i :| 0 <= i < |rows| && rows[i].id == k;
        }
      }
      Some(rows[0])
  }

  // ---------------------------------------------------------------- sorting

  /** `le` orders any two values one way or the other. */
  ghost predicate Total<T(!new)>(le: (T, T) -> bool)
  {
    forall a, b :: le(a, b) || le(b, a)
  }

  /** Each element is ordered no later than its successor. */
  ghost predicate Sorted<T>(s: seq<T>, le: (T, T) -> bool)
  {
    forall i :: 0 <= i < |s| - 1 ==> le(s[i], s[i + 1])
  }

  /** Inserts `x` before the first element it is ordered no later than. */
  function Insert<T(!new)>(x: T, s: seq<T>, le: (T, T) -> bool): (r: seq<T>)
    requires Total(le)
    requires Sorted(s, le)
    ensures multiset(r) == multiset(s) + multiset{x}
    ensures Sorted(r, le)
    ensures |r| > 0 && (r[0] == x || (|s| > 0 && r[0] == s[0]))
  {
    if |s| == 0 then [x]
    else if le(x, s[0]) then [x] + s
    else
      var rest := Insert(x, s[1..], le);
      assert multiset(s) == multiset{s[0]} + multiset(s[1..]) by {
        assert s == [s[0]] + s[1..];
      }
      assert le(s[0], x);
      assert Sorted(s[1..], le) by {
        forall i | 0 <= i < |s[1..]| - 1 ensures le(s[1..][i], s[1..][i + 1]) {
          assert s[1..][i] == s[i + 1] && s[1..][i + 1] == s[i + 2];
        }
      }
      assert |s| > 1 ==> le(s[0], s[1]);
      [s[0]] + rest
  }

  /** Insertion sort: a permutation of `s` ordered by `le`. */
  function SortBy<T(!new)>(s: seq<T>, le: (T, T) -> bool): (r: seq<T>)
    requires Total(le)
    ensures multiset(r) == multiset(s)
    ensures Sorted(r, le)
  {
    if |s| == 0 then []
    else
      var rest := SortBy(s[1..], le);
      assert s == [s[0]] + s[1..];
      Insert(s[0], rest, le)
  }

  /** The rows of `t` that satisfy `keep`, ordered by `le`: the model of
      `Where(...).OrderBy(...)`. */
  function SortedWhere<T(!new)>(t: Table<T>, keep: T -> bool, le: (Row<T>, Row<T>) -> bool): (r: seq<Row<T>>)
    requires Total(le)
    ensures forall i :: 0 <= i < |r| ==> r[i].id in t && r[i].rec == t[r[i].id] && keep(r[i].rec)
    ensures forall k :: k in t && keep(t[k]) <==> k in KeysOf(r)
    ensures forall i, j :: 0 <= i < j < |r| ==> r[i].id != r[j].id
    ensures Sorted(r, le)
  {
    var rows := Where(t, keep);
    var r := SortBy(rows, le);
    PermutedRows(t, keep, rows, r);
    r
  }

  /** A reordering of the rows of a `Where` query still lists exactly the rows that
      satisfy the predicate, each once. */
  lemma PermutedRows<T>(t: Table<T>, keep: T -> bool, rows: seq<Row<T>>, r: seq<Row<T>>)
    requires rows == Where(t, keep)
    requires multiset(r) == multiset(rows)
    ensures forall i :: 0 <= i < |r| ==> r[i].id in t && r[i].rec == t[r[i].id] && keep(r[i].rec)
    ensures forall k :: k in t && keep(t[k]) <==> k in KeysOf(r)
    ensures forall i, j :: 0 <= i < j < |r| ==> r[i].id != r[j].id
  {
    SameElements(rows, r);
    DistinctKeysPermuted(rows, r);
    forall i | 0 <= i < |r| ensures r[i].id in t && r[i].rec == t[r[i].id] && keep(r[i].rec) {
      assert r[i] in rows;
      var j :| 0 <= j < |rows| && rows[j] == r[i];
    }
  }

  /** Two sequences with the same multiset have the same elements. */
  lemma SameElements<T>(a: seq<T>, b: seq<T>)
    requires multiset(a) == multiset(b)
    ensures forall x :: x in a <==> x in b
  {
    forall x ensures x in a <==> x in b {
      assert x in a <==> x in multiset(a);
      assert x in b <==> x in multiset(b);
    }
  }

  /** Reordering rows whose keys are distinct keeps them distinct, and keeps the
      set of keys. */
  lemma DistinctKeysPermuted<T>(a: seq<Row<T>>, b: seq<Row<T>>)
    requires multiset(a) == multiset(b)
    requires forall i, j :: 0 <= i < j < |a| ==> a[i].id < a[j].id
    ensures KeysOf(a) == KeysOf(b)
    ensures forall i, j :: 0 <= i < j < |b| ==> b[i].id != b[j].id
  {
    SameElements(a, b);
    forall k | k in KeysOf(a) ensures k in KeysOf(b) {
      var i :| 0 <= i < |a| && a[i].id == k;
      assert a[i] in b;
      var j :| 0 <= j < |b| && b[j] == a[i];
    }
    forall k | k in KeysOf(b) ensures k in KeysOf(a) {
      var i :| 0 <= i < |b| && b[i].id == k;
      assert b[i] in a;
      var j :| 0 <= j < |a| && a[j] == b[i];
    }
    forall i, j | 0 <= i < j < |b| ensures b[i].id != b[j].id {
      assert b[i] in a && b[j] in a;
      var p :| 0 <= p < |a| && a[p] == b[i];
      var q :| 0 <= q < |a| && a[q] == b[j];
      Unique(a, p);
      OccursOnce(b, i, j);
      assert p != q;
    }
  }

  /** An element that occurs once in `b` differs from every later element. */
  lemma OccursOnce<T>(b: seq<T>, i: int, j: int)
    requires 0 <= i < j < |b|
    requires multiset(b)[b[i]] == 1
    ensures b[i] != b[j]
  {
    assert b == b[..j] + [b[j]] + b[j + 1..];
    assert b[..j][i] == b[i];
    assert multiset(b)[b[i]] == multiset(b[..j])[b[i]] + multiset([b[j]])[b[i]] + multiset(b[j + 1..])[b[i]];
  }

  /** In rows with strictly increasing keys every row occurs once. */
  lemma {:induction false} Unique<T>(a: seq<Row<T>>, p: int)
    requires 0 <= p < |a|
    requires forall i, j :: 0 <= i < j < |a| ==> a[i].id < a[j].id
    ensures multiset(a)[a[p]] == 1
  {
    var x := a[p];
    assert a == a[..p] + [x] + a[p + 1..];
    assert forall y :: y in a[..p] ==> y.id < x.id;
    assert forall y :: y in a[p + 1..] ==> y.id > x.id;
    assert multiset(a) == multiset(a[..p]) + multiset{x} + multiset(a[p + 1..]);
  }
}

=== FILE: text.dfy ===
/** Character-level string helpers shared by the repositories: ASCII lower-casing
    (the model of `ToLower()` in name and email comparisons), blank detection
    (the `[Required]` rule), UTF-16 length (the `[StringLength]` rule), ordinal substring search (`string.Contains`) and
    ordinal lexicographic order (`OrderBy(x => x.Name)`). */
module Text {

  predicate IsUpper(c: char)
  {
    'A' <= c <= 'Z'
  }

  /** Lower-cases one ASCII letter; every other character is left alone. */
  function LowerChar(c: char): char
  {
    if IsUpper(c) then (c as int + 32) as char else c
  }

  /** A string with no upper-case ASCII letter. */
  predicate IsLowerCase(s: string)
  {
    forall i :: 0 <= i < |s| ==> !IsUpper(s[i])
  }

  /** `s.ToLower()`, restricted to ASCII. The result has no upper-case letter and
      differs from `s` only where `s` had an upper-case letter, which it replaces by
      the matching lower-case one. */
  function ToLower(s: string): (r: string)
    ensures |r| == |s|
    ensures IsLowerCase(r)
    ensures forall i :: 0 <= i < |s| && !IsUpper(s[i]) ==> r[i] == s[i]
    ensures forall i :: 0 <= i < |s| && IsUpper(s[i]) ==> r[i] as int == s[i] as int + 32
  {
    if |s| == 0 then "" else [LowerChar(s[0])] + ToLower(s[1..])
  }

  /** Lower-casing a string that is already lower-case changes nothing. */
  lemma {:induction false} ToLowerFixesLowerCase(s: string)
    requires IsLowerCase(s)
    ensures ToLower(s) == s
  {
    if |s| > 0 {
      assert IsLowerCase(s[1..]) by {
        forall i | 0 <= i < |s[1..]| ensures !IsUpper(s[1..][i]) {
          assert s[1..][i] == s[i + 1];
        }
      }
      ToLowerFixesLowerCase(s[1..]);
    }
  }

  lemma LowerCaseAppend(a: string, b: string)
    requires IsLowerCase(a) && IsLowerCase(b)
    ensures IsLowerCase(a + b)
  {
    forall i | 0 <= i < |a + b| ensures !IsUpper((a + b)[i]) {
      if i < |a| { assert (a + b)[i] == a[i]; } else { assert (a + b)[i] == b[i - |a|]; }
    }
  }

  /** Lower-casing is idempotent. */
  lemma ToLowerIdempotent(s: string)
    ensures ToLower(ToLower(s)) == ToLower(s)
  {
    ToLowerFixesLowerCase(ToLower(s));
  }

  /** The comparison `a.ToLower() == b.ToLower()` used by the name and email lookups. */
  predicate EqualsIgnoreCase(a: string, b: string)
  {
    ToLower(a) == ToLower(b)
  }

  /** Comparing a string with an already lower-cased copy of another is the same as
      comparing the two ignoring case: what makes a stored lower-cased email findable. */
  lemma EqualsIgnoreCaseOfLowered(a: string, b: string)
    ensures EqualsIgnoreCase(a, ToLower(b)) <==> EqualsIgnoreCase(a, b)
  {
    ToLowerIdempotent(b);
  }

  /** `char.IsWhiteSpace`: the ASCII controls tab to carriage return, NEL and the
      no-break space, and every space, line or paragraph separator of Unicode. */
  predicate IsWhiteSpace(c: char)
  {
    || ('\t' <= c <= '\r') || c == ' ' || c == '\U{85}' || c == '\U{A0}'
    || c == '\U{1680}' || ('\U{2000}' <= c <= '\U{200A}') || c == '\U{2028}' || c == '\U{2029}'
    || c == '\U{202F}' || c == '\U{205F}' || c == '\U{3000}'
  }

  /** A string that `[Required]` rejects (`string.IsNullOrWhiteSpace`): empty or made
      only of white space. */
  predicate IsBlank(s: string)
  {
    forall i :: 0 <= i < |s| ==> IsWhiteSpace(s[i])
  }

  /** A character that UTF-16 encodes as one code unit rather than a surrogate pair. */
  predicate InBasicPlane(c: char)
  {
    c as int < 0x1_0000
  }

  /** `s.Length`, which `[StringLength]` compares: the number of UTF-16 code units.
      It equals the number of characters exactly when every character lies in the
      Basic Multilingual Plane, and is at most twice that number. */
  function Utf16Length(s: string): (n: nat)
    ensures |s| <= n <= 2 * |s|
    ensures n == |s| <==> forall i :: 0 <= i < |s| ==> InBasicPlane(s[i])
  {
    if |s| == 0 then 0
    else
      var rest := Utf16Length(s[1..]);
      assert forall i :: 0 <= i < |s[1..]| ==> s[1..][i] == s[i + 1];
      (if InBasicPlane(s[0]) then 1 else 2) + rest
  }

  /** `needle` occurs in `hay` starting at position `i`. */
  predicate OccursAt(hay: string, needle: string, i: int)
  {
    0 <= i && i + |needle| <= |hay| && hay[i..i + |needle|] == needle
  }

  /** Ordinal `hay.Contains(needle)`, searched from the left. It holds exactly when
      `needle` occurs somewhere in `hay`. */
  function Contains(hay: string, needle: string): (r: bool)
    ensures r <==> exists i :: OccursAt(hay, needle, i)
    decreases |hay|
  {
    if |needle| <= |hay| && hay[..|needle|] == needle then
      assert OccursAt(hay, needle, 0);
      true
    else if |hay| == 0 then
      assert forall i :: !OccursAt(hay, needle, i);
      false
    else
      var rest := Contains(hay[1..], needle);
      assert forall i :: OccursAt(hay[1..], needle, i) <==> OccursAt(hay, needle, i + 1) by {
        forall i ensures OccursAt(hay[1..], needle, i) <==> OccursAt(hay, needle, i + 1) {
          if 0 <= i && i + |needle| <= |hay[1..]| {
            assert hay[1..][i..i + |needle|] == hay[i + 1..i + 1 + |needle|];
          }
        }
      }
      assert !OccursAt(hay, needle, 0);
      assert forall i :: OccursAt(hay, needle, i) ==> i == 0 || OccursAt(hay[1..], needle, i - 1);
      rest
  }

  /** Ordinal lexicographic order on strings: `a` sorts no later than `b`. */
  predicate LexLe(a: string, b: string)
    decreases |a|
  {
    |a| == 0 || (|b| > 0 && (a[0] < b[0] || (a[0] == b[0] && LexLe(a[1..], b[1..]))))
  }

  /** Any two strings are ordered one way or the other. */
  lemma {:induction false} LexLeTotal(a: string, b: string)
    ensures LexLe(a, b) || LexLe(b, a)
    decreases |a|
  {
    if |a| > 0 && |b| > 0 && a[0] == b[0] {
      LexLeTotal(a[1..], b[1..]);
    }
  }

  /** The order is transitive. */
  lemma {:induction false} LexLeTransitive(a: string, b: string, c: string)
    requires LexLe(a, b) && LexLe(b, c)
    ensures LexLe(a, c)
    decreases |a|
  {
    if |a| > 0 && a[0] == b[0] && b[0] == c[0] {
      LexLeTransitive(a[1..], b[1..], c[1..]);
    }
  }

  /** Two strings ordered both ways are equal. */
  lemma {:induction false} LexLeAntisymmetric(a: string, b: string)
    requires LexLe(a, b) && LexLe(b, a)
    ensures a == b
    decreases |a|
  {
    if |a| > 0 {
      LexLeAntisymmetric(a[1..], b[1..]);
      assert a == [a[0]] + a[1..] && b == [b[0]] + b[1..];
    }
  }
}

=== FILE: user_dtos.dfy ===
/** `UserRegistrationDto` and its data-annotation rules. The `[EmailAddress]` and
    `[Phone]` format rules are library validators and are not part of this model. */
module UserDtos {

  import opened Wrappers
  import opened Text
  import opened Entities

  datatype UserRegistration = UserRegistration(
    fullName: string,
    email: string,
    employmentId: string,
    mobileNumber: Option<string>,
    password: string,
    confirmPassword: string,
    department: string,
    subDepartment: string,
    roleId: int)

  /** The two values `^(IT Department|Non-IT Department)$` accepts. */
  const Departments: seq<string> := ["IT Department", "Non-IT Department"]

  /** `[RegularExpression]` passes an empty value and otherwise requires the whole
      value to match. */
  predicate DepartmentPattern(s: string)
  {
    s == "" || s in Departments
  }

  lemma DepartmentsNotBlank()
    ensures forall s :: s in Departments ==> !IsBlank(s)
  {
    assert !IsWhiteSpace(Departments[0][0]) && !IsWhiteSpace(Departments[1][0]);
  }

  /** The person: name, email, employment id and mobile number. */
  predicate IdentityValid(d: UserRegistration)
  {
    && !IsBlank(d.fullName) && Utf16Length(d.fullName) <= 100
    && !IsBlank(d.email) && Utf16Length(d.email) <= 100
    && !IsBlank(d.employmentId) && Utf16Length(d.employmentId) <= 20
    && (d.mobileNumber.Some? ==> Utf16Length(d.mobileNumber.value) <= 15)
  }

  /** The password and its confirmation. */
  predicate PasswordValid(d: UserRegistration)
  {
    && !IsBlank(d.password)
    && !IsBlank(d.confirmPassword) && d.confirmPassword == d.password
  }

  /** Department, sub-department and role. */
  predicate PlacementValid(d: UserRegistration)
  {
    && d.department in Departments
    && !IsBlank(d.subDepartment)
    && 1 <= d.roleId <= IntMax
  }

  predicate RegistrationValid(d: UserRegistration)
  {
    IdentityValid(d) && PasswordValid(d) && PlacementValid(d)
  }

  function Rule(fails: bool, message: string): seq<string>
  {
    if fails then [message] else []
  }

  function IdentityErrors(d: UserRegistration): (errors: seq<string>)
    ensures |errors| == 0 <==> IdentityValid(d)
  {
    Rule(IsBlank(d.fullName), "Full name is required")
    + Rule(Utf16Length(d.fullName) > 100, "Full name cannot exceed 100 characters")
    + Rule(IsBlank(d.email), "Email is required")
    + Rule(Utf16Length(d.email) > 100, "Email cannot exceed 100 characters")
    + Rule(IsBlank(d.employmentId), "Employment ID is required")
    + Rule(Utf16Length(d.employmentId) > 20, "Employment ID cannot exceed 20 characters")
    + Rule(d.mobileNumber.Some? && Utf16Length(d.mobileNumber.value) > 15, "Mobile number cannot exceed 15 characters")
  }

  function PasswordErrors(d: UserRegistration): (errors: seq<string>)
    ensures |errors| == 0 <==> PasswordValid(d)
    ensures d.confirmPassword != d.password ==> "Password and confirmation password do not match" in errors
  {
    Rule(IsBlank(d.password), "Password is required")
    + Rule(IsBlank(d.confirmPassword), "Password confirmation is required")
    + Rule(d.confirmPassword != d.password, "Password and confirmation password do not match")
  }

  function PlacementErrors(d: UserRegistration): (errors: seq<string>)
    ensures |errors| == 0 <==> PlacementValid(d)
    ensures d.department !in Departments ==>
      "Department is required" in errors ||
      "Department must be either 'IT Department' or 'Non-IT Department'" in errors
  {
    DepartmentsNotBlank();
    Rule(IsBlank(d.department), "Department is required")
    + Rule(!DepartmentPattern(d.department), "Department must be either 'IT Department' or 'Non-IT Department'")
    + Rule(IsBlank(d.subDepartment), "Sub-department is required")
    + Rule(!(1 <= d.roleId <= IntMax), "Please select a valid role")
  }

  /** The messages model validation reports, in declaration order. */
  function RegistrationErrors(d: UserRegistration): (errors: seq<string>)
    ensures |errors| == 0 <==> RegistrationValid(d)
    ensures d.confirmPassword != d.password ==> "Password and confirmation password do not match" in errors
    ensures d.department !in Departments ==>
      "Department is required" in errors ||
      "Department must be either 'IT Department' or 'Non-IT Department'" in errors
  {
    IdentityErrors(d) + PasswordErrors(d) + PlacementErrors(d)
  }

  /** The sub-department is only required to be present: any non-blank value is
      accepted with either department, whether or not it belongs to it. */
  lemma SubDepartmentUnchecked(d: UserRegistration, sub: string)
    requires RegistrationValid(d) && !IsBlank(sub)
    ensures RegistrationValid(d.(subDepartment := sub))
  {
  }
}

=== FILE: user_repository.dfy ===
/** `UserRepository`: users looked up by key, by email ignoring case and by exact
    employment id; the existence check behind registration; a hard delete, with
    what the foreign keys on the asset and purchase-order tables make of it. */
module UserRepository {

  import opened Wrappers
  import opened Text
  import opened Tables
  import opened Entities

  /** `GetByIdAsync`. */
  function GetById(users: Table<User>, id: int): (r: Option<User>)
    ensures r.Some? <==> id in users
    ensures r.Some? ==> r.value == users[id]
  {
    Lookup(users, id)
  }

  /** `GetByEmailAsync`: the first user, by key, whose email equals `email`
      ignoring case. */
  function GetByEmail(users: Table<User>, email: string): (r: Option<Row<User>>)
    ensures r.Some? <==> exists k :: k in users && EqualsIgnoreCase(users[k].email, email)
    ensures r.Some? ==> r.value.id in users && r.value.rec == users[r.value.id] &&
                        EqualsIgnoreCase(r.value.rec.email, email)
    ensures r.Some? ==> forall k :: k in users && EqualsIgnoreCase(users[k].email, email) ==> r.value.id <= k
  {
    First(users, (u: User) => EqualsIgnoreCase(u.email, email))
  }

  /** `GetByEmploymentIdAsync`: the first user whose employment id is exactly
      `employmentId`. */
  function GetByEmploymentId(users: Table<User>, employmentId: string): (r: Option<Row<User>>)
    ensures r.Some? <==> exists k :: k in users && users[k].employmentId == employmentId
    ensures r.Some? ==> r.value.id in users && r.value.rec == users[r.value.id] &&
                        r.value.rec.employmentId == employmentId
  {
    First(users, (u: User) => u.employmentId == employmentId)
  }

  /** `CreateAsync`. */
  function Create(users: Table<User>, u: User): (r: (Table<User>, int))
    ensures r.1 !in users
    ensures r.0 == users[r.1 := u]
  {
    AddRow(users, u)
  }

  /** `UpdateAsync`: stores `u` under `id` with `UpdatedAt` stamped. */
  function Update(users: Table<User>, id: int, u: User, now: int): (r: Table<User>)
    ensures r.Keys == users.Keys + {id}
    ensures r[id] == u.(updatedAt := now)
    ensures forall k :: k in users && k != id ==> r[k] == users[k]
  {
    Put(users, id, u.(updatedAt := now))
  }

  /** Whether some asset or purchase order, active or deleted, names user `id` as
      its creator. Both foreign keys are `Restrict`, so while one does the database
      refuses to delete the user. */
  predicate CreatedAnything(assets: Table<Asset>, orders: Table<PurchaseOrder>, id: int)
  {
    || (exists k :: k in assets && assets[k].createdBy == id)
    || (exists k :: k in orders && orders[k].createdBy == id)
  }

  /** What `DeleteAsync` leaves: an unknown key, a save the database refuses, or
      the three tables after the delete. */
  datatype Deletion =
    | NotFound
    | Refused
    | Deleted(users: Table<User>, assets: Table<Asset>, orders: Table<PurchaseOrder>)

  /** Asset `a` once user `id` is gone: `AssignedToUserId` is `SetNull`, so an asset
      assigned to the user loses its assignee. The status is not touched. */
  function WithoutAssignee(a: Asset, id: int): Asset
  {
    if a.assignedTo == Some(id) then a.(assignedTo := None) else a
  }

  /** Order `po` once user `id` is gone: `UpdatedByUserId` is `SetNull`. */
  function WithoutReviser(po: PurchaseOrder, id: int): PurchaseOrder
  {
    if po.updatedBy == Some(id) then po.(updatedBy := None) else po
  }

  /** `DeleteAsync`: false for an unknown key; otherwise the row is removed and the
      change saved. The save throws while an asset or order names the user as its
      creator; otherwise the database clears every assignee and reviser reference
      to the user and changes nothing else. */
  function Delete(users: Table<User>, assets: Table<Asset>, orders: Table<PurchaseOrder>, id: int): (r: Deletion)
    ensures r.NotFound? <==> id !in users
    ensures r.Refused? <==> id in users && CreatedAnything(assets, orders, id)
    ensures r.Deleted? ==>
      && r.users == users - {id}
      && r.assets.Keys == assets.Keys && r.orders.Keys == orders.Keys
      && (forall k :: k in assets ==>
            && r.assets[k] == assets[k].(assignedTo := r.assets[k].assignedTo)
            && r.assets[k].assignedTo != Some(id)
            && (r.assets[k].assignedTo.Some? ==> r.assets[k].assignedTo == assets[k].assignedTo)
            && (assets[k].assignedTo != Some(id) ==> r.assets[k] == assets[k]))
      && (forall k :: k in orders ==>
            && r.orders[k] == orders[k].(updatedBy := r.orders[k].updatedBy)
            && r.orders[k].updatedBy != Some(id)
            && (r.orders[k].updatedBy.Some? ==> r.orders[k].updatedBy == orders[k].updatedBy)
            && (orders[k].updatedBy != Some(id) ==> r.orders[k] == orders[k]))
  {
    if id !in users then NotFound
    else if CreatedAnything(assets, orders, id) then Refused
    else Deleted(users - {id},
                 map k | k in assets :: WithoutAssignee(assets[k], id),
                 map k | k in orders :: WithoutReviser(orders[k], id))
  }

  /** Every user key an asset or order holds names an existing user: what the
      foreign keys on the creator, assignee and reviser columns keep. */
  ghost predicate ReferencesResolve(users: Table<User>, assets: Table<Asset>, orders: Table<PurchaseOrder>)
  {
    && (forall k :: k in assets ==>
          && assets[k].createdBy in users
          && (assets[k].assignedTo.Some? ==> assets[k].assignedTo.value in users))
    && (forall k :: k in orders ==>
          && orders[k].createdBy in users
          && (orders[k].updatedBy.Some? ==> orders[k].updatedBy.value in users))
  }

  /** A delete the database accepts leaves every reference resolving. */
  lemma DeleteKeepsReferencesResolving(users: Table<User>, assets: Table<Asset>, orders: Table<PurchaseOrder>, id: int)
    requires ReferencesResolve(users, assets, orders)
    ensures var r := Delete(users, assets, orders, id);
      r.Deleted? ==> ReferencesResolve(r.users, r.assets, r.orders)
  {
  }

  /** `ExistsAsync(email, employmentId)`: some user has the email ignoring case,
      or has exactly the employment id. */
  function Exists(users: Table<User>, email: string, employmentId: string): (r: bool)
    ensures r <==>
      exists k :: k in users && (EqualsIgnoreCase(users[k].email, email) || users[k].employmentId == employmentId)
  {
    First(users, (u: User) => EqualsIgnoreCase(u.email, email) || u.employmentId == employmentId).Some?
  }

  /** `ExistsAsync(id)` is declared by the interface but has no implementation;
      it is taken to mean that the key is in use. */
  predicate ExistsId(users: Table<User>, id: int)
  {
    id in users
  }

  /** Every stored email is lower-case, as registration writes it. */
  ghost predicate EmailsLowerCase(users: Table<User>)
  {
    forall k :: k in users ==> IsLowerCase(users[k].email)
  }

  /** Neither two emails (ignoring case) nor two employment ids are shared. */
  ghost predicate KeysUnique(users: Table<User>)
  {
    forall i, j :: i in users && j in users && i != j ==>
      !EqualsIgnoreCase(users[i].email, users[j].email) && users[i].employmentId != users[j].employmentId
  }

  /** With unique emails, the email lookup finds the one user with that email,
      whichever case the query uses. */
  lemma EmailLookupFindsOwner(users: Table<User>, id: int, email: string)
    requires KeysUnique(users) && id in users
    requires EqualsIgnoreCase(users[id].email, email)
    ensures GetByEmail(users, email) == Some(Row(id, users[id]))
  {
    var r := GetByEmail(users, email);
    assert r.Some?;
    if r.value.id != id {
      assert EqualsIgnoreCase(users[r.value.id].email, users[id].email);
    }
  }
}

=== FILE: user_service.dfy ===
/** `UserService`: registration and deletion of users. Password hashing is the
    parameter `hash`, an uninterpreted function standing for SHA-256 followed by
    Base64. */
module UserService {

  import opened Wrappers
  import opened Text
  import opened Tables
  import opened Entities
  import opened UserDtos
  import Repo = UserRepository

  datatype Outcome<T> = Outcome(users: Table<User>, response: Envelope<T>)

  /** A delete's answer together with the three tables it can change. */
  datatype Removal = Removal(users: Table<User>, assets: Table<Asset>, orders: Table<PurchaseOrder>,
                             response: Envelope<bool>)

  /** The user a registration writes. */
  function NewUser(d: UserRegistration, hash: string -> string, now: int): User
  {
    User(d.fullName, ToLower(d.email), d.employmentId, d.mobileNumber, hash(d.password),
         d.department, d.subDepartment, d.roleId, true, now, now)
  }

  /** Whether the user table takes `u` as a new row: the columns take every text
      (`UserFitsColumns`), and no row holds the email or the employment id the new
      row keeps (the two unique indexes, which compare exactly). */
  predicate StoreAccepts(users: Table<User>, u: User)
  {
    && UserFitsColumns(u)
    && forall k :: k in users ==>
         users[k].email != UserAsStored(u).email && users[k].employmentId != UserAsStored(u).employmentId
  }

  /** `RegisterUserAsync`. First the email (ignoring case) and the employment id
      must both be unused; then the role must exist, and an unknown role ends in
      the handler's generic message (the code dereferences the missing role);
      then the role must be active. The stored email is lower-cased and the
      password is stored hashed. A save the database rejects ends in the generic
      message too; a text longer than its column only by trailing spaces is cut to
      the column, and the response carries the user as written. */
  function Register(users: Table<User>, roles: Table<Role>, d: UserRegistration,
                    hash: string -> string, now: int): (r: Outcome<Row<User>>)
    ensures r.response.Error? ==> r.users == users
    ensures Repo.Exists(users, d.email, d.employmentId) ==>
      r.response == Error("User with this email or employment ID already exists")
    ensures !Repo.Exists(users, d.email, d.employmentId) && d.roleId !in roles ==>
      r.response == Error("An error occurred while registering the user")
    ensures (!Repo.Exists(users, d.email, d.employmentId) && d.roleId in roles && !roles[d.roleId].isActive) ==>
      r.response == Error("Selected role is not active")
    ensures (!Repo.Exists(users, d.email, d.employmentId) && d.roleId in roles && roles[d.roleId].isActive &&
             !StoreAccepts(users, NewUser(d, hash, now))) ==>
      r.response == Error("An error occurred while registering the user")
    ensures r.response.Ok? <==>
      !Repo.Exists(users, d.email, d.employmentId) && d.roleId in roles && roles[d.roleId].isActive &&
      StoreAccepts(users, NewUser(d, hash, now))
    ensures r.response.Ok? ==>
      var id := r.response.data.id;
      var u := r.response.data.rec;
      && id !in users && r.users == users[id := UserAsStored(u)]
      && r.response.note == Some("User registered successfully")
      && u.email == ToLower(d.email) && u.passwordHash == hash(d.password)
      && u.roleId == d.roleId && u.isActive
      && u.fullName == d.fullName && u.employmentId == d.employmentId && u.mobileNumber == d.mobileNumber
      && u.department == d.department && u.subDepartment == d.subDepartment
  {
    if Repo.Exists(users, d.email, d.employmentId) then
      Outcome(users, Error("User with this email or employment ID already exists"))
    else if d.roleId !in roles then
      Outcome(users, Error("An error occurred while registering the user"))
    else if !roles[d.roleId].isActive then
      Outcome(users, Error("Selected role is not active"))
    else if !StoreAccepts(users, NewUser(d, hash, now)) then
      Outcome(users, Error("An error occurred while registering the user"))
    else
      var u := NewUser(d, hash, now);
      var (users', id) := Repo.Create(users, UserAsStored(u));
      Outcome(users', Ok(Row(id, u), Some("User registered successfully")))
  }

  /** `DeleteUserAsync`: a hard delete. A user who created an asset or a purchase
      order cannot be deleted; the refused save ends in the catch-all message.
      Otherwise assets assigned to the user and orders last revised by the user
      lose that reference. */
  function Delete(users: Table<User>, assets: Table<Asset>, orders: Table<PurchaseOrder>, id: int): (r: Removal)
    ensures r.response.Ok? <==> id in users && !Repo.CreatedAnything(assets, orders, id)
    ensures id !in users ==> r.response == Error("User not found")
    ensures id in users && Repo.CreatedAnything(assets, orders, id) ==>
      r.response == Error("An error occurred while deleting the user")
    ensures r.response.Error? ==> r.users == users && r.assets == assets && r.orders == orders
    ensures r.response.Ok? ==>
      && r.response == Ok(true, Some("User deleted successfully"))
      && r.users == users - {id}
      && r.assets.Keys == assets.Keys && r.orders.Keys == orders.Keys
      && (forall k :: k in r.assets ==> r.assets[k].createdBy != id && r.assets[k].assignedTo != Some(id))
      && (forall k :: k in r.orders ==> r.orders[k].createdBy != id && r.orders[k].updatedBy != Some(id))
      // every other field, and every reference to another user, stays as it was
      && (forall k :: k in assets ==>
            && r.assets[k] == assets[k].(assignedTo := r.assets[k].assignedTo)
            && (assets[k].assignedTo != Some(id) ==> r.assets[k] == assets[k]))
      && (forall k :: k in orders ==>
            && r.orders[k] == orders[k].(updatedBy := r.orders[k].updatedBy)
            && (orders[k].updatedBy != Some(id) ==> r.orders[k] == orders[k]))
  {
    match Repo.Delete(users, assets, orders, id)
    case NotFound => Removal(users, assets, orders, Error("User not found"))
    case Refused => Removal(users, assets, orders, Error("An error occurred while deleting the user"))
    case Deleted(users', assets', orders') =>
      Removal(users', assets', orders', Ok(true, Some("User deleted successfully")))
  }

  // ---------------------------------------------------------------- properties

  /** The stored email of a registration is lower-case, cut or not. */
  lemma StoredEmailLowerCase(d: UserRegistration, hash: string -> string, now: int)
    ensures IsLowerCase(UserAsStored(NewUser(d, hash, now)).email)
  {
    var e := UserAsStored(NewUser(d, hash, now)).email;
    assert e == ToLower(d.email)[..|e|];
  }

  /** Registration keeps every stored email lower-case, and keeps emails (ignoring
      case) and employment ids unique. The second needs the first: the unique
      index compares emails exactly, and a cut email can equal an upper-case one
      ignoring case only. */
  lemma RegisterKeepsKeysUnique(users: Table<User>, roles: Table<Role>, d: UserRegistration,
                                hash: string -> string, now: int)
    requires Repo.KeysUnique(users) && Repo.EmailsLowerCase(users)
    ensures Repo.EmailsLowerCase(Register(users, roles, d, hash, now).users)
    ensures Repo.KeysUnique(Register(users, roles, d, hash, now).users)
  {
    var r := Register(users, roles, d, hash, now);
    if r.response.Ok? {
      var nid := r.response.data.id;
      var stored := UserAsStored(r.response.data.rec);
      StoredEmailLowerCase(d, hash, now);
      AddingUnheldKeysKeepsThemUnique(users, nid, stored);
    }
  }

  /** A lower-case row whose email and employment id no row holds exactly can join
      a table of lower-case, unique keys without breaking either. */
  lemma AddingUnheldKeysKeepsThemUnique(users: Table<User>, nid: int, stored: User)
    requires Repo.KeysUnique(users) && Repo.EmailsLowerCase(users)
    requires nid !in users && IsLowerCase(stored.email)
    requires forall k :: k in users ==> users[k].email != stored.email && users[k].employmentId != stored.employmentId
    ensures Repo.EmailsLowerCase(users[nid := stored])
    ensures Repo.KeysUnique(users[nid := stored])
  {
    var t := users[nid := stored];
    ToLowerFixesLowerCase(stored.email);
    forall k | k in users
      ensures !EqualsIgnoreCase(users[k].email, stored.email) && users[k].employmentId != stored.employmentId
    {
      ToLowerFixesLowerCase(users[k].email);
    }
    forall i, j | i in t && j in t && i != j
      ensures !EqualsIgnoreCase(t[i].email, t[j].email) && t[i].employmentId != t[j].employmentId
    {
      if j == nid {
      } else if i == nid {
        assert !EqualsIgnoreCase(t[j].email, t[i].email);
      }
    }
  }

  /** An unknown role always ends in the generic failure, whatever else the
      request says, once the email and employment id are free. */
  lemma UnknownRoleFails(users: Table<User>, roles: Table<Role>, d: UserRegistration,
                         hash: string -> string, now: int)
    requires d.roleId !in roles
    ensures Register(users, roles, d, hash, now).response.Error?
    ensures Register(users, roles, d, hash, now).users == users
  {
  }

  /** Validation bounds every stored text of a registration but the
      sub-department. So a valid registration is stored whole exactly when its
      sub-department has at most 50 characters, and the table takes it exactly
      when every character past the 50th is a space. */
  lemma ValidRegistrationFitsUserColumns(d: UserRegistration, hash: string -> string, now: int)
    requires RegistrationValid(d)
    ensures UserWithinColumns(NewUser(d, hash, now)) <==> |d.subDepartment| <= 50
    ensures UserFitsColumns(NewUser(d, hash, now)) <==> FitsColumn(d.subDepartment, 50)
  {
    assert |d.department| <= 50 by {
      assert d.department == Departments[0] || d.department == Departments[1];
    }
  }

  /** Before the save, the exact index checks can only fail for a registration
      whose keys the columns cut: a row kept whole with a free email and employment
      id clashes with no row. */
  lemma IndexesCatchOnlyCutKeys(users: Table<User>, d: UserRegistration, hash: string -> string, now: int)
    requires !Repo.Exists(users, d.email, d.employmentId)
    requires UserWithinColumns(NewUser(d, hash, now))
    ensures StoreAccepts(users, NewUser(d, hash, now))
  {
    forall k | k in users
      ensures users[k].email != ToLower(d.email)
    {
      ToLowerIdempotent(d.email);
      assert !EqualsIgnoreCase(users[k].email, d.email);
    }
  }

  /** A delete the database accepts frees the user's email and employment id: once
      no other user shares them, no user holds either afterwards. */
  lemma DeleteFreesKeys(users: Table<User>, assets: Table<Asset>, orders: Table<PurchaseOrder>, id: int)
    requires Repo.KeysUnique(users) && id in users
    ensures var r := Delete(users, assets, orders, id);
            r.response.Ok? ==> !Repo.Exists(r.users, users[id].email, users[id].employmentId)
  {
    var r := Delete(users, assets, orders, id);
    if r.response.Ok? {
      forall k | k in r.users
        ensures !EqualsIgnoreCase(r.users[k].email, users[id].email) && r.users[k].employmentId != users[id].employmentId
      {
        assert k in users && k != id && r.users[k] == users[k];
      }
    }
  }

  /** Deleting an assignee clears the reference but not the status: an asset that
      satisfied the assignment invariant can be left `Assigned` with no assignee. */
  lemma DeleteCanStrandAssignedAsset()
    ensures exists users: Table<User>, assets: Table<Asset>, id: int, k: int ::
      && k in assets && AssignmentConsistent(assets[k])
      && var r := Delete(users, assets, map[], id);
      && r.response.Ok? && k in r.assets && !AssignmentConsistent(r.assets[k])
  {
    var user := User("u", "e", "1", None, "h", "d", "s", 1, true, 0, 0);
    var users := map[1 := user, 2 := user];
    var a := NewAsset(0).(createdBy := 2, assignedTo := Some(1), status := Assigned);
    var assets := map[1 := a];
    var r := Delete(users, assets, map[], 1);
    assert !Repo.CreatedAnything(assets, map[], 1);
    assert r.response.Ok?;
    assert r.assets[1] == a.(assignedTo := None);
  }
}

=== FILE: wrappers.dfy ===
/** Optional values and the uniform result envelope every entity service returns. */
module Wrappers {

  /** A value that may be absent: the model of a nullable reference or `int?`. */
  datatype Option<+T> = None | Some(value: T)
  {
    function GetOr(default: T): T
    {
      match this
      case Some(v) => v
      case None => default
    }
  }

  /** The response envelope of the services (`ApiResponseDto<T>`): either a success
      carrying a payload and an optional message, or a failure carrying a message.
      A success created without a message keeps the envelope's default message,
      which is written here as `None`. */
  datatype Envelope<+T> =
    | Ok(data: T, note: Option<string>)
    | Error(message: string)
  {
    predicate Succeeded()
    {
      Ok?
    }
  }
}
